=== FILE: README.md ===
# Crypto portfolio tracker: the data-normalisation core in Dafny

This project models the part of the crypto portfolio tracker that turns exchange data into a
single normalised view, and proves properties of it. It covers:

- **Ticker and pair normalisation.** `split_pair` splits raw exchange pairs such as `XXBTZUSD`
  into accepted currencies. `parse_pairs_from_series` applies it to a column. Legacy tickers are
  remapped (`XDG`→`DOGE`, `XBT`→`BTC`), and dud entries are dropped while the list is iterated.
- **Daily balance deltas.** The kraken trade and ledger aggregations and the coinbase
  aggregation apply a signed rule to each row and then sum per date.
- **Balance table and wallet settings.** The balance table names its columns per wallet and adds
  a `Total` column. The settings dictionary is nested: wallet type, then subtype, then a list of
  wallets. Entries are added and removed, empty subtypes are cleaned, the next id is computed,
  and credentials are masked.
- **Price tables.**
  - The exchange's price-list builder aliases staked symbols (`.S`, `ETH2`), reuses columns
    already present and falls back through stable coins.
  - `fetch_daily_price_pairs` skips pairs already recorded and records new ones in a list that
    outlives the call.
- **The exchange clients for kraken, coinbase, bittrex and coingecko.** Each one has lazily
  filled per-instance caches that a `refresh` flag bypasses. They derive valid symbols and
  assets, filter balances, reshape symbols (`A/B`, `A-B`, `AB`), select the OHLC result key,
  compute the midpoint price and parse transaction records.
- **The public-API helpers** in API_functions.py, and the older copies of the pair, remap,
  aggregation and parse functions in functions.py.

Representation choices:

- A Python dict is an ordered list of key/value pairs (`OrderedDicts.Dict`). `Lookup` reads the
  last entry for a key; `Put` keeps keys unique, updating an existing entry in place. A dict built by assignment in a loop is `FromPairs`, where
  the last value for a key wins.
- A raised exception is `Result.Fail(name)`. A `None` return is `Option.None`.
- Amounts are `real`. Times are integer seconds, and dates are day numbers.
- A dataframe is a sequence of records. A per-date sum is a `map<int, map<string, real>>`.
- HTTP responses are method parameters, and are read only when the source would have sent the
  request. Each client class records the endpoints it requested in a ghost `requests` log.
- Price fetches are an oracle `string -> Option<PriceFrame>`, and the price-list builder returns
  the keys it fetched.

Modules follow the source:

- **Python built-ins:** `Wrappers`, `Strings`, `OrderedDicts` and `Lists`.
- **TEMPLATE_config.py:** `Config`.
- **lib/functions.py and functions.py:** `PairSplit`, `Remap`, `Aggregate`, `Settings` and
  `Balances`.
- **lib/exchange.py:** `Exchange`.
- **Shared by the exchange clients:** `Prices` and `Http`.
- **The exchange clients:** `KrakenRecords` and `Kraken`, `CoinbaseRecords` and `Coinbase`,
  `Bittrex`, and `CoinGecko`.
- **API_functions.py:** `ApiFunctions`.

## Model

| member | source | states |
|---|---|---|
| PairSplit.SplitSpec | lib/functions.py:23-55 | each half of a split pair is either `''` or an accepted currency |
| PairSplit.Candidates | lib/functions.py:28-29 | the variants tried are four per accepted currency, each belonging to an accepted currency |
| PairSplit.CandidatesAt | lib/functions.py:28-29 | the candidates are tried currency by currency in list order, each as c, `X`+c, `XX`+c, `Z`+c |
| PairSplit.FirstMatch | lib/functions.py:37-44 | a found variant is one of the candidates and matches the start (or end) of the pair |
| PairSplit.FirstMatchCharacterised | lib/functions.py:37-44 | no variant is found iff no candidate matches; a found one matches and no earlier candidate does |
| PairSplit.FirstMatchIsFirst | lib/functions.py:37-44 | a matching candidate with no matching candidate before it is the one chosen |
| PairSplit.BareTicker | lib/functions.py:12-14 | a bare accepted ticker `c` splits into `[c, c]` when no earlier variant is its prefix or suffix (the whole-string branch changes nothing) |
| PairSplit.KrakenSpelling | lib/functions.py:28-44 | `XXBTZUSD` splits into `XBT` and `USD` |
| PairSplit.SplitPair | lib/functions.py:23-55 | the flag-dictionary loop returns exactly the first-match split: left from the first variant the pair starts with, right from the first it ends with |
| PairSplit.SplitPairOlder | functions.py:4-36 | the older loop, without the whole-string branch, returns the same split as SplitPair for every input |
| PairSplit.ParsePairsFromSeries | lib/functions.py:57-75 | one split per row, into columns `pair_1` and `pair_2`, each half `''` or accepted |
| Remap.RemapAndDedupeAssets | lib/functions.py:88-97 | the caller's list is rewritten through the remap table, and duds are removed while it is iterated; the result is the set of what remains |
| Remap.DedupeWithoutAdjacentDuds | lib/functions.py:93-97 | with no two adjacent duds, exactly the non-dud renamed entries remain |
| Remap.DedupeKeepsNonDuds | lib/functions.py:93-97 | removal never adds an entry and never drops a non-dud one |
| Remap.AdjacentDudsSurvive | lib/functions.py:94-96 | of two adjacent duds the second survives: `['', '', 'BTC']` leaves `['', 'BTC']` |
| Remap.RemapIdempotent | lib/functions.py:88-92 | when no remap value is itself a key, renaming twice equals renaming once |
| Remap.ConfigRemapIdempotent | TEMPLATE_config.py:39-40 | the configured remap table is idempotent |
| Remap.RemapSeries | lib/functions.py:111-113 | each value has every occurrence of each key replaced, in table order |
| Remap.RemapStringAbsent | lib/functions.py:111-113 | a value containing no key is unchanged |
| Remap.ConfigRemapSeries | lib/functions.py:111-113 | under the configured table `XDG` becomes `DOGE` and `XBT` becomes `BTC` |
| Remap.ConfigRemapAgrees | lib/functions.py:88-113 | for the configured table, whole-entry renaming (lib/functions.py:88-92) and substring renaming (lib/functions.py:111-113) agree on the four tickers XDG, XBT, DOGE and BTC |
| Remap.EmbeddedTickerDisagrees | lib/functions.py:88-113 | the two renamings differ in general: `XBTC` is kept in a list but becomes `BTCC` in a series |
| Lists.RemoveFirst | lib/functions.py:96 | `list.remove` takes out exactly one copy of a present element, leaving the rest as a multiset, and leaves the list unchanged when the element is absent |
| Lists.RemoveFirstAt | lib/functions.py:96 | the copy removed is the first one: the elements before and after it are kept in order |
| Lists.RemoveWhileIteratingLoop | lib/functions.py:94-96 | the index-advancing removal loop equals its recursive specification |
| Lists.RemoveWhileIteratingKeeps | lib/functions.py:94-96 | removal while iterating only removes, and keeps every occurrence of a value it does not drop |
| Lists.RemoveWhileIteratingRejects | lib/functions.py:94-96 | with no two adjacent dropped entries, removal while iterating equals filtering |
| Lists.RejectMembers | lib/functions.py:94-96 | filtering keeps exactly the members that are not dropped |
| Aggregate.ApplyTradeRules | lib/functions.py:138-144 | the five trade assignments add each row's signed trade delta to the currency's column |
| Aggregate.TradeColumns | lib/functions.py:134-144 | the currency loop gives every listed currency, and only those, a column of its trade deltas, applied once per listing |
| Aggregate.KrakenAggregateTrade | lib/functions.py:115-146 | one entry per trade date; each requested currency's daily total is its summed trade deltas, counted once per listing of the currency |
| Aggregate.AggregateTrade | functions.py:76-104 | the older version resets each column first, so each requested currency's daily total is exactly its summed trade deltas |
| Aggregate.TradeVersionsAgree | functions.py:90 | the two trade versions agree on every currency listed once |
| Aggregate.TradeUntouched | lib/functions.py:138-144 | a currency in no row's pair has a zero daily total |
| Aggregate.TradeOnAppend | lib/functions.py:146 | daily totals over two batches of rows add up |
| Aggregate.TradeExample | lib/functions.py:138-144 | buying 1.0 BASE for 100 QUOTE with fee 0.1 gives BASE +1.0 and QUOTE −100.1; selling gives −1.0 and +99.9 |
| Aggregate.DayTotalAdd | lib/functions.py:146 | summing per date distributes over adding two columns |
| Aggregate.DayTotalScaled | lib/functions.py:146 | summing per date commutes with applying a rule several times |
| Aggregate.DayTotalAppend | lib/functions.py:146 | summing per date over concatenated rows is the sum of the two parts |
| Aggregate.DayTotalZero | lib/functions.py:146 | a zero column sums to zero on every date |
| Aggregate.TimesIsProduct | lib/functions.py:134-144 | applying a rule m times to a value is multiplying it by m |
| Aggregate.LedgerFeeColumns | lib/functions.py:161-164 | every currency gets a column holding its fee deductions, applied once per listing |
| Aggregate.ApplyFiatRules | lib/functions.py:171-174 | deposits add and withdrawals subtract the amount on the currency's column |
| Aggregate.AddFiatColumns | lib/functions.py:167-174 | only fiat currencies get deposits and withdrawals; other columns are unchanged |
| Aggregate.AggregateLedger | lib/functions.py:148-176 | one entry per ledger date; each currency's daily total is minus its fees, plus net deposits when it is fiat |
| Aggregate.LedgerExample | lib/functions.py:164-174 | a USD deposit of 100 with fee 1 nets 99; a crypto deposit without fee nets 0 |
| Aggregate.LedgerIgnoresCryptoAmounts | lib/functions.py:161-164 | fee totals do not depend on row amounts |
| Aggregate.CoinbaseColumns | lib/functions.py:196-203 | the currency loop gives every listed currency, and only those, a column of its coinbase deltas, applied once per listing |
| Aggregate.CoinbaseAggregate | lib/functions.py:178-205 | one entry per date; each currency's daily total is its summed coinbase deltas (vol − fee on its own rows; buys move pair_1 by +vol and pair_2 by −cost), with missing values as 0 |
| Aggregate.CoinbaseSellExample | lib/functions.py:200-203 | a sell moves only the asset's own column; a send with no fee moves it by vol |
| Balances.AddColumnsByIndex | lib/functions.py:428-441 | the `Total` column is appended to every row as the running sum of the earlier columns |
| Balances.TotalIsColumnSum | lib/functions.py:438-441 | `Total` is the sum of the columns that existed before it, with missing values as 0 |
| Balances.ColumnSumAppend | lib/functions.py:440-441 | adding one more column to the sum adds that column's value or 0 |
| Balances.TotalColumnCountedTwice | lib/functions.py:438-441 | on a frame that already has `Total`, `df['Total']=0` discards the old total and the loop doubles the running sum when it reaches `Total`: columns 1, 5, 10 give 12, not 11 |
| Balances.RunningTotalAbsent | lib/functions.py:438-441 | a row whose only value lies outside the columns totals 0 |
| Balances.RunningTotalSingle | lib/functions.py:438-441 | a row with a single value in one of the columns totals that value |
| Balances.NatToString | lib/functions.py:418 | a wallet counter is written as decimal digits |
| Balances.NatToStringRoundTrip | lib/functions.py:418 | reading the written counter back gives the counter |
| Balances.ColumnName | lib/functions.py:417-420 | a wallet's column name starts with its subtype |
| Balances.ColumnNamesDistinct | lib/functions.py:417-420 | two wallets of one subtype get different column names |
| Balances.WalletCells | lib/functions.py:416-423 | one cell per returned balance |
| Balances.TickerBalances | lib/functions.py:416-423 | the loop over balances produces one cell per ticker, labelled with its renamed first currency |
| Balances.WalletBalances | lib/functions.py:410-424 | the loop over wallets produces the cells of each API wallet of a kraken or coinbase subtype, numbering the wallets |
| Balances.SubtypeBalances | lib/functions.py:409-424 | the loop over subtypes concatenates their wallets' cells |
| Balances.BalancesFromDict | lib/functions.py:393-426 | the table stacks one row per cell and then adds `Total` |
| Balances.WalletsCellsNotTotal | lib/functions.py:417-420 | no wallet's column is named `Total` |
| Balances.SubtypesCellsNotTotal | lib/functions.py:409-424 | no subtype produces a column named `Total` |
| Balances.AllCellsNotTotal | lib/functions.py:408-424 | no cell of the table lies in a column named `Total` |
| Balances.BalanceTable | lib/functions.py:393-441 | one row per (wallet, ticker) labelled by the ticker's renamed currency, holding the balance in its wallet's column and a `Total` equal to it |
| Settings.EmptyKeys | lib/functions.py:299-302 | the keys collected for deletion are exactly the subtypes whose list is empty |
| Settings.CleanAll | lib/functions.py:288-305 | cleaning keeps every wallet type |
| Settings.CleanSubtypeDict | lib/functions.py:299-304 | collecting and then popping the empty subtypes yields the cleaned dictionary |
| Settings.CleanSubtypesEntries | lib/functions.py:299-304 | after cleaning, exactly the non-empty subtypes remain, and keys stay unique |
| Settings.LookupClean | lib/functions.py:299-304 | a subtype reads the same after cleaning unless its list was empty, in which case it is gone |
| Settings.LookupCleanAll | lib/functions.py:298-305 | cleaning acts on every wallet type's subtypes and nothing else |
| Settings.CleanIdempotent | lib/functions.py:288-305 | cleaning twice is cleaning once |
| Settings.NoEmptyKeys | lib/functions.py:299-304 | after cleaning no subtype maps to an empty list |
| Settings.RemoveId | lib/functions.py:354-357 | removing by id keeps every subtype |
| Settings.AppSettings.Clean | lib/functions.py:288-305 | the settings object is replaced by its cleaned form |
| Settings.AppSettings.AddEntry | lib/functions.py:317-338 | an unknown wallet type fails with KeyError and changes nothing; otherwise each entry is appended to its subtype and the result is cleaned |
| Settings.AppSettings.RemoveEntry | lib/functions.py:341-359 | an unknown wallet type fails with KeyError and changes nothing; otherwise wallets with the id are removed while iterating and the result is cleaned |
| Settings.AppendAllLookup | lib/functions.py:329-336 | appending entries keeps keys unique and appends each subtype's last given wallet |
| Settings.LastIndex | lib/functions.py:329 | the position of a key's last entry holds that key and its value |
| Settings.AppendAllOnce | lib/functions.py:329-336 | with unique entry keys, each subtype's list grows by its wallet at the end and every other list is untouched |
| Settings.AddEntryAppends | lib/functions.py:317-338 | after adding, a named subtype's list is its old list plus the new wallet; the other subtypes read as before, with emptied lists gone |
| Settings.RemoveEntryRemoves | lib/functions.py:341-359 | for a known wallet type whose subtypes are unique and where no two neighbouring wallets share the id, every subtype loses exactly its wallets with that id and keeps every other wallet |
| Settings.MaxId | lib/functions.py:373-376 | the maximum of the ids and −1 bounds every id and is −1 or one of them |
| Settings.IdsMembers | lib/functions.py:374-375 | every wallet's id is among the ids collected |
| Settings.LatestIndexFresh | lib/functions.py:361-376 | the next index exists iff the wallet type exists; it is non-negative, larger than every id, and 0 or one past an existing id |
| Settings.DefaultSettings | lib/functions.py:274-286 | the default settings are already clean, and both wallet types start at index 0 |
| Settings.MaskStr | lib/functions.py:378-391 | an empty string raises IndexError; shorter than 8 keeps the first character plus `...`; otherwise the first three, `...`, and the last three |
| Settings.MaskHidesMiddle | lib/functions.py:388-391 | strings that share those visible characters are masked alike |
| Exchange.StakeKeyStaked | lib/exchange.py:36-38 | `DOT.S/USD` is looked up as `DOT/USD` |
| Exchange.StakeKeyEther | lib/exchange.py:36-38 | `ETH2.S/USD` is looked up as `ETH/USD` |
| Exchange.StakeKeyPlain | lib/exchange.py:36-38 | a symbol without `.S` or `ETH2` is its own key |
| Exchange.EtherUnstaked | lib/exchange.py:36 | removing `.S` from `ETH2.S/USD` gives `ETH2/USD` |
| Exchange.EtherRenamed | lib/exchange.py:37-38 | `ETH2/USD` becomes `ETH/USD` |
| Exchange.UsdSymbols | lib/kraken.py:224-226 | the balance symbols are `asset` + separator + `USD`, exactly for the non-fiat assets |
| Exchange.Step | lib/exchange.py:35-59 | adding one symbol never removes or alters an existing column |
| Exchange.AddSymbol | lib/exchange.py:35-59 | the loop body for one symbol performs exactly the specified step: copy a present key, or fetch the key and then the alternates, or fail at the copy `df[symbol] = df[temp_symbol].copy()` on no frame, with the step's own error |
| Exchange.HistoricalPricesList | lib/exchange.py:19-59 | the loop over symbols builds exactly the specified table and fetch list, and fails with exactly the table's error when a step fails |
| Exchange.PullNew | lib/exchange.py:46-53 | after the key's own answer, each stable-coin alternate is asked in order while nothing has been obtained and alternates are allowed |
| Exchange.PullOrder | lib/exchange.py:49-53 | the fetches are the key followed by a prefix of the alternates, which replace `native` in the original symbol |
| Exchange.StepPresentKey | lib/exchange.py:41-44 | a key already present is not fetched, and the symbol's column is added as a copy of the key's column |
| Exchange.StepSingleFetch | lib/exchange.py:46-53 | without stable-coin alternates exactly one fetch is made per new key |
| Exchange.StakedWithoutPrices | lib/exchange.py:56-57 | a staked symbol whose fetches all fail raises at the copy `df[symbol] = df[temp_symbol].copy()`, having no frame |
| Exchange.TableGrows | lib/exchange.py:32-59 | a successful table extends the table built from every prefix of the symbols |
| Exchange.TableFails | lib/exchange.py:32-59 | once a symbol fails, the whole call fails with that symbol's error |
| Exchange.NoRefetch | lib/exchange.py:41-46 | a key already obtained within the call is not fetched again |
| Prices.Day | lib/kraken.py:270-271 | a time's date, as `.dt.date` truncates it here and at lib/coinbase.py:304, is the day whose 86400 seconds contain it |
| Prices.Midpoints | lib/kraken.py:207-208 | the price of each date is midway between its high and its low |
| Prices.PriceColumn | lib/kraken.py:204-209 | nothing without candles; otherwise one column named after the symbol holding the midpoints |
| Prices.SelectOhlc | lib/kraken.py:181-186 | the candles come from the first result key unless it is `last`, then from the second |
| Http.Answer | lib/kraken.py:71-84 | a response is used only when its status is 200 and it carries a result |
| Http.WholeAnswer | lib/coinbase.py:78-88 | the whole body is used iff the status is 200 and it has a `result` member (also lib/bittrex.py:75-85) |
| Http.Cached | lib/kraken.py:71-84 | without refresh a set cache is returned; otherwise the fresh answer is |
| Http.Stored | lib/kraken.py:71-84 | the cache is set from a returned value and otherwise kept |
| KrakenRecords.Rows | lib/kraken.py:257-273 | one row per entry, keyed by its id, with its type and its date |
| KrakenRecords.ParseApiResults | lib/kraken.py:257-273 | the concatenating loop produces exactly those rows |
| KrakenRecords.ParseResultObject | API_functions.py:173-190 | a missing `result` gives no rows when the body has an `error` member and raises KeyError otherwise; a present object gives its rows |
| KrakenRecords.ParseResultObjectOlder | functions.py:130-146 | without `result` it raises KeyError after printing; otherwise as above |
| KrakenRecords.NonTrades | lib/kraken.py:331 | exactly the rows whose type is not `trade` |
| Kraken.WsNames | lib/kraken.py:121-124 | the symbols are exactly the `wsname` of each pair that has one |
| Kraken.RenameKeys | lib/kraken.py:75-78 | one entry per returned ticker |
| Kraken.Kraken.RenameBalances | lib/kraken.py:75-78 | the loop assigns each renamed ticker its value, and evaluates `getValidAssets_Universal()` once per balance: the caches and requests are those of that many lookups in a row |
| Kraken.RenamedBalances | lib/kraken.py:75-78 | a ticker's value is found under its renamed key, unchanged and not filtered for zero |
| Kraken.LedgerOf | lib/kraken.py:328-332 | a cached ledger holds no trade row |
| Kraken.LedgerKeepsNonTrades | lib/kraken.py:328-332 | the ledger is exactly the non-trade rows |
| Kraken.OhlcPair | lib/kraken.py:156-157 | the request pair fails with IndexError iff the symbol has no `/` |
| Kraken.OhlcPairJoins | lib/kraken.py:156-157 | `A/B` is requested as `AB` |
| Kraken.OhlcPairNeedsSlash | lib/kraken.py:156-157 | a symbol without `/` raises |
| Kraken.HistoricalCandles | lib/kraken.py:146-191 | the request pair must exist; an accepted response yields the candles under the selected result key, and fails exactly when that selection fails; a rejected response yields none |
| Kraken.HistoricalPriceFrame | lib/kraken.py:193-209 | a frame exists iff the candles exist and are non-empty, and is then their midpoint column named after the symbol; it fails exactly when the candles fail |
| Kraken.Kraken.constructor | lib/kraken.py:14-24 | every cache starts unset, and nothing has been requested |
| Kraken.Kraken.GetBalancesUniversal | lib/kraken.py:60-84 | the cached balances are returned unless refreshed; a request fills the cache only when it succeeds, and on an accepted response the valid assets are looked up once per balance (lib/kraken.py:77), which fills the pair, symbol and asset caches and requests the pairs endpoint as those lookups do |
| Kraken.Kraken.GetValidSymbols | lib/kraken.py:86-105 | the cached pairs are returned unless refreshed; a failed request leaves the cache unset |
| Kraken.Kraken.GetValidSymbolsUniversal | lib/kraken.py:107-126 | the three symbol caches become exactly `AfterSymbols` of the old ones (a hit changes nothing; a miss stores the pairs and their `wsname` list), and only the pairs endpoint is requested, and only on a miss |
| Kraken.Kraken.GetValidAssetsUniversal | lib/kraken.py:128-144 | the caches become exactly `AfterAssets` of the old ones, storing the distinct assets of the universal symbols on a miss, with the requests of that lookup |
| Kraken.Kraken.GetTrades | lib/kraken.py:275-297 | the parsed `trades` object is cached; a failed request caches nothing |
| Kraken.Kraken.GetLedger | lib/kraken.py:313-337 | the non-trade rows of the ledger are cached, and an empty ledger caches nothing |
| Kraken.Kraken.GetTradesPairs | lib/kraken.py:299-311 | always TypeError: with trades, from calling `parse_pairs_from_series` with three arguments after the valid assets are obtained; without trades it returns None, and the TypeError is its only caller's unpacking of None (lib/kraken.py:243). The trades cache and request are as `Cached` and `Asked` say, and the valid-asset caches and requests change only when trades were obtained |
| Kraken.Kraken.HistoricalPricesForTransactions | lib/kraken.py:229-255 | it always raises TypeError once the ledger and trades are obtained, so no price is requested; the caches and requests are exactly those of the ledger, trades and asset lookups |
| Kraken.Kraken.HistoricalPricesForBalances | lib/kraken.py:211-227 | the price table of `ASSET/USD` for every non-fiat balance, or nothing without balances; the balance endpoint is requested on a miss, followed by the pairs requests of the per-balance asset lookups, and the pair, symbol and asset caches end as those lookups leave them |
| Kraken.AfterAssetsIdempotent | lib/kraken.py:128-144 | a second asset lookup without refresh leaves the caches as the first one left them |
| Kraken.LookupsSettle | lib/kraken.py:76-77 | however many balances are renamed, the caches end as after a single asset lookup |
| Kraken.LookupsAskOnce | lib/kraken.py:76-77 | with an accepted pairs response, the renaming loop requests the pairs at most once, however many balances there are |
| Kraken.LookupsRepeat | lib/kraken.py:76-77 | with no cache set and a failing pairs response, every balance requests the pairs again and no cache is filled |
| CoinbaseRecords.TxRowOf | lib/coinbase.py:264-306 | a row carries the item's id, type and day. A buy carries vol, cost and pair `X/Y`. A confirmed or unconfirmed send carries the absolute amount and the fee. Missing parts raise, and an unsupported send raises only in the strict version |
| CoinbaseRecords.TxRowsPerItem | lib/coinbase.py:264-306 | parsing succeeds iff every item does, and yields one row per item |
| CoinbaseRecords.TxRowsFails | lib/coinbase.py:264-306 | once an item fails, the whole parse fails |
| CoinbaseRecords.ParseTransactions | lib/coinbase.py:264-306 | the concatenating loop equals the specified parse |
| Coinbase.NonZeroPairs | lib/coinbase.py:106-107 | the entries are exactly (currency, amount) of the accounts with a non-zero amount |
| Coinbase.NonZeroBalances | lib/coinbase.py:103-107 | the loop builds the dictionary of those entries |
| Coinbase.BalancesOmitZero | lib/coinbase.py:103-107 | a currency is present iff some account holds a non-zero amount of it, and then it holds the last such amount |
| Coinbase.CryptoCurrencies | lib/coinbase.py:127-130 | the assets are exactly the non-fiat account currencies |
| Coinbase.NativeSymbols | lib/coinbase.py:148-152 | the symbols are exactly `ASSET/native` for the non-fiat assets |
| Coinbase.ProductIdOfPair | lib/coinbase.py:166 | `A/B` is requested as product `A-B` |
| Coinbase.HistoricalPriceFrame | lib/coinbase.py:166-208 | as written: an accepted list body (what the candles endpoint sends) raises AttributeError at `.keys()`, and every other response gives no frame |
| Coinbase.IntendedPriceFrame | lib/coinbase.py:185-208 | intended: a frame exists iff an accepted list body has candles, and is then their midpoint column named after the symbol |
| Coinbase.ListBodyRaises | lib/coinbase.py:166-208 | one daily candle: the code as written raises, the intended frame holds its midpoint |
| Coinbase.TransactionSymbols | lib/coinbase.py:241-246 | exactly `asset/native` for every recorded asset, together with every recorded pair, each once |
| Coinbase.AssetSymbols | lib/coinbase.py:244 | exactly `asset/native` for every row with an asset |
| Coinbase.RowPairs | lib/coinbase.py:245 | exactly the pairs recorded |
| Coinbase.AllTransactionsFails | lib/coinbase.py:347-352 | once a wallet's parse fails, the whole call fails |
| Coinbase.FiatAccountsSkipped | lib/coinbase.py:349 | the responses of fiat wallets never matter |
| Coinbase.AccountTransactions | lib/coinbase.py:342-354 | the rows are the concatenated rows of the crypto wallets, in account order; a body without `data` adds no rows if it has `error` and raises KeyError otherwise |
| Coinbase.AccountRows | lib/coinbase.py:250-330 | a rejected wallet response raises AttributeError; an accepted one without `data` gives no rows with `error` and raises KeyError without it; otherwise its parsed rows |
| Coinbase.BuysHaveNoAsset | lib/coinbase.py:241-245 | a wallet of buys alone parses into rows none of which has an asset, so the `asset` column the price lookup reads is missing |
| Coinbase.Coinbase.constructor | lib/coinbase.py:13-24 | every cache starts unset, and nothing has been requested |
| Coinbase.Coinbase.GetAccounts | lib/coinbase.py:68-88 | the cached accounts are returned unless refreshed; a failed request caches nothing |
| Coinbase.Coinbase.GetBalancesUniversal | lib/coinbase.py:90-110 | the non-zero balances of the accounts are cached; with the cache set nothing is requested, and on a miss the accounts cache and requests are as `Cached` and `Asked` say |
| Coinbase.Coinbase.GetValidAssetsUniversal | lib/coinbase.py:112-132 | the caches become exactly `AfterAssets` of the old ones: on a miss the accounts are obtained and their non-fiat currencies stored, with only the accounts endpoint requested |
| Coinbase.Coinbase.GetValidSymbolsUniversal | lib/coinbase.py:134-154 | the caches become exactly `AfterSymbols` of the old ones: `ASSET/native` is cached, so a later call with another `native` returns the old list |
| Coinbase.Coinbase.GetTransactions | lib/coinbase.py:332-354 | every call asks each crypto wallet again, because the cache test checks the wrong name. The stored frame is the concatenated rows, and a failed wallet raises |
| Coinbase.Coinbase.HistoricalPricesForBalances | lib/coinbase.py:210-226 | the price table of `ASSET/USD` for every non-fiat non-zero balance, whatever `native` is; a cache hit changes nothing, a miss stores the accounts and requests only them |
| Coinbase.Coinbase.HistoricalPricesForTransactions | lib/coinbase.py:228-247 | no transactions gives nothing; transactions lacking an `asset` or a `pair` column raise AttributeError; otherwise the price table of the transaction symbols, failing with the table's error |
| Bittrex.NonZeroTotals | lib/bittrex.py:102-103 | intended: the entries are exactly (currencySymbol, total) of the records with a non-zero total |
| Bittrex.NonZeroBalances | lib/bittrex.py:101-103 | intended: the loop over the `result` records builds the dictionary of those entries |
| Bittrex.BalancesOmitZero | lib/bittrex.py:101-103 | intended: a currency is present iff it has a non-zero total, and then it holds the last such total |
| Bittrex.KeyLoop | lib/bittrex.py:98-148 | as written: the balance and symbol loops walk the body's keys and raise TypeError iff a body was obtained; nothing obtained gives an empty dictionary or list |
| Bittrex.IntendedBalancesOmitZero | lib/bittrex.py:98-105 | intended: a currency has a balance iff one of its records has a non-zero total, and no balance is zero |
| Bittrex.IntendedAssetsListed | lib/bittrex.py:141-165 | intended: the asset of every listed `A-B` market is a valid asset |
| Bittrex.KeyIterationRaises | lib/bittrex.py:98-148 | one obtained balance (1 BTC) and one obtained ticker: the code as written raises TypeError where the intended loops give `{BTC: 1.0}` and `[BTC-USD]` |
| Bittrex.MarketSpelling | lib/bittrex.py:220-224 | `A/B` is requested as `A-B`, and `A-B` is named back as `A/B` |
| Bittrex.PriceFrameOf | lib/bittrex.py:220-227 | given the candles: none gives nothing; an empty list gives the frame unchanged and empty; otherwise the midpoint column named with `/` |
| Bittrex.ObjectCandles | lib/bittrex.py:203-207 | as written: the frame built from the returned object has no rows whenever an object was obtained |
| Bittrex.IntendedCandles | lib/bittrex.py:203-207 | intended: the candles are exactly the records under `result` of the obtained object |
| Bittrex.ObjectFrameEmpty | lib/bittrex.py:183-226 | one accepted daily candle for `BTC-USD`: as written the frame is empty, the intended frame holds its midpoint under `BTC/USD` |
| Bittrex.Bittrex.constructor | lib/bittrex.py:13-23 | every cache starts unset, nothing has been requested, and the derived caches hold nothing but empty values |
| Bittrex.Bittrex.GetBalances | lib/bittrex.py:65-85 | the cached body is returned unless refreshed; a failed request caches nothing |
| Bittrex.Bittrex.GetBalancesUniversal | lib/bittrex.py:87-106 | an obtained body raises TypeError and leaves the dictionary cache as it was; nothing obtained caches an empty dictionary; a hit changes nothing; derived caches stay empty |
| Bittrex.Bittrex.GetValidSymbols | lib/bittrex.py:108-128 | the cached tickers are returned unless refreshed; a failed request caches nothing |
| Bittrex.Bittrex.GetValidSymbolsUniversal | lib/bittrex.py:130-149 | the caches become exactly `AfterSymbols` of the old ones: obtained tickers raise TypeError, nothing obtained caches an empty list; derived caches stay empty |
| Bittrex.Bittrex.GetValidAssetsUniversal | lib/bittrex.py:151-167 | the caches become exactly `AfterAssets` of the old ones: the symbols' TypeError is passed on, otherwise their assets are cached |
| Bittrex.Bittrex.GetHistoricalPrices | lib/bittrex.py:169-191 | the valid-symbol gate without refresh passes the symbols' TypeError on; a listed symbol makes one candle request and returns the whole accepted object; an unlisted one makes none; as the symbols can only be empty, no candles are ever requested |
| Bittrex.Bittrex.GetHistoricalPriceFrame | lib/bittrex.py:193-227 | the `-` spelling passes the gate as above; an obtained object yields an empty frame, never a midpoint column; errors pass through, and with the caches empty there is no frame at all |
| Bittrex.Bittrex.HistoricalPricesForBalances | lib/bittrex.py:229-247 | the balances' TypeError is passed on; otherwise the price table of `ASSET-USD` for every non-fiat balance, which is empty while the caches are |
| CoinGecko.CoinListAnswer | lib/coingecko.py:19-26 | the list is used iff the status is 200 and it is not empty |
| CoinGecko.SymbolID | lib/coingecko.py:39-43 | the id of the first coin whose symbol is the lower-cased query; nothing iff there is none |
| CoinGecko.SymbolIDs | lib/coingecko.py:56-60 | exactly the coins whose upper-cased symbol is requested; nothing iff there is none |
| CoinGecko.CoinSymbol | lib/coingecko.py:99-101 | the symbol of a coin with the given id; nothing iff no coin has it |
| CoinGecko.PriceKeyParts | lib/coingecko.py:76 | the price key is `SYMBOL/NATIVE`, upper-cased |
| CoinGecko.SymbolPrice | lib/coingecko.py:62-79 | a price iff the response is accepted and holds the id and the native; KeyError iff it holds the id but not the native |
| CoinGecko.PricePairs | lib/coingecko.py:93-103 | one priced entry per returned id, keyed by its coin's symbol, failing iff some id lacks the native |
| CoinGecko.PricePairsFails | lib/coingecko.py:93-103 | once an entry fails, the whole table fails |
| CoinGecko.PriceTable | lib/coingecko.py:93-103 | the loop builds the dictionary of those entries |
| CoinGecko.PriceTableKeys | lib/coingecko.py:93-103 | a key is present iff it is the price key of some returned id |
| CoinGecko.ValidSymbols | lib/coingecko.py:116-121 | exactly `SYMBOL/USD` for every coin, always against USD |
| CoinGecko.ValidAssetsAreSymbols | lib/coingecko.py:134-139 | when no coin symbol holds `/`, the assets are exactly the upper-cased coin symbols |
| CoinGecko.CoinGecko.constructor | lib/coingecko.py:6-7 | every cache starts unset, and nothing has been requested |
| CoinGecko.CoinGecko.GetCoinList | lib/coingecko.py:9-26 | the cached list is returned unless refreshed; a failed or empty response caches nothing |
| CoinGecko.CoinGecko.GetSymbolID | lib/coingecko.py:28-43 | the id of the symbol in the obtained list |
| CoinGecko.CoinGecko.GetSymbolIDs | lib/coingecko.py:45-60 | the requested coins of the obtained list |
| CoinGecko.CoinGecko.GetSymbolPrice | lib/coingecko.py:62-79 | the price is requested even when the id is unknown, with the native lower-cased, and read under the id |
| CoinGecko.CoinGecko.GetSymbolPrices | lib/coingecko.py:81-103 | one price request for all kept ids (after a second coin-list request under `refresh`), with prices keyed `SYMBOL/NATIVE`; nothing is requested beyond the coin list when no coin matches |
| CoinGecko.CoinGecko.GetValidSymbolsUniversal | lib/coingecko.py:105-121 | the `SYMBOL/USD` list of the coins is cached |
| CoinGecko.CoinGecko.GetValidAssetsUniversal | lib/coingecko.py:123-139 | the assets of the universal symbols are cached |
| ApiFunctions.ProcessDailyPriceData | API_functions.py:63-91 | kraken reads the first result key unless it is `last`, and gives nothing without `result`; coinbase keeps a candle list; other exchanges give nothing |
| ApiFunctions.DailyPriceUrl | API_functions.py:100-109 | kraken and coinbase need a `/` (else IndexError); other exchanges make no request |
| ApiFunctions.DailyPriceUrlOfPair | API_functions.py:100-109 | `A/B` is requested as `AB` from kraken and as `A-B` from coinbase |
| ApiFunctions.FetchDailyPriceIndividual | API_functions.py:93-116 | the candles of the requested URL, nothing for another exchange, an error for a symbol without `/` |
| ApiFunctions.PairStep | API_functions.py:124-138 | a recorded pair is skipped; any other pair is fetched |
| ApiFunctions.PairsFails | API_functions.py:124-138 | once a pair raises, the later pairs change nothing |
| ApiFunctions.PairsGrow | API_functions.py:124-138 | the recorded list and the fetches only grow by appending |
| ApiFunctions.AskedOutsideDta | API_functions.py:125-127 | every pair fetched is one of the given pairs and was not already recorded |
| ApiFunctions.NeverRefetches | API_functions.py:125-127 | a pair already recorded is never fetched |
| ApiFunctions.FrameColumns | API_functions.py:129-138 | the frame's columns are exactly the newly recorded pairs, in order |
| ApiFunctions.AskedNotInDta | API_functions.py:129-138 | a fetched pair is recorded unless its fetch gave no candles |
| ApiFunctions.RecordedIffCandles | API_functions.py:129-138 | a pair is recorded iff it is given and its fetch yields candles |
| ApiFunctions.SecondCallSkips | API_functions.py:118-138 | a later call sharing the recorded list does not fetch a pair recorded earlier |
| ApiFunctions.PairFetcher.FetchDailyPricePairs | API_functions.py:118-140 | the loop's frame, recorded list and fetches are exactly the specified ones, and the list keeps its growth when a pair raises |
| ApiFunctions.ParseCoinbaseResults | API_functions.py:192-247 | missing `data` raises KeyError; otherwise the strict parse, where an unsupported send raises |
| Strings.SplitJoin | lib/kraken.py:142 | joining the parts of a split restores the string |
| Strings.SplitTwo | lib/kraken.py:156-157 | a string with one separator splits into its two sides |
| Strings.SplitFirst | lib/bittrex.py:165 | the part before the first separator of `A`, separator, `B` is `A` when `A` holds no separator |
| Strings.FirstParts | lib/kraken.py:142 | the valid assets are exactly the distinct parts before the first separator (`/` here and at lib/coingecko.py:137, `-` at lib/bittrex.py:165) |
| Strings.ReplaceAbsent | lib/exchange.py:36-38 | replacing an absent pattern changes nothing |
| Strings.ReplaceOnce | lib/exchange.py:36-38 | a string with exactly one occurrence of the pattern, and no earlier start of it, has that occurrence replaced and the rest kept |
| Strings.ReplaceCharByChar | lib/bittrex.py:220-224 | replacing one character by another maps each position independently |
| Strings.UpperAppend | lib/coingecko.py:76 | upper-casing distributes over concatenation |
| Strings.Distinct | lib/kraken.py:142 | `list(set(...))` keeps exactly the members, each once |
| OrderedDicts.FromPairsLookup | lib/coinbase.py:106-107 | a dictionary built by assignment holds each key's last value |
| OrderedDicts.FromPairsKeys | lib/coinbase.py:106-107 | its keys are the distinct keys in first-assignment order |
| OrderedDicts.PutLookup | lib/functions.py:332-336 | after an assignment the key reads the new value, and every other key is unchanged |
| OrderedDicts.ReplaceLookup | lib/functions.py:332 | replacing an existing key's value changes only that key |

## Left out

- HTTP, request signing and headers are not modelled. Every response is a parameter, and a
  request is recorded in a ghost log only for the endpoint paths.
- Fernet encryption, key files, `locate_settings` and the Dash interface are not modelled.
  Neither are lib/API_functions.py, the root kraken.py and coinbase.py scripts, and
  `kraken_fetch_SPREAD_data`. They are I/O, cryptography or layout.
- Printed warnings are not modelled. They do not change any result.
- Float rounding is not modelled: amounts are exact reals, and `astype(float)` conversions are
  the identity.
- Timezone conversion (lib/bittrex.py:225) is not modelled, and neither is the date alignment of
  pandas joins. A price frame is a list of named columns, each with its own (time, price) rows,
  and an outer join is concatenation.
- The balance table keeps columns in first-appearance order. `pd.concat(sort=True)` would sort
  them.
- `rename_asset` is a parameter `rename` (lib/kraken.py:10 imports it, but lib/functions.py does
  not define it). The valid assets passed to it at lib/kraken.py:77 are looked up, with their
  caches and requests, but `rename` does not receive them: it stands for `rename_asset` with
  whatever those lookups give.
- Remap.RemapString: the keys are replaced as literal text. `Series.str.replace` at
  lib/functions.py:112 reads its pattern as a regular expression in pandas before 2.0; the
  configured keys `XDG` and `XBT` hold no regular-expression metacharacter, so both readings agree
  on them.
- Aggregate.KrakenAggregateTrade, Aggregate.ApplyTradeRules: the `pair_cols` parameter of
  lib/functions.py:115 is left out and the rules read `pair_1` and `pair_2`. The fee rule at
  lib/functions.py:141 hard-codes `df.pair_2` while the others use `pair_cols`; the two agree
  because the only caller passes `['pair_1', 'pair_2']`.
- The balance functions imported at lib/functions.py:404-405 do not exist. `balances_from_dict`
  takes the per-wallet balance lookup as a parameter.
- `stable_coin_alts` is imported but not defined. It is a parameter `alts`.
- `list(set(...))` has no fixed order in Python. The model keeps the first occurrence of each
  value in list order.
- Kraken.Kraken.HistoricalPricesForTransactions: the symbol construction after the raise at
  lib/kraken.py:243 is unreachable and is not modelled.
- Coinbase.Coinbase.GetTransactions: only the accounts request is logged. A wallet's
  transactions are a function `wallet` of its id.
- Coinbase and coingecko JSON bodies are reduced to the records the code iterates, the fields
  it reads and the presence of the `result`, `data` and `error` members it tests. Bittrex
  bodies are an object with its `result` presence and the records under it; the loops that
  iterate the object itself raise, as "## Findings" records.
- Strings.Lower, Strings.Upper: case mapping is ASCII-only. Python's `str.lower` and
  `str.upper` (lib/coingecko.py:41, 58, 75, 78, 97, 101, 119) map all of Unicode, and
  `'ß'.upper()` even changes the length; the symbols and currency codes the model handles are
  ASCII.
- A JSON object with repeated keys is not modelled. A coin list with repeated ids is read at the
  first coin with the id.
- CoinGecko.CoinGecko.GetSymbolPrices: its two coin-list lookups see the same response.
- In the price-list builders, the per-symbol price call of each exchange is the oracle `fetch`,
  not the class's own request method. The ghost log therefore does not show price requests made
  inside these builders.
- Exchange.HistoricalPricesList: the fetch oracle returns a whole frame. The columns a fetch
  adds are modelled, but their dates and values are not checked further.
- `volume_from` in the coinbase transaction rows is not modelled. The aggregation never reads
  it.

## Findings

| source | as written | input that shows it | evidently intended | confidence | as-written member | corrected member |
|---|---|---|---|---|---|---|
| lib/bittrex.py:98-105 | `for balance in balances` walks the keys of the response object, and `balance['total']` on a key string raises TypeError | a 200 response `{"result": [{"currencySymbol": "BTC", "total": "1"}]}` | walk `balances['result']` and keep the non-zero totals: `{BTC: 1.0}` | high; not executed | Bittrex.KeyLoop, Bittrex.KeyIterationRaises | Bittrex.IntendedBalances, Bittrex.IntendedBalancesOmitZero |
| lib/bittrex.py:141-148 | `for symbol in validSymbols` walks the keys of the tickers object, and `symbol['symbol']` raises TypeError | a 200 tickers response with `result` holding `BTC-USD` | walk `validSymbols['result']`: `[BTC-USD]` | high; not executed | Bittrex.KeyLoop, Bittrex.KeyIterationRaises | Bittrex.IntendedSymbols, Bittrex.IntendedAssetsListed |
| lib/coinbase.py:166-208 | the candles endpoint answers with a JSON list, and `resp.json().keys()` raises AttributeError on it | a 200 response `[[86400, 1.0, 3.0, 2.0, 2.5, 10.0]]` | read the list as candles: one column with midpoint 2.0 at time 86400 | medium; not executed | Coinbase.HistoricalPriceFrame, Coinbase.ListBodyRaises | Coinbase.IntendedPriceFrame |
| lib/bittrex.py:183-207 | getHistoricalPrices returns the whole response object, and `pd.DataFrame(obj, columns=[...])` picks the candle columns out of its own keys, none of which is one, so the frame has no rows | a 200 candles response `{"result": [{"startsAt": "1970-01-02", "high": "3", "low": "1"}]}` for a listed market | read `obj['result']` as candles: one `BTC/USD` column with midpoint 2.0 | high; not executed | Bittrex.ObjectCandles, Bittrex.ObjectFrameEmpty | Bittrex.IntendedCandles, Bittrex.PriceFrameOf |

=== FILE: aggregate.dfy ===
/** Daily balance changes per currency from trade, ledger and Coinbase transaction tables
    (the `*_aggregate_balances_per_day*` functions of lib/functions.py and the `aggregate_*`
    functions of functions.py).

    A table is a sequence of rows with exact `real` amounts and an integer day number. A column
    of the table is a `seq<real>` with one value per row; the columns added for the currencies
    are kept in a map from currency to column. The result of `groupby('date').agg('sum')` is a
    map from day to currency to the sum of that currency's column over the rows of the day. */
module Aggregate {
  import opened Wrappers
  import opened Strings

  /** A Kraken trade after parse_pairs_from_series: `pair1` is bought or sold, `pair2` pays. */
  datatype TradeRow = TradeRow(date: int, kind: string, pair1: string, pair2: string, vol: real, fee: real, cost: real)

  /** A Kraken ledger entry. */
  datatype LedgerRow = LedgerRow(date: int, kind: string, asset: string, amount: real, fee: real)

  /** A Coinbase transaction row; the amounts are missing (NaN) on rows of other kinds. */
  datatype CoinbaseRow = CoinbaseRow(date: int, kind: string, asset: string, pair1: string, pair2: string,
                                     vol: Option<real>, fee: Option<real>, cost: Option<real>)

  /** Day number to currency to the change of its balance that day. */
  type Daily = map<int, map<string, real>>

  /** `fillna(0)`. */
  function OrZero(v: Option<real>): real {
    if v.Some? then v.value else 0.0
  }

  // ---------------------------------------------------------------------------------------
  // The change one row makes to one currency, rule by rule.

  /** Trades: selling `pair1` gives up its volume and buying it gains it; the fee is always paid
      in `pair2`; a sale earns the cost in `pair2` and a purchase spends it. */
  function TradeDelta(row: TradeRow, c: string): real {
    (if row.kind == "sell" && row.pair1 == c then -row.vol else 0.0)
    + (if row.kind == "buy" && row.pair1 == c then row.vol else 0.0)
    + (if row.pair2 == c then -row.fee else 0.0)
    + (if row.kind == "sell" && row.pair2 == c then row.cost else 0.0)
    + (if row.kind == "buy" && row.pair2 == c then -row.cost else 0.0)
  }

  /** Ledger: every entry on an asset pays its fee in that asset. */
  function LedgerFeeDelta(row: LedgerRow, c: string): real {
    if row.asset == c then -row.fee else 0.0
  }

  /** Ledger, fiat currencies only: deposits add the amount and withdrawals subtract it. */
  function LedgerFiatDelta(row: LedgerRow, c: string): real {
    (if row.asset == c && row.kind == "deposit" then row.amount else 0.0)
    + (if row.asset == c && row.kind == "withdrawal" then -row.amount else 0.0)
  }

  /** Coinbase: a row on asset c adds its volume net of its fee; a buy also gains `pair1` its
      volume and spends its cost in `pair2`. Sells have no rule. */
  function CoinbaseDelta(row: CoinbaseRow, c: string): real {
    (if row.asset == c then -OrZero(row.fee) + OrZero(row.vol) else 0.0)
    + (if row.kind == "buy" && row.pair1 == c then OrZero(row.vol) else 0.0)
    + (if row.kind == "buy" && row.pair2 == c then -OrZero(row.cost) else 0.0)
  }

  // ---------------------------------------------------------------------------------------
  // Summing a column per day.

  /** The sum of the values of the rows dated `d`. */
  function DayTotal(dates: seq<int>, vals: seq<real>, d: int): real
    requires |dates| == |vals|
  {
    if dates == [] then 0.0
    else
      var n := |dates| - 1;
      DayTotal(dates[..n], vals[..n], d) + (if dates[n] == d then vals[n] else 0.0)
  }

  /** Two columns added row by row. */
  function Add(u: seq<real>, w: seq<real>): (r: seq<real>)
    requires |u| == |w|
    ensures |r| == |u|
  {
    seq(|u|, k requires 0 <= k < |u| => u[k] + w[k])
  }

  /** Column `x` added `m` times to a zero column. */
  function Scaled(m: nat, x: seq<real>): (r: seq<real>)
    ensures |r| == |x|
  {
    if m == 0 then Zeros(|x|) else Add(Scaled(m - 1, x), x)
  }

  /** One turn of a currency loop: currency `c` gets its column (zeros when missing) plus its
      changes, and every column stays its changes times the listings so far. */
  lemma ColumnsStep(cols: map<string, seq<real>>, done: seq<string>, c: string, colOf: string -> seq<real>, col: seq<real>)
    requires forall x :: x in cols <==> x in done
    requires forall x :: x in cols ==> cols[x] == Scaled(Count(done, x), colOf(x))
    requires col == if c in cols then cols[c] else Zeros(|colOf(c)|)
    ensures |col| == |colOf(c)|
    ensures var next := cols[c := Add(col, colOf(c))];
      (forall x :: x in next <==> x in done + [c]) &&
      (forall x :: x in next ==> next[x] == Scaled(Count(done + [c], x), colOf(x)))
  {
    var all := done + [c];
    assert all[..|done|] == done;
    if c !in cols {
      CountAbsent(done, c);
    }
  }

  /** Summing per day commutes with adding columns. */
  lemma {:induction false} DayTotalAdd(dates: seq<int>, u: seq<real>, w: seq<real>, d: int)
    requires |dates| == |u| == |w|
    ensures DayTotal(dates, Add(u, w), d) == DayTotal(dates, u, d) + DayTotal(dates, w, d)
  {
    if dates != [] {
      var n := |dates| - 1;
      assert Add(u, w)[..n] == Add(u[..n], w[..n]);
      DayTotalAdd(dates[..n], u[..n], w[..n], d);
    }
  }

  /** `x` added `m` times: the multiple, without multiplication, so that the proofs about
      columns stay in linear arithmetic. */
  function Times(m: nat, x: real): real {
    if m == 0 then 0.0 else Times(m - 1, x) + x
  }

  lemma {:induction false} TimesIsProduct(m: nat, x: real)
    ensures Times(m, x) == m as real * x
  {
    if m > 0 {
      TimesIsProduct(m - 1, x);
      assert m as real * x == (m - 1) as real * x + x;
    }
  }

  /** A column added `m` times sums to `m` times its sum. */
  lemma {:induction false} DayTotalScaled(dates: seq<int>, m: nat, x: seq<real>, d: int)
    requires |dates| == |x|
    ensures DayTotal(dates, Scaled(m, x), d) == Times(m, DayTotal(dates, x, d))
  {
    if m == 0 {
      DayTotalZero(dates, Zeros(|x|), d);
    } else {
      DayTotalScaled(dates, m - 1, x, d);
      DayTotalAdd(dates, Scaled(m - 1, x), x, d);
    }
  }

  /** Summing per day splits over a table made of two tables. */
  lemma {:induction false} DayTotalAppend(d1: seq<int>, v1: seq<real>, d2: seq<int>, v2: seq<real>, d: int)
    requires |d1| == |v1| && |d2| == |v2|
    ensures DayTotal(d1 + d2, v1 + v2, d) == DayTotal(d1, v1, d) + DayTotal(d2, v2, d)
  {
    if d2 == [] {
      assert d1 + d2 == d1 && v1 + v2 == v1;
    } else {
      var n := |d2| - 1;
      assert (d1 + d2)[..|d1 + d2| - 1] == d1 + d2[..n];
      assert (v1 + v2)[..|v1 + v2| - 1] == v1 + v2[..n];
      DayTotalAppend(d1, v1, d2[..n], v2[..n], d);
    }
  }

  /** A column that is zero on every row sums to zero on every day. */
  lemma {:induction false} DayTotalZero(dates: seq<int>, vals: seq<real>, d: int)
    requires |dates| == |vals|
    requires forall k :: 0 <= k < |vals| ==> vals[k] == 0.0
    ensures DayTotal(dates, vals, d) == 0.0
  {
    if dates != [] {
      var n := |dates| - 1;
      DayTotalZero(dates[..n], vals[..n], d);
    }
  }

  function DateSet(dates: seq<int>): set<int> {
    set k | 0 <= k < |dates| :: dates[k]
  }

  /** `df.groupby('date').agg('sum')[currencies]`. */
  function GroupByDate(dates: seq<int>, cols: map<string, seq<real>>, currencies: seq<string>): Daily
    requires forall c :: c in currencies ==> c in cols && |cols[c]| == |dates|
  {
    map d | d in DateSet(dates) :: map c | c in currencies :: DayTotal(dates, cols[c], d)
  }

  function Zeros(n: nat): (z: seq<real>)
    ensures |z| == n && forall k :: 0 <= k < n ==> z[k] == 0.0
  {
    seq(n, k => 0.0)
  }

  // ---------------------------------------------------------------------------------------
  // Trades.

  function TradeDates(rows: seq<TradeRow>): (ds: seq<int>)
    ensures |ds| == |rows|
  {
    seq(|rows|, k requires 0 <= k < |rows| => rows[k].date)
  }

  function TradeColumn(rows: seq<TradeRow>, c: string): (col: seq<real>)
    ensures |col| == |rows|
  {
    seq(|rows|, k requires 0 <= k < |rows| => TradeDelta(rows[k], c))
  }

  /** The change of currency c on day d from the trades. */
  function TradeOn(rows: seq<TradeRow>, d: int, c: string): real {
    DayTotal(TradeDates(rows), TradeColumn(rows, c), d)
  }

  /** The five column updates of one currency in the trade aggregations. */
  function ApplyTradeRules(rows: seq<TradeRow>, col: seq<real>, c: string): (r: seq<real>)
    requires |col| == |rows|
    ensures r == Add(col, TradeColumn(rows, c))
  {
    var n := |rows|;
    var col1 := seq(n, k requires 0 <= k < n => if rows[k].kind == "sell" && rows[k].pair1 == c then col[k] + -rows[k].vol else col[k]);
    var col2 := seq(n, k requires 0 <= k < n => if rows[k].kind == "buy" && rows[k].pair1 == c then col1[k] + rows[k].vol else col1[k]);
    var col3 := seq(n, k requires 0 <= k < n => if rows[k].pair2 == c then col2[k] + -rows[k].fee else col2[k]);
    var col4 := seq(n, k requires 0 <= k < n => if rows[k].kind == "sell" && rows[k].pair2 == c then col3[k] + rows[k].cost else col3[k]);
    seq(n, k requires 0 <= k < n => if rows[k].kind == "buy" && rows[k].pair2 == c then col4[k] + -rows[k].cost else col4[k])
  }

  /** The currency loop of the trade aggregation: the rules of a currency are applied once per listing. */
  method TradeColumns(rows: seq<TradeRow>, currencies: seq<string>) returns (cols: map<string, seq<real>>)
    ensures forall c :: c in cols <==> c in currencies
    ensures forall c :: c in cols ==> cols[c] == Scaled(Count(currencies, c), TradeColumn(rows, c))
  {
    cols := map[];
    var i := 0;
    while i < |currencies|
      invariant 0 <= i <= |currencies|
      invariant forall c :: c in cols <==> c in currencies[..i]
      invariant forall c :: c in cols ==> cols[c] == Scaled(Count(currencies[..i], c), TradeColumn(rows, c))
    {
      var c := currencies[i];
      assert currencies[..i + 1] == currencies[..i] + [c];
      var col := if c in cols then cols[c] else Zeros(|rows|);
      ColumnsStep(cols, currencies[..i], c, x => TradeColumn(rows, x), col);
      cols := cols[c := ApplyTradeRules(rows, col, c)];
      i := i + 1;
    }
    assert currencies[..i] == currencies;
  }

  /** kraken_aggregate_balances_per_day_trade (lib/functions.py). A currency column is created
      only when missing, so a currency listed k times has its rules applied k times. */
  method KrakenAggregateTrade(rows: seq<TradeRow>, currencies: seq<string>) returns (r: Daily)
    ensures r.Keys == DateSet(TradeDates(rows))
    ensures forall d, c :: d in r && c in currencies ==> c in r[d] && r[d][c] == Times(Count(currencies, c), TradeOn(rows, d, c))
  {
    var cols := TradeColumns(rows, currencies);
    r := GroupByDate(TradeDates(rows), cols, currencies);
    forall d, c | d in r && c in currencies
      ensures c in r[d] && r[d][c] == Times(Count(currencies, c), TradeOn(rows, d, c))
    {
      DayTotalScaled(TradeDates(rows), Count(currencies, c), TradeColumn(rows, c), d);
    }
  }

  /** aggregate_balances_per_day_trade (functions.py): every currency column is reset to 0
      first, so each listed currency gets its rules once. */
  method AggregateTrade(rows: seq<TradeRow>, currencies: seq<string>) returns (r: Daily)
    ensures r.Keys == DateSet(TradeDates(rows))
    ensures forall d, c :: d in r && c in currencies ==> c in r[d] && r[d][c] == TradeOn(rows, d, c)
  {
    var cols: map<string, seq<real>> := map[];
    var i := 0;
    while i < |currencies|
      invariant 0 <= i <= |currencies|
      invariant forall c :: c in cols <==> c in currencies[..i]
      invariant forall c :: c in cols ==> cols[c] == TradeColumn(rows, c)
    {
      var c := currencies[i];
      var col := ApplyTradeRules(rows, Zeros(|rows|), c);
      assert col == TradeColumn(rows, c);
      cols := cols[c := col];
      i := i + 1;
    }
    assert currencies[..i] == currencies;
    r := GroupByDate(TradeDates(rows), cols, currencies);
  }

  /** For a list of distinct currencies the two trade aggregations agree. */
  lemma TradeVersionsAgree(rows: seq<TradeRow>, currencies: seq<string>, d: int, c: string)
    requires forall i, j :: 0 <= i < j < |currencies| ==> currencies[i] != currencies[j]
    requires c in currencies
    ensures Times(Count(currencies, c), TradeOn(rows, d, c)) == TradeOn(rows, d, c)
  {
    CountDistinct(currencies, c);
  }

  /** A currency on neither side of any trade does not move. */
  lemma TradeUntouched(rows: seq<TradeRow>, d: int, c: string)
    requires forall k :: 0 <= k < |rows| ==> rows[k].pair1 != c && rows[k].pair2 != c
    ensures TradeOn(rows, d, c) == 0.0
  {
    DayTotalZero(TradeDates(rows), TradeColumn(rows, c), d);
  }

  /** The daily change of a table made of two tables is the sum of their daily changes. */
  lemma TradeOnAppend(a: seq<TradeRow>, b: seq<TradeRow>, d: int, c: string)
    ensures TradeOn(a + b, d, c) == TradeOn(a, d, c) + TradeOn(b, d, c)
  {
    assert TradeDates(a + b) == TradeDates(a) + TradeDates(b);
    assert TradeColumn(a + b, c) == TradeColumn(a, c) + TradeColumn(b, c);
    DayTotalAppend(TradeDates(a), TradeColumn(a, c), TradeDates(b), TradeColumn(b, c), d);
  }

  /** Buying 1.0 BASE for 100 QUOTE with a fee of 0.1 moves BASE by +1.0 and QUOTE by -100.1;
      selling the same instead negates volume and cost but still pays the fee. */
  lemma TradeExample()
    ensures TradeDelta(TradeRow(0, "buy", "BASE", "QUOTE", 1.0, 0.1, 100.0), "BASE") == 1.0
    ensures TradeDelta(TradeRow(0, "buy", "BASE", "QUOTE", 1.0, 0.1, 100.0), "QUOTE") == -100.1
    ensures TradeDelta(TradeRow(0, "sell", "BASE", "QUOTE", 1.0, 0.1, 100.0), "BASE") == -1.0
    ensures TradeDelta(TradeRow(0, "sell", "BASE", "QUOTE", 1.0, 0.1, 100.0), "QUOTE") == 99.9
  {
  }

  // ---------------------------------------------------------------------------------------
  // Ledger.

  function LedgerDates(rows: seq<LedgerRow>): (ds: seq<int>)
    ensures |ds| == |rows|
  {
    seq(|rows|, k requires 0 <= k < |rows| => rows[k].date)
  }

  function LedgerFeeColumn(rows: seq<LedgerRow>, c: string): (col: seq<real>)
    ensures |col| == |rows|
  {
    seq(|rows|, k requires 0 <= k < |rows| => LedgerFeeDelta(rows[k], c))
  }

  function LedgerFiatColumn(rows: seq<LedgerRow>, c: string): (col: seq<real>)
    ensures |col| == |rows|
  {
    seq(|rows|, k requires 0 <= k < |rows| => LedgerFiatDelta(rows[k], c))
  }

  function LedgerFeesOn(rows: seq<LedgerRow>, d: int, c: string): real {
    DayTotal(LedgerDates(rows), LedgerFeeColumn(rows, c), d)
  }

  function LedgerFiatOn(rows: seq<LedgerRow>, d: int, c: string): real {
    DayTotal(LedgerDates(rows), LedgerFiatColumn(rows, c), d)
  }

  /** The fee update of one currency in the ledger aggregation. */
  function ApplyFeeRule(rows: seq<LedgerRow>, col: seq<real>, c: string): (r: seq<real>)
    requires |col| == |rows|
    ensures r == Add(col, LedgerFeeColumn(rows, c))
  {
    seq(|rows|, k requires 0 <= k < |rows| => if rows[k].asset == c then col[k] + -rows[k].fee else col[k])
  }

  /** The fee loop of the ledger aggregation: once per listed currency (so once per repetition),
      the column of that currency gains the negated fee of every ledger line in that asset. */
  method LedgerFeeColumns(rows: seq<LedgerRow>, currencies: seq<string>) returns (cols: map<string, seq<real>>)
    ensures forall c :: c in cols <==> c in currencies
    ensures forall c :: c in cols ==> cols[c] == Scaled(Count(currencies, c), LedgerFeeColumn(rows, c))
  {
    cols := map[];
    var i := 0;
    while i < |currencies|
      invariant 0 <= i <= |currencies|
      invariant forall c :: c in cols <==> c in currencies[..i]
      invariant forall c :: c in cols ==> cols[c] == Scaled(Count(currencies[..i], c), LedgerFeeColumn(rows, c))
    {
      var c := currencies[i];
      assert currencies[..i + 1] == currencies[..i] + [c];
      var col := if c in cols then cols[c] else Zeros(|rows|);
      ColumnsStep(cols, currencies[..i], c, x => LedgerFeeColumn(rows, x), col);
      cols := cols[c := ApplyFeeRule(rows, col, c)];
      i := i + 1;
    }
    assert currencies[..i] == currencies;
  }

  /** The two column updates of one fiat currency in the ledger aggregation. */
  function ApplyFiatRules(rows: seq<LedgerRow>, col: seq<real>, c: string): (r: seq<real>)
    requires |col| == |rows|
    ensures r == Add(col, LedgerFiatColumn(rows, c))
  {
    var n := |rows|;
    var col1 := seq(n, k requires 0 <= k < n => if rows[k].asset == c && rows[k].kind == "deposit" then col[k] + rows[k].amount else col[k]);
    seq(n, k requires 0 <= k < n => if rows[k].asset == c && rows[k].kind == "withdrawal" then col1[k] + -rows[k].amount else col1[k])
  }

  /** The deposit/withdrawal loop: once per currency that is both fiat and listed, in set order,
      deposits are added and withdrawals subtracted. Every such currency already has its column,
      so the source's `if currency not in df.columns` branch is never taken here. */
  method AddFiatColumns(rows: seq<LedgerRow>, fees: map<string, seq<real>>, fiat: seq<string>) returns (cols: map<string, seq<real>>)
    requires forall c :: c in fees ==> |fees[c]| == |rows|
    ensures cols.Keys == fees.Keys
    ensures forall c :: c in cols && c in fiat ==> cols[c] == Add(fees[c], LedgerFiatColumn(rows, c))
    ensures forall c :: c in cols && c !in fiat ==> cols[c] == fees[c]
  {
    cols := fees;
    var todo := set c | c in fiat && c in fees;
    ghost var done: set<string> := {};
    while todo != {}
      invariant cols.Keys == fees.Keys
      invariant forall c :: c in todo ==> c in fiat && c in fees && c !in done
      invariant forall c :: c in fiat && c in fees ==> c in todo || c in done
      invariant forall c :: c in done ==> c in fiat && c in fees && cols[c] == Add(fees[c], LedgerFiatColumn(rows, c))
      invariant forall c :: c in cols && c !in done ==> cols[c] == fees[c]
      decreases |todo|
    {
      var c :| c in todo;
      cols := cols[c := ApplyFiatRules(rows, cols[c], c)];
      todo := todo - {c};
      done := done + {c};
    }
  }

  /** kraken_aggregate_balances_per_day_ledger (lib/functions.py; aggregate_balances_per_day_ledger
      in functions.py is the same code): the fee loop, the deposit/withdrawal loop, then the daily
      grouping. */
  method AggregateLedger(rows: seq<LedgerRow>, currencies: seq<string>, fiat: seq<string>) returns (r: Daily)
    ensures r.Keys == DateSet(LedgerDates(rows))
    ensures forall d, c :: d in r && c in currencies ==> (c in r[d] &&
      r[d][c] == Times(Count(currencies, c), LedgerFeesOn(rows, d, c)) + (if c in fiat then LedgerFiatOn(rows, d, c) else 0.0))
  {
    var fees := LedgerFeeColumns(rows, currencies);
    var cols := AddFiatColumns(rows, fees, fiat);
    r := GroupByDate(LedgerDates(rows), cols, currencies);
    forall d, c | d in r && c in currencies
      ensures r[d][c] == Times(Count(currencies, c), LedgerFeesOn(rows, d, c)) + (if c in fiat then LedgerFiatOn(rows, d, c) else 0.0)
    {
      DayTotalScaled(LedgerDates(rows), Count(currencies, c), LedgerFeeColumn(rows, c), d);
      if c in fiat {
        DayTotalAdd(LedgerDates(rows), fees[c], LedgerFiatColumn(rows, c), d);
      }
    }
  }

  /** Depositing 100 USD with a fee of 1 counts as +99 USD; depositing 1 BTC counts only its fee,
      because BTC is not fiat. */
  lemma LedgerExample()
    ensures LedgerFeeDelta(LedgerRow(0, "deposit", "USD", 100.0, 1.0), "USD")
      + LedgerFiatDelta(LedgerRow(0, "deposit", "USD", 100.0, 1.0), "USD") == 99.0
    ensures LedgerFeeDelta(LedgerRow(0, "deposit", "BTC", 1.0, 0.0), "BTC") == 0.0
  {
  }

  /** Non-fiat principal is ignored: for a listed currency that is not fiat, the daily change
      depends on the fees only, so two ledgers differing only in amounts agree on it. */
  lemma LedgerIgnoresCryptoAmounts(rows: seq<LedgerRow>, rows2: seq<LedgerRow>, d: int, c: string)
    requires |rows2| == |rows|
    requires forall k :: 0 <= k < |rows| ==> rows2[k] == rows[k].(amount := rows2[k].amount)
    ensures LedgerFeesOn(rows, d, c) == LedgerFeesOn(rows2, d, c)
  {
    assert LedgerDates(rows) == LedgerDates(rows2);
    assert LedgerFeeColumn(rows, c) == LedgerFeeColumn(rows2, c);
  }

  // ---------------------------------------------------------------------------------------
  // Coinbase.

  function CoinbaseDates(rows: seq<CoinbaseRow>): (ds: seq<int>)
    ensures |ds| == |rows|
  {
    seq(|rows|, k requires 0 <= k < |rows| => rows[k].date)
  }

  function CoinbaseColumn(rows: seq<CoinbaseRow>, c: string): (col: seq<real>)
    ensures |col| == |rows|
  {
    seq(|rows|, k requires 0 <= k < |rows| => CoinbaseDelta(rows[k], c))
  }

  function CoinbaseOn(rows: seq<CoinbaseRow>, d: int, c: string): real {
    DayTotal(CoinbaseDates(rows), CoinbaseColumn(rows, c), d)
  }

  /** The three column updates of one currency in the coinbase aggregation, with missing
      values read as 0. */
  function ApplyCoinbaseRules(rows: seq<CoinbaseRow>, col: seq<real>, c: string): (r: seq<real>)
    requires |col| == |rows|
    ensures r == Add(col, CoinbaseColumn(rows, c))
  {
    var n := |rows|;
    var col1 := seq(n, k requires 0 <= k < n => if rows[k].asset == c then col[k] + -OrZero(rows[k].fee) + OrZero(rows[k].vol) else col[k]);
    var col2 := seq(n, k requires 0 <= k < n => if rows[k].kind == "buy" && rows[k].pair1 == c then col1[k] + OrZero(rows[k].vol) else col1[k]);
    seq(n, k requires 0 <= k < n => if rows[k].kind == "buy" && rows[k].pair2 == c then col2[k] + -OrZero(rows[k].cost) else col2[k])
  }

  /** The currency loop of the coinbase aggregation: the rules of a currency are applied once per listing. */
  method CoinbaseColumns(rows: seq<CoinbaseRow>, currencies: seq<string>) returns (cols: map<string, seq<real>>)
    ensures forall c :: c in cols <==> c in currencies
    ensures forall c :: c in cols ==> cols[c] == Scaled(Count(currencies, c), CoinbaseColumn(rows, c))
  {
    cols := map[];
    var i := 0;
    while i < |currencies|
      invariant 0 <= i <= |currencies|
      invariant forall c :: c in cols <==> c in currencies[..i]
      invariant forall c :: c in cols ==> cols[c] == Scaled(Count(currencies[..i], c), CoinbaseColumn(rows, c))
    {
      var c := currencies[i];
      assert currencies[..i + 1] == currencies[..i] + [c];
      var col := if c in cols then cols[c] else Zeros(|rows|);
      ColumnsStep(cols, currencies[..i], c, x => CoinbaseColumn(rows, x), col);
      cols := cols[c := ApplyCoinbaseRules(rows, col, c)];
      i := i + 1;
    }
    assert currencies[..i] == currencies;
  }

  /** coinbase_aggregate_balances_per_day (lib/functions.py); as in the trade version a column
      is only created when missing. */
  method CoinbaseAggregate(rows: seq<CoinbaseRow>, currencies: seq<string>) returns (r: Daily)
    ensures r.Keys == DateSet(CoinbaseDates(rows))
    ensures forall d, c :: d in r && c in currencies ==> c in r[d] && r[d][c] == Times(Count(currencies, c), CoinbaseOn(rows, d, c))
  {
    var cols := CoinbaseColumns(rows, currencies);
    r := GroupByDate(CoinbaseDates(rows), cols, currencies);
    forall d, c | d in r && c in currencies
      ensures c in r[d] && r[d][c] == Times(Count(currencies, c), CoinbaseOn(rows, d, c))
    {
      DayTotalScaled(CoinbaseDates(rows), Count(currencies, c), CoinbaseColumn(rows, c), d);
    }
  }

  /** A Coinbase sell row moves only its own asset, by its volume net of its fee. */
  lemma CoinbaseSellExample()
    ensures CoinbaseDelta(CoinbaseRow(0, "sell", "BTC", "BTC", "USD", Some(-0.5), Some(1.0), Some(20.0)), "BTC") == -1.5
    ensures CoinbaseDelta(CoinbaseRow(0, "sell", "BTC", "BTC", "USD", Some(-0.5), Some(1.0), Some(20.0)), "USD") == 0.0
    ensures CoinbaseDelta(CoinbaseRow(0, "send", "ETH", "", "", Some(2.0), None, None), "ETH") == 2.0
  {
  }
}

=== FILE: api_functions.dfy ===
/** The public daily-price functions and the coinbase parser of API_functions.py: the request of
    one pair's daily candles on kraken or coinbase, reading the candles from the answer, and the
    loop over pairs that skips every pair already recorded in the shared list `dta`. Requests
    are not made: each pair's response is an input. */
module ApiFunctions {
  import opened Wrappers
  import opened Strings
  import opened OrderedDicts
  import opened Http
  import opened Prices
  import opened CoinbaseRecords

  /** A decoded daily-price body: kraken answers with an object (whose `result` may be
      missing), coinbase with a list of candles. */
  datatype DailyBody = KrakenDaily(result: Option<Dict<string, OhlcEntry>>) | CoinbaseDaily(candles: seq<Candle>)

  /** process_daily_price_data: the candles of a daily-price body. Kraken's come from the first
      result key unless it is `last`; a body without `result`, or an exchange other than kraken
      or coinbase, gives no candles. Reading a coinbase list as a kraken object raises. */
  function ProcessDailyPriceData(body: DailyBody, exchange: string): (r: Result<seq<Candle>>)
    ensures exchange != "kraken" && exchange != "coinbase" ==> r == Ok([])
    ensures exchange == "kraken" && body.KrakenDaily? && body.result.None? ==> r == Ok([])
    ensures exchange == "kraken" && body.KrakenDaily? && body.result.Some? ==> r == SelectOhlc(body.result.value)
    ensures exchange == "kraken" && body.CoinbaseDaily? ==> r.Fail?
    ensures exchange == "coinbase" ==> r == Ok(if body.CoinbaseDaily? then body.candles else [])
  {
    if exchange == "kraken" then
      match body
      case KrakenDaily(result) => if result.None? then Ok([]) else SelectOhlc(result.value)
      case CoinbaseDaily(_) => Fail("AttributeError")
    else if exchange == "coinbase" then
      match body
      case KrakenDaily(_) => Ok([])
      case CoinbaseDaily(candles) => Ok(candles)
    else Ok([])
  }

  /** The request fetch_daily_price_individual makes for `A/B`: `AB` on kraken, `A-B` on
      coinbase, none on any other exchange; a symbol without `/` raises an IndexError. */
  function DailyPriceUrl(symbol: string, exchange: string): (r: Result<Option<string>>)
    ensures exchange != "kraken" && exchange != "coinbase" ==> r == Ok(None)
    ensures exchange == "kraken" || exchange == "coinbase" ==> (r.Fail? <==> '/' !in symbol)
  {
    SlashSplits(symbol);
    var parts := SplitOn(symbol, '/');
    if exchange == "kraken" then
      if |parts| < 2 then Fail("IndexError")
      else Ok(Some("https://api.kraken.com/0/public/OHLC?pair=" + parts[0] + parts[1] + "&interval=1440"))
    else if exchange == "coinbase" then
      if |parts| < 2 then Fail("IndexError")
      else Ok(Some("https://api.pro.coinbase.com/products/" + parts[0] + "-" + parts[1] + "/candles?granularity=86400"))
    else Ok(None)
  }

  lemma SlashSplits(symbol: string)
    ensures '/' in symbol <==> |SplitOn(symbol, '/')| >= 2
  {
    if '/' in symbol {
      var k :| 0 <= k < |symbol| && symbol[k] == '/';
      SplitAtSlash(symbol, k);
    } else {
      SplitNone(symbol, '/');
    }
  }

  lemma SplitAtSlash(symbol: string, k: nat)
    requires k < |symbol| && symbol[k] == '/'
    ensures |SplitOn(symbol, '/')| >= 2
  {
    var a := symbol[..k];
    var b := symbol[k + 1..];
    assert symbol == a + ['/'] + b;
    JoinedSplit(a, b, '/');
  }

  lemma {:induction false} JoinedSplit(a: string, b: string, sep: char)
    ensures |SplitOn(a + [sep] + b, sep)| >= 2
  {
    if a == [] {
      assert a + [sep] + b == [sep] + b;
      assert ([sep] + b)[1..] == b;
    } else {
      assert (a + [sep] + b)[1..] == a[1..] + [sep] + b;
      JoinedSplit(a[1..], b, sep);
    }
  }

  /** The pair `A/B` is requested as `AB` from kraken and as `A-B` from coinbase. */
  lemma DailyPriceUrlOfPair(a: string, b: string)
    requires '/' !in a && '/' !in b
    ensures DailyPriceUrl(a + "/" + b, "kraken") == Ok(Some("https://api.kraken.com/0/public/OHLC?pair=" + a + b + "&interval=1440"))
    ensures DailyPriceUrl(a + "/" + b, "coinbase") == Ok(Some("https://api.pro.coinbase.com/products/" + a + "-" + b + "/candles?granularity=86400"))
  {
    assert a + "/" + b == a + ['/'] + b;
    SplitTwo(a, b, '/');
  }

  /** fetch_daily_price_individual given the response its request would receive. */
  function FetchDailyPriceIndividual(symbol: string, exchange: string, resp: Response<DailyBody>): (r: Result<seq<Candle>>)
    ensures DailyPriceUrl(symbol, exchange).Fail? ==> r.Fail?
    ensures DailyPriceUrl(symbol, exchange) == Ok(None) ==> r == Ok([])
    ensures DailyPriceUrl(symbol, exchange).Ok? && DailyPriceUrl(symbol, exchange).value.Some? ==>
      r == (if resp.status == 200 then ProcessDailyPriceData(resp.body, exchange) else Ok([]))
  {
    match DailyPriceUrl(symbol, exchange)
    case Fail(reason) => Fail(reason)
    case Ok(url) =>
      if url.None? then Ok([])
      else if resp.status == 200 then ProcessDailyPriceData(resp.body, exchange)
      else Ok([])
  }

  /** The state of fetch_daily_price_pairs after some pairs: the frame built so far (or the
      exception that ended the loop), the shared list `dta`, and the pairs whose data was asked
      for. */
  datatype PairsState = PairsState(frame: Result<PriceFrame>, dta: seq<string>, asked: seq<string>)

  /** One turn of the loop: a pair in `dta` is skipped; otherwise it is asked for, and on
      non-empty candles its midpoint column is joined and the pair recorded in `dta`. */
  function PairStep(st: PairsState, pair: string, exchange: string, resp: string -> Response<DailyBody>): (r: PairsState)
    ensures st.frame.Fail? || pair in st.dta ==> r == st
    ensures st.frame.Ok? && pair !in st.dta ==> r.asked == st.asked + [pair]
  {
    if st.frame.Fail? || pair in st.dta then st
    else
      var asked := st.asked + [pair];
      match FetchDailyPriceIndividual(pair, exchange, resp(pair))
      case Fail(reason) => PairsState(Fail(reason), st.dta, asked)
      case Ok(candles) =>
        if candles == [] then PairsState(st.frame, st.dta, asked)
        else PairsState(Ok(st.frame.value + [(pair, Midpoints(candles))]), st.dta + [pair], asked)
  }

  /** The loop over `pairs`, from state `st`. */
  function Pairs(pairs: seq<string>, exchange: string, resp: string -> Response<DailyBody>, st: PairsState): PairsState {
    if pairs == [] then st
    else PairStep(Pairs(pairs[..|pairs| - 1], exchange, resp, st), pairs[|pairs| - 1], exchange, resp)
  }

  lemma PairStepFailed(st: PairsState, pair: string, exchange: string, resp: string -> Response<DailyBody>)
    requires st.frame.Fail?
    ensures PairStep(st, pair, exchange, resp) == st
  {
  }

  /** Once an exception ends the loop, the later pairs change nothing. */
  lemma {:induction false} PairsFails(pairs: seq<string>, k: nat, exchange: string, resp: string -> Response<DailyBody>, st: PairsState)
    requires k <= |pairs| && Pairs(pairs[..k], exchange, resp, st).frame.Fail?
    ensures Pairs(pairs, exchange, resp, st) == Pairs(pairs[..k], exchange, resp, st)
  {
    if k < |pairs| {
      var n := |pairs| - 1;
      var front := pairs[..n];
      assert front[..k] == pairs[..k];
      PairsFails(front, k, exchange, resp, st);
      PairStepFailed(Pairs(front, exchange, resp, st), pairs[n], exchange, resp);
    } else {
      assert pairs[..k] == pairs;
    }
  }

  /** The loop only appends, to `dta` and to the asked pairs. */
  lemma {:induction false} PairsGrow(pairs: seq<string>, exchange: string, resp: string -> Response<DailyBody>, st: PairsState)
    ensures var r := Pairs(pairs, exchange, resp, st);
      |st.dta| <= |r.dta| && r.dta[..|st.dta|] == st.dta && |st.asked| <= |r.asked| && r.asked[..|st.asked|] == st.asked
  {
    if pairs != [] {
      var n := |pairs| - 1;
      PairsGrow(pairs[..n], exchange, resp, st);
      var mid := Pairs(pairs[..n], exchange, resp, st);
      var r := Pairs(pairs, exchange, resp, st);
      assert r == PairStep(mid, pairs[n], exchange, resp);
      assert r.dta[..|mid.dta|] == mid.dta && r.asked[..|mid.asked|] == mid.asked;
      assert r.dta[..|st.dta|] == mid.dta[..|st.dta|];
      assert r.asked[..|st.asked|] == mid.asked[..|st.asked|];
    }
  }

  /** Every pair the loop asks for is one of `pairs` and was not in `dta` when the call began. */
  lemma {:induction false} AskedOutsideDta(pairs: seq<string>, exchange: string, resp: string -> Response<DailyBody>, st: PairsState)
    ensures var r := Pairs(pairs, exchange, resp, st);
      |st.asked| <= |r.asked| && forall i :: |st.asked| <= i < |r.asked| ==> r.asked[i] in pairs && r.asked[i] !in st.dta
  {
    PairsGrow(pairs, exchange, resp, st);
    if pairs != [] {
      var n := |pairs| - 1;
      AskedOutsideDta(pairs[..n], exchange, resp, st);
      PairsGrow(pairs[..n], exchange, resp, st);
      var mid := Pairs(pairs[..n], exchange, resp, st);
      var r := Pairs(pairs, exchange, resp, st);
      assert r == PairStep(mid, pairs[n], exchange, resp);
      assert forall x :: x in pairs[..n] ==> x in pairs;
      assert forall x :: x in st.dta ==> x in mid.dta;
      if mid.frame.Ok? && pairs[n] !in mid.dta {
        assert r.asked == mid.asked + [pairs[n]];
      }
    }
  }

  /** While no exception is raised, the frame's columns are exactly the pairs added to `dta`,
      in order. */
  lemma {:induction false} FrameColumns(pairs: seq<string>, exchange: string, resp: string -> Response<DailyBody>, st: PairsState)
    requires st.frame.Ok?
    ensures var r := Pairs(pairs, exchange, resp, st);
      r.frame.Ok? ==> |st.dta| <= |r.dta| && Keys(r.frame.value) == Keys(st.frame.value) + r.dta[|st.dta|..]
  {
    PairsGrow(pairs, exchange, resp, st);
    if pairs != [] {
      var n := |pairs| - 1;
      var front := pairs[..n];
      FrameColumns(front, exchange, resp, st);
      PairsGrow(front, exchange, resp, st);
      var mid := Pairs(front, exchange, resp, st);
      var r := Pairs(pairs, exchange, resp, st);
      assert r == PairStep(mid, pairs[n], exchange, resp);
      PairStepShape(mid, pairs[n], exchange, resp);
      if r.frame.Ok? && r.dta != mid.dta {
        assert r.dta[|st.dta|..] == mid.dta[|st.dta|..] + [pairs[n]];
      }
    }
  }

  /** One turn either leaves the frame and `dta` as they were or adds the pair to both. */
  lemma PairStepShape(st: PairsState, pair: string, exchange: string, resp: string -> Response<DailyBody>)
    ensures var r := PairStep(st, pair, exchange, resp);
      r.frame.Ok? ==>
        (st.frame.Ok? &&
         ((r.dta == st.dta && r.frame == st.frame) ||
          (r.dta == st.dta + [pair] && Keys(r.frame.value) == Keys(st.frame.value) + [pair])))
  {
    var r := PairStep(st, pair, exchange, resp);
    if r.frame.Ok? && r.dta != st.dta {
      var col :| r.frame.value == st.frame.value + [(pair, col)];
      KeysSnoc(st.frame.value, pair, col);
    }
  }

  /** A pair in `dta` when the call starts is never asked for during it. */
  lemma NeverRefetches(pairs: seq<string>, exchange: string, resp: string -> Response<DailyBody>, st: PairsState, p: string)
    requires p in st.dta
    ensures var r := Pairs(pairs, exchange, resp, st);
      forall i :: |st.asked| <= i < |r.asked| ==> r.asked[i] != p
  {
    AskedOutsideDta(pairs, exchange, resp, st);
  }

  /** Every pair asked for without raising ends up in `dta` or had no candles; so while the loop
      runs, what was asked for earlier and is asked again could only have come back empty. */
  lemma {:induction false} AskedNotInDta(pairs: seq<string>, exchange: string, resp: string -> Response<DailyBody>, st: PairsState)
    ensures var r := Pairs(pairs, exchange, resp, st);
      r.frame.Ok? ==> forall i :: |st.asked| <= i < |r.asked| ==>
        r.asked[i] in r.dta || FetchDailyPriceIndividual(r.asked[i], exchange, resp(r.asked[i])) == Ok([])
  {
    if pairs != [] {
      var n := |pairs| - 1;
      var mid := Pairs(pairs[..n], exchange, resp, st);
      AskedNotInDta(pairs[..n], exchange, resp, st);
      var r := Pairs(pairs, exchange, resp, st);
      assert r == PairStep(mid, pairs[n], exchange, resp);
      if mid.frame.Ok? && pairs[n] !in mid.dta && r.frame.Ok? {
        assert r.asked == mid.asked + [pairs[n]];
        assert forall x :: x in mid.dta ==> x in r.dta;
      }
    }
  }

  /** A new pair is recorded in `dta` exactly when its candles came back non-empty, as long as
      no exception ended the loop. */
  lemma {:induction false} RecordedIffCandles(pairs: seq<string>, exchange: string, resp: string -> Response<DailyBody>,
                                               st: PairsState, p: string)
    requires st.frame.Ok? && p !in st.dta
    ensures var r := Pairs(pairs, exchange, resp, st);
      r.frame.Ok? ==>
        (p in r.dta <==> (p in pairs && FetchDailyPriceIndividual(p, exchange, resp(p)).Ok? &&
                          FetchDailyPriceIndividual(p, exchange, resp(p)).value != []))
  {
    if pairs != [] {
      var n := |pairs| - 1;
      var front := pairs[..n];
      var mid := Pairs(front, exchange, resp, st);
      RecordedIffCandles(front, exchange, resp, st, p);
      assert Pairs(pairs, exchange, resp, st) == PairStep(mid, pairs[n], exchange, resp);
      PairStepRecords(mid, pairs[n], exchange, resp, p);
      assert pairs == front + [pairs[n]];
    }
  }

  /** One turn records the pair exactly when it was new and its candles came back non-empty. */
  lemma PairStepRecords(st: PairsState, pair: string, exchange: string, resp: string -> Response<DailyBody>, p: string)
    ensures var r := PairStep(st, pair, exchange, resp);
      r.frame.Ok? ==>
        (st.frame.Ok? &&
         (p in r.dta <==> p in st.dta || (p == pair && FetchDailyPriceIndividual(p, exchange, resp(p)).Ok? &&
                                           FetchDailyPriceIndividual(p, exchange, resp(p)).value != [])))
  {
  }

  /** Since `dta` is shared across calls, a second call over the same pairs never asks again
      for a pair whose candles came back in the first. */
  lemma SecondCallSkips(pairs: seq<string>, exchange: string, resp: string -> Response<DailyBody>, st: PairsState, p: string)
    requires st.frame.Ok? && Pairs(pairs, exchange, resp, st).frame.Ok?
    requires p in pairs && p !in st.dta
    requires FetchDailyPriceIndividual(p, exchange, resp(p)).Ok? && FetchDailyPriceIndividual(p, exchange, resp(p)).value != []
    ensures var first := Pairs(pairs, exchange, resp, st);
      var second := Pairs(pairs, exchange, resp, PairsState(Ok([]), first.dta, first.asked));
      forall i :: |first.asked| <= i < |second.asked| ==> second.asked[i] != p
  {
    var first := Pairs(pairs, exchange, resp, st);
    RecordedIffCandles(pairs, exchange, resp, st, p);
    NeverRefetches(pairs, exchange, resp, PairsState(Ok([]), first.dta, first.asked), p);
  }

  /** The caller's `dta`, which as a default argument is one list shared by every call. */
  class PairFetcher {
    var dta: seq<string>
    /** The pairs asked for, across calls. */
    ghost var asked: seq<string>

    constructor (dta: seq<string>)
      ensures this.dta == dta && asked == []
    {
      this.dta := dta;
      asked := [];
    }

    /** fetch_daily_price_pairs: the frame of the new pairs' midpoint columns; `dta` keeps what
        was appended even when a later pair raises. */
    method FetchDailyPricePairs(pairs: seq<string>, exchange: string, resp: string -> Response<DailyBody>)
      returns (r: Result<PriceFrame>)
      modifies this`dta, this`asked
      ensures var st := Pairs(pairs, exchange, resp, PairsState(Ok([]), old(dta), old(asked)));
        r == st.frame && dta == st.dta && asked == st.asked
    {
      ghost var st0 := PairsState(Ok([]), dta, asked);
      var frame: PriceFrame := [];
      var i := 0;
      while i < |pairs|
        invariant 0 <= i <= |pairs|
        invariant Pairs(pairs[..i], exchange, resp, st0) == PairsState(Ok(frame), dta, asked)
      {
        assert pairs[..i + 1][..i] == pairs[..i];
        var pair := pairs[i];
        if pair !in dta {
          asked := asked + [pair];
          var candles := FetchDailyPriceIndividual(pair, exchange, resp(pair));
          if candles.Fail? {
            PairsFails(pairs, i + 1, exchange, resp, st0);
            return Fail(candles.reason);
          }
          if candles.value != [] {
            frame := frame + [(pair, Midpoints(candles.value))];
            dta := dta + [pair];
          }
        }
        i := i + 1;
      }
      assert pairs[..i] == pairs;
      r := Ok(frame);
    }
  }

  /** coinbase_parse_api_results: a body without `data` raises a KeyError (after printing the
      error), and a send with an unsupported network status raises a NameError. */
  method ParseCoinbaseResults(data: Option<seq<Txn>>) returns (r: Result<seq<TxRow>>)
    ensures data.None? ==> r == Fail("KeyError")
    ensures data.Some? ==> r == TxRows(data.value, true)
  {
    if data.None? {
      return Fail("KeyError");
    }
    r := ParseTransactions(data.value, true);
  }
}

=== FILE: balances.dfy ===
/** The balance table of lib/functions.py: `balances_from_dict` stacks one single-cell row per
    (wallet, ticker) and `add_columns_by_index` appends a `Total` column. A data frame is a list
    of columns and a list of rows; a row maps the columns it has a value in to that value, and
    a missing column is pandas' NaN. */
module Balances {
  import opened Wrappers
  import opened Strings
  import opened OrderedDicts
  import opened Settings
  import opened PairSplit
  import opened Remap
  import Config

  datatype Row = Row(index: string, cells: map<string, real>)

  datatype Frame = Frame(columns: seq<string>, rows: seq<Row>)

  /** `row[col].fillna(0)`. */
  function CellOrZero(cells: map<string, real>, col: string): real {
    if col in cells then cells[col] else 0.0
  }

  // ---------------------------------------------------------------------------------------
  // add_columns_by_index.

  /** The `Total` of one row after the loop over the columns that existed before `Total` was
      set to 0: each column's value (0 when missing) is added, and a column that is itself
      named `Total` adds the running total to itself. */
  function RunningTotal(cols: seq<string>, cells: map<string, real>): real {
    if cols == [] then 0.0
    else
      var n := |cols| - 1;
      var t := RunningTotal(cols[..n], cells);
      if cols[n] == "Total" then t + t else t + CellOrZero(cells, cols[n])
  }

  /** The frame add_columns_by_index returns. */
  function WithTotal(f: Frame): Frame {
    Frame(if "Total" in f.columns then f.columns else f.columns + ["Total"],
      seq(|f.rows|, k requires 0 <= k < |f.rows| =>
        Row(f.rows[k].index, f.rows[k].cells["Total" := RunningTotal(f.columns, f.rows[k].cells)])))
  }

  /** add_columns_by_index: `Total` set to 0 in every row, then every column that existed before
      is added to it, one column at a time. */
  method AddColumnsByIndex(f: Frame) returns (r: Frame)
    ensures r == WithTotal(f)
  {
    var columnsToAdd := f.columns;
    var columns := if "Total" in f.columns then f.columns else f.columns + ["Total"];
    var rows := seq(|f.rows|, k requires 0 <= k < |f.rows| => Row(f.rows[k].index, f.rows[k].cells["Total" := 0.0]));
    var i := 0;
    while i < |columnsToAdd|
      invariant 0 <= i <= |columnsToAdd|
      invariant |rows| == |f.rows|
      invariant forall k :: 0 <= k < |rows| ==>
        rows[k] == Row(f.rows[k].index, f.rows[k].cells["Total" := RunningTotal(columnsToAdd[..i], f.rows[k].cells)])
    {
      var col := columnsToAdd[i];
      assert columnsToAdd[..i + 1][..i] == columnsToAdd[..i];
      rows := seq(|rows|, k requires 0 <= k < |rows| =>
        Row(rows[k].index, rows[k].cells["Total" := rows[k].cells["Total"] + CellOrZero(rows[k].cells, col)]));
      i := i + 1;
    }
    assert columnsToAdd[..i] == columnsToAdd;
    r := Frame(columns, rows);
  }

  /** An independent reading of the total: the values of the columns, missing ones as 0, added
      from the first column on. */
  function ColumnSum(cols: seq<string>, cells: map<string, real>): real {
    if cols == [] then 0.0 else CellOrZero(cells, cols[0]) + ColumnSum(cols[1..], cells)
  }

  lemma {:induction false} ColumnSumAppend(cols: seq<string>, c: string, cells: map<string, real>)
    ensures ColumnSum(cols + [c], cells) == ColumnSum(cols, cells) + CellOrZero(cells, c)
  {
    if cols != [] {
      assert (cols + [c])[1..] == cols[1..] + [c];
      ColumnSumAppend(cols[1..], c, cells);
    }
  }

  /** Without a column already named `Total`, the total of a row is the sum of its values. */
  lemma {:induction false} TotalIsColumnSum(cols: seq<string>, cells: map<string, real>)
    requires "Total" !in cols
    ensures RunningTotal(cols, cells) == ColumnSum(cols, cells)
  {
    if cols != [] {
      var n := |cols| - 1;
      assert cols == cols[..n] + [cols[n]];
      TotalIsColumnSum(cols[..n], cells);
      ColumnSumAppend(cols[..n], cols[n], cells);
    }
  }

  /** A frame that already has a `Total` column: its old values are discarded and the sum of
      the columns before it is counted twice. */
  lemma TotalColumnCountedTwice()
    ensures RunningTotal(["a", "Total", "b"], map["a" := 1.0, "Total" := 5.0, "b" := 10.0]) == 12.0
  {
    var cells := map["a" := 1.0, "Total" := 5.0, "b" := 10.0];
    var cols := ["a", "Total", "b"];
    assert cols[..2] == ["a", "Total"] && cols[..2][..1] == ["a"] && cols[..2][..1][..0] == [];
    assert RunningTotal(["a"], cells) == 1.0;
  }

  // ---------------------------------------------------------------------------------------
  // balances_from_dict.

  /** `str(n)` of a non-negative integer. */
  function NatToString(n: nat): (s: string)
    ensures |s| >= 1 && forall i :: 0 <= i < |s| ==> '0' <= s[i] <= '9'
  {
    if n < 10 then ["0123456789"[n]] else NatToString(n / 10) + ["0123456789"[n % 10]]
  }

  function DigitsToNat(s: string): nat
    requires forall i :: 0 <= i < |s| ==> '0' <= s[i] <= '9'
  {
    if s == [] then 0 else DigitsToNat(s[..|s| - 1]) * 10 + (s[|s| - 1] as int - '0' as int)
  }

  lemma {:induction false} NatToStringRoundTrip(n: nat)
    ensures DigitsToNat(NatToString(n)) == n
  {
    var s := NatToString(n);
    if n < 10 {
      DigitValue(n);
    } else {
      var q, d := n / 10, n % 10;
      NatToStringRoundTrip(q);
      assert s == NatToString(q) + ["0123456789"[d]];
      assert s[..|s| - 1] == NatToString(q);
      DigitValue(d);
      assert q * 10 + d == n;
    }
  }

  lemma DigitValue(d: nat)
    requires d < 10
    ensures "0123456789"[d] as int - '0' as int == d
  {
  }

  /** The column of a wallet: `<subtype>_<i>` for the i-th wallet of a subtype with more than one
      wallet, the bare subtype otherwise. */
  function ColumnName(subtype: string, count: nat, i: nat): (name: string)
    ensures |name| >= |subtype|
  {
    if count > 1 then subtype + "_" + NatToString(i) else subtype
  }

  /** Two wallets of the same subtype never share a column. */
  lemma ColumnNamesDistinct(subtype: string, count: nat, i: nat, j: nat)
    requires count > 1 && i != j
    ensures ColumnName(subtype, count, i) != ColumnName(subtype, count, j)
  {
    var p := subtype + "_";
    if ColumnName(subtype, count, i) == ColumnName(subtype, count, j) {
      assert (p + NatToString(i))[|p|..] == NatToString(i);
      assert (p + NatToString(j))[|p|..] == NatToString(j);
      NatToStringRoundTrip(i);
      NatToStringRoundTrip(j);
    }
  }

  /** Only API wallets of the kraken or coinbase exchange contribute balances. */
  predicate IsBalanceSource(walletType: string, subtype: string) {
    walletType == "APIs" && Lower(subtype) in ["kraken", "coinbase"]
  }

  /** The row label of a ticker: the first currency split_pair finds in it, renamed. */
  function RowKey(ticker: string): string {
    RemapString(Config.RemapAssets, SplitSpec(ticker, Config.AcceptedCurrencies).0)
  }

  /** One stacked single-cell frame: `pd.DataFrame({column: amount}, index=[index])`. */
  datatype Cell = Cell(index: string, column: string, amount: real)

  /** The balances of one wallet, in the order the exchange returned them. */
  function WalletCells(column: string, balances: Dict<string, real>): (cells: seq<Cell>)
    ensures |cells| == |balances|
  {
    seq(|balances|, b requires 0 <= b < |balances| => Cell(RowKey(balances[b].0), column, balances[b].1))
  }

  /** The cells of the first `n` wallets of one subtype. `fetch` stands for the exchange's
      balance function, chosen by the lower-cased subtype and called with the wallet. */
  function WalletsCells(walletType: string, subtype: string, wallets: seq<Wallet>, n: nat,
                        fetch: (string, Wallet) -> Dict<string, real>): (cells: seq<Cell>)
    requires n <= |wallets|
  {
    if n == 0 then []
    else
      var front := WalletsCells(walletType, subtype, wallets, n - 1, fetch);
      if IsBalanceSource(walletType, subtype) then
        front + WalletCells(ColumnName(subtype, |wallets|, n - 1), fetch(Lower(subtype), wallets[n - 1]))
      else front
  }

  function SubtypesCells(walletType: string, subs: Subtypes, fetch: (string, Wallet) -> Dict<string, real>): seq<Cell> {
    if subs == [] then []
    else
      var n := |subs| - 1;
      SubtypesCells(walletType, subs[..n], fetch) + WalletsCells(walletType, subs[n].0, subs[n].1, |subs[n].1|, fetch)
  }

  /** Every cell balances_from_dict stacks, wallet type by wallet type. */
  function AllCells(ws: WalletDict, fetch: (string, Wallet) -> Dict<string, real>): seq<Cell> {
    if ws == [] then []
    else
      var n := |ws| - 1;
      AllCells(ws[..n], fetch) + SubtypesCells(ws[n].0, ws[n].1, fetch)
  }

  function ColumnsOf(cells: seq<Cell>): (cols: seq<string>)
    ensures |cols| == |cells|
  {
    seq(|cells|, k requires 0 <= k < |cells| => cells[k].column)
  }

  /** `pd.concat` of the single-cell frames: the rows stacked, the columns those that occur. */
  function Stacked(cells: seq<Cell>): Frame {
    Frame(Distinct(ColumnsOf(cells)), seq(|cells|, k requires 0 <= k < |cells| => Row(cells[k].index, map[cells[k].column := cells[k].amount])))
  }

  /** balances_from_dict: nested loops over wallet types, subtypes, wallets and the tickers of
      each wallet's balances, then the `Total` column. */
  method BalancesFromDict(ws: WalletDict, fetch: (string, Wallet) -> Dict<string, real>) returns (f: Frame)
    ensures f == WithTotal(Stacked(AllCells(ws, fetch)))
  {
    var cells: seq<Cell> := [];
    var t := 0;
    while t < |ws|
      invariant 0 <= t <= |ws|
      invariant cells == AllCells(ws[..t], fetch)
    {
      assert ws[..t + 1][..t] == ws[..t];
      var (walletType, subs) := ws[t];
      var more := SubtypeBalances(walletType, subs, fetch);
      cells := cells + more;
      t := t + 1;
    }
    assert ws[..t] == ws;
    f := AddColumnsByIndex(Stacked(cells));
  }

  /** The loop of balances_from_dict over the subtypes of one wallet type. */
  method SubtypeBalances(walletType: string, subs: Subtypes, fetch: (string, Wallet) -> Dict<string, real>) returns (cells: seq<Cell>)
    ensures cells == SubtypesCells(walletType, subs, fetch)
  {
    cells := [];
    var s := 0;
    while s < |subs|
      invariant 0 <= s <= |subs|
      invariant cells == SubtypesCells(walletType, subs[..s], fetch)
    {
      assert subs[..s + 1][..s] == subs[..s];
      var (subtype, wallets) := subs[s];
      var more := WalletBalances(walletType, subtype, wallets, fetch);
      cells := cells + more;
      s := s + 1;
    }
    assert subs[..s] == subs;
  }

  /** The loop of balances_from_dict over the wallets of one subtype, with the counter `i` that
      numbers them. */
  method WalletBalances(walletType: string, subtype: string, wallets: seq<Wallet>, fetch: (string, Wallet) -> Dict<string, real>)
    returns (cells: seq<Cell>)
    ensures cells == WalletsCells(walletType, subtype, wallets, |wallets|, fetch)
  {
    cells := [];
    var i := 0;
    var w := 0;
    while w < |wallets|
      invariant 0 <= w <= |wallets|
      invariant i == (if IsBalanceSource(walletType, subtype) then w else 0)
      invariant cells == WalletsCells(walletType, subtype, wallets, w, fetch)
    {
      if walletType == "APIs" && Lower(subtype) in ["kraken", "coinbase"] {
        var balances := fetch(Lower(subtype), wallets[w]);
        var column := if |wallets| > 1 then subtype + "_" + NatToString(i) else subtype;
        var more := TickerBalances(column, balances);
        cells := cells + more;
        i := i + 1;
      }
      w := w + 1;
    }
  }

  /** The innermost loop of balances_from_dict: one cell per ticker of a wallet's balances. */
  method TickerBalances(column: string, balances: Dict<string, real>) returns (cells: seq<Cell>)
    ensures cells == WalletCells(column, balances)
  {
    cells := [];
    var b := 0;
    while b < |balances|
      invariant 0 <= b <= |balances|
      invariant cells == WalletCells(column, balances)[..b]
    {
      var pair := SplitPair(balances[b].0, Config.AcceptedCurrencies);
      var index := RemapSeries([pair.0], Config.RemapAssets);
      cells := cells + [Cell(index[0], column, balances[b].1)];
      b := b + 1;
    }
    assert WalletCells(column, balances)[..b] == WalletCells(column, balances);
  }

  /** No balance column is named `Total`: a balance subtype is `kraken` or `coinbase` in some
      case, longer than `Total`, and a column name starts with its subtype. */
  lemma {:induction false} WalletsCellsNotTotal(walletType: string, subtype: string, wallets: seq<Wallet>, n: nat,
                                                fetch: (string, Wallet) -> Dict<string, real>)
    requires n <= |wallets|
    ensures forall c :: c in WalletsCells(walletType, subtype, wallets, n, fetch) ==> c.column != "Total"
  {
    if n > 0 {
      WalletsCellsNotTotal(walletType, subtype, wallets, n - 1, fetch);
      if IsBalanceSource(walletType, subtype) {
        assert |ColumnName(subtype, |wallets|, n - 1)| >= 6;
      }
    }
  }

  lemma {:induction false} SubtypesCellsNotTotal(walletType: string, subs: Subtypes, fetch: (string, Wallet) -> Dict<string, real>)
    ensures forall c :: c in SubtypesCells(walletType, subs, fetch) ==> c.column != "Total"
  {
    if subs != [] {
      var n := |subs| - 1;
      SubtypesCellsNotTotal(walletType, subs[..n], fetch);
      WalletsCellsNotTotal(walletType, subs[n].0, subs[n].1, |subs[n].1|, fetch);
    }
  }

  lemma {:induction false} AllCellsNotTotal(ws: WalletDict, fetch: (string, Wallet) -> Dict<string, real>)
    ensures forall c :: c in AllCells(ws, fetch) ==> c.column != "Total"
  {
    if ws != [] {
      var n := |ws| - 1;
      AllCellsNotTotal(ws[..n], fetch);
      SubtypesCellsNotTotal(ws[n].0, ws[n].1, fetch);
    }
  }

  lemma {:induction false} RunningTotalAbsent(cols: seq<string>, c: string, a: real)
    requires "Total" !in cols && c !in cols
    ensures RunningTotal(cols, map[c := a]) == 0.0
  {
    if cols != [] {
      var n := |cols| - 1;
      assert cols == cols[..n] + [cols[n]];
      RunningTotalAbsent(cols[..n], c, a);
    }
  }

  /** The total of a single-cell row over columns that name its column once. */
  lemma {:induction false} RunningTotalSingle(cols: seq<string>, c: string, a: real)
    requires "Total" !in cols && Count(cols, c) == 1
    ensures RunningTotal(cols, map[c := a]) == a
  {
    var n := |cols| - 1;
    assert cols == cols[..n] + [cols[n]];
    if cols[n] == c {
      assert Count(cols[..n], c) == 0;
      if c in cols[..n] {
        CountPresent(cols[..n], c);
      }
      RunningTotalAbsent(cols[..n], c, a);
    } else {
      RunningTotalSingle(cols[..n], c, a);
    }
  }

  lemma {:induction false} CountPresent<T>(s: seq<T>, x: T)
    requires x in s
    ensures Count(s, x) > 0
  {
    var n := |s| - 1;
    if s[n] != x {
      assert x in s[..n] by {
        var i :| 0 <= i < |s| && s[i] == x;
        assert i < n && s[..n][i] == x;
      }
      CountPresent(s[..n], x);
    }
  }

  /** What the balance table promises: one row per (wallet, ticker), labelled with the renamed
      first currency of the ticker, holding the balance in its wallet's column and a `Total`
      equal to that balance, since no other column of the row has a value. */
  lemma BalanceTable(ws: WalletDict, fetch: (string, Wallet) -> Dict<string, real>)
    ensures var cells := AllCells(ws, fetch);
      var f := WithTotal(Stacked(cells));
      |f.rows| == |cells| && "Total" in f.columns &&
      forall k :: 0 <= k < |cells| ==>
        f.rows[k].index == cells[k].index &&
        f.rows[k].cells == map[cells[k].column := cells[k].amount, "Total" := cells[k].amount]
  {
    var cells := AllCells(ws, fetch);
    var cols := Distinct(ColumnsOf(cells));
    AllCellsNotTotal(ws, fetch);
    assert "Total" !in cols;
    forall k | 0 <= k < |cells|
      ensures RunningTotal(cols, map[cells[k].column := cells[k].amount]) == cells[k].amount
    {
      assert cells[k] in cells;
      assert ColumnsOf(cells)[k] == cells[k].column;
      CountDistinct(cols, cells[k].column);
      RunningTotalSingle(cols, cells[k].column, cells[k].amount);
    }
  }
}

=== FILE: bittrex.dfy ===
/** The bittrex exchange client (lib/bittrex.py): cached balances, tickers, symbols and assets,
    the valid-symbol gate on price requests and the `/` and `-` spellings of a symbol. Unlike
    the other clients, a failed request is cached as an empty dictionary or list, and an
    obtained body makes the balance and symbol loops raise TypeError, as they walk the keys of
    the object rather than its `result` records. Requests are not made: each method takes the
    response it would receive and records the endpoint in the ghost log `requests` when it
    would have asked. */
module Bittrex {
  import opened Wrappers
  import opened Strings
  import opened OrderedDicts
  import opened Http
  import opened Prices
  import opened Exchange
  import Config

  const BalancesPath: string := "/balances"
  const TickersPath: string := "/markets/tickers"

  /** One balance record: the currency and its total. */
  datatype BalanceRec = BalanceRec(currencySymbol: string, total: real)

  /** A body with or without a `result` member, and its records. */
  datatype Body<T> = Body(hasResult: bool, items: seq<T>)

  function CandlesPath(symbol: string): string {
    "/markets/" + symbol + "/candles/DAY_1/recent"
  }

  /** The (currency, total) of every record whose total is not zero. */
  function NonZeroTotals(items: seq<BalanceRec>): (pairs: seq<(string, real)>)
    ensures forall p :: p in pairs <==> exists b :: b in items && b.total != 0.0 && p == (b.currencySymbol, b.total)
  {
    if items == [] then []
    else
      var n := |items| - 1;
      var b := items[n];
      assert forall x :: x in items <==> x in items[..n] || x == b;
      NonZeroTotals(items[..n]) + (if b.total != 0.0 then [(b.currencySymbol, b.total)] else [])
  }

  /** The loop `if float(total) != 0: bu[currencySymbol] = total`. */
  method NonZeroBalances(items: seq<BalanceRec>) returns (bu: Dict<string, real>)
    ensures bu == FromPairs(NonZeroTotals(items))
  {
    bu := [];
    var i := 0;
    while i < |items|
      invariant 0 <= i <= |items|
      invariant bu == FromPairs(NonZeroTotals(items[..i]))
    {
      assert items[..i + 1][..i] == items[..i];
      var b := items[i];
      ghost var front := NonZeroTotals(items[..i]);
      assert items[..i + 1][i] == b;
      assert NonZeroTotals(items[..i + 1]) == front + (if b.total != 0.0 then [(b.currencySymbol, b.total)] else []);
      if b.total != 0.0 {
        var p := (b.currencySymbol, b.total);
        assert (front + [p])[..|front|] == front;
        assert FromPairs(front + [p]) == Put(FromPairs(front), p.0, p.1);
        bu := Put(bu, b.currencySymbol, b.total);
      } else {
        assert front + [] == front;
      }
      i := i + 1;
    }
    assert items[..i] == items;
  }

  /** A currency has an entry exactly when some record of it has a non-zero total, and the entry
      is never zero. */
  lemma BalancesOmitZero(items: seq<BalanceRec>, c: string)
    ensures Lookup(FromPairs(NonZeroTotals(items)), c).Some? ==>
      var v := Lookup(FromPairs(NonZeroTotals(items)), c).value;
      v != 0.0 && exists b :: b in items && b.currencySymbol == c && b.total == v
    ensures Lookup(FromPairs(NonZeroTotals(items)), c).None? <==>
      forall b :: b in items && b.currencySymbol == c ==> b.total == 0.0
  {
    var pairs := NonZeroTotals(items);
    FromPairsLookup(pairs, c);
    LastValueIn(pairs, c);
    forall b | b in items && b.currencySymbol == c && b.total != 0.0 ensures c in Keys(pairs) {
      assert (c, b.total) in pairs;
      var j :| 0 <= j < |pairs| && pairs[j] == (c, b.total);
      assert Keys(pairs)[j] == c;
    }
  }

  /** The balance and symbol loops as written (getBalances_Universal, getValidSymbols_Universal).
      `for balance in balances` and `for symbol in validSymbols` walk the keys of the cached
      object, and indexing a key string with `'total'` or `'symbol'` raises TypeError; an
      obtained object has at least its `result` key, so the loop raises on every body obtained.
      Nothing obtained gives an empty dictionary or list. */
  function KeyLoop<B, E>(obtained: Option<B>): (r: Result<seq<E>>)
    ensures r.Fail? <==> obtained.Some?
    ensures r.Fail? ==> r.reason == "TypeError"
    ensures r.Ok? ==> r.value == []
  {
    if obtained.Some? then Fail("TypeError") else Ok([])
  }

  /** The balances the loop evidently means to collect, walking the records under `result`: the
      non-zero totals, or an empty dictionary when nothing was obtained. */
  function IntendedBalances(balances: Option<Body<BalanceRec>>): Dict<string, real> {
    match balances
    case None => []
    case Some(b) => FromPairs(NonZeroTotals(b.items))
  }

  /** The symbols the loop evidently means to collect: those of the records under `result`. */
  function IntendedSymbols(tickers: Option<Body<string>>): seq<string> {
    match tickers
    case None => []
    case Some(t) => t.items
  }

  /** One obtained balance of 1 BTC: the code as written raises TypeError where the intended
      loop gives `{BTC: 1.0}`; likewise for one obtained ticker. */
  lemma KeyIterationRaises()
    ensures var body := Body(true, [BalanceRec("BTC", 1.0)]);
      KeyLoop<Body<BalanceRec>, (string, real)>(Some(body)) == Fail("TypeError") &&
      IntendedBalances(Some(body)) == [("BTC", 1.0)]
    ensures var tickers := Body(true, ["BTC-USD"]);
      KeyLoop<Body<string>, string>(Some(tickers)) == Fail("TypeError") &&
      IntendedSymbols(Some(tickers)) == ["BTC-USD"]
  {
    var items := [BalanceRec("BTC", 1.0)];
    var pairs := [("BTC", 1.0)];
    assert items[..0] == [] && pairs[..0] == [];
    assert NonZeroTotals(items) == NonZeroTotals([]) + pairs;
    assert FromPairs(pairs) == Put([], "BTC", 1.0);
    assert Keys<string, real>([]) == [];
  }

  /** With the intended loop, a currency has a balance exactly when one of its records has a
      non-zero total, and no balance is zero. */
  lemma IntendedBalancesOmitZero(body: Body<BalanceRec>, c: string)
    ensures Lookup(IntendedBalances(Some(body)), c).None? <==>
      forall b :: b in body.items && b.currencySymbol == c ==> b.total == 0.0
    ensures Lookup(IntendedBalances(Some(body)), c).Some? ==> Lookup(IntendedBalances(Some(body)), c).value != 0.0
  {
    BalancesOmitZero(body.items, c);
  }

  /** The market spelling `A-B` of a symbol `A/B`, and back. */
  lemma MarketSpelling(a: string, b: string)
    requires '/' !in a && '/' !in b && '-' !in a && '-' !in b
    ensures ReplaceAll(a + "/" + b, "/", "-") == a + "-" + b
    ensures ReplaceAll(a + "-" + b, "-", "/") == a + "/" + b
  {
    Respell(a, b, '/', '-');
    Respell(a, b, '-', '/');
  }

  lemma Respell(a: string, b: string, x: char, y: char)
    requires x !in a && x !in b
    ensures ReplaceAll(a + [x] + b, [x], [y]) == a + [y] + b
  {
    assert a + [x] + b == a + ([x] + b);
    ReplaceSkip(a, [x] + b, [x], [y]);
    ReplaceHead(b, [x], [y]);
    MissingCharNotContained(b, [x], 0);
    ReplaceAbsent(b, [x], [y]);
  }

  /** getHistoricalPricesDataFrame_Universal once the candles are known: an empty frame for no
      candles, otherwise one column named with `-` turned into `/` holding `(high + low) / 2`. */
  function PriceFrameOf(symbol: string, candles: Option<seq<Candle>>): (r: Option<PriceFrame>)
    ensures r.None? <==> candles.None?
    ensures r.Some? && candles.value == [] ==> r.value == []
    ensures r.Some? && candles.value != [] ==> r.value == [(ReplaceAll(symbol, "-", "/"), Midpoints(candles.value))]
  {
    match candles
    case None => None
    case Some(c) => if c == [] then Some([]) else PriceColumn(ReplaceAll(symbol, "-", "/"), c)
  }

  /** With the intended loop, the asset of every listed `A-B` market is a valid asset. */
  lemma IntendedAssetsListed(tickers: Body<string>, a: string, b: string)
    requires '-' !in a && a + "-" + b in tickers.items
    ensures a in FirstParts(IntendedSymbols(Some(tickers)), '-')
  {
    SplitFirst(a, b, '-');
  }

  /** The tickers, symbols and assets caches of a client, in that order. */
  type TickerCaches = (Option<Body<string>>, Option<seq<string>>, Option<seq<string>>)

  /** What getValidSymbols_Universal returns: its cache, or the loop over what getValidSymbols
      returns. */
  function SymbolsResult(refresh: bool, c: TickerCaches, resp: Response<Body<string>>): Result<seq<string>> {
    if !refresh && c.1.Some? then Ok(c.1.value) else KeyLoop(Cached(refresh, c.0, WholeAnswer(resp, resp.body.hasResult)))
  }

  /** The caches after getValidSymbols_Universal: untouched when the symbols are cached;
      otherwise the tickers are obtained and stored, and the symbols stored unless the loop
      raised. */
  function AfterSymbols(refresh: bool, c: TickerCaches, resp: Response<Body<string>>): TickerCaches {
    if !refresh && c.1.Some? then c
    else
      var t := Cached(refresh, c.0, WholeAnswer(resp, resp.body.hasResult));
      var su := KeyLoop<Body<string>, string>(t);
      (Stored(c.0, t), if su.Ok? then Some(su.value) else c.1, c.2)
  }

  /** The requests of getValidSymbols_Universal: the tickers endpoint, unless a cache answers. */
  function SymbolsAsked(refresh: bool, c: TickerCaches): seq<string> {
    if !refresh && c.1.Some? then [] else Asked(refresh, c.0, TickersPath)
  }

  /** What getValidAssets_Universal returns: its cache, or the assets of the symbols, passing on
      the loop's exception. */
  function AssetsResult(refresh: bool, c: TickerCaches, resp: Response<Body<string>>): Result<seq<string>> {
    if !refresh && c.2.Some? then Ok(c.2.value)
    else
      match SymbolsResult(refresh, c, resp)
      case Fail(e) => Fail(e)
      case Ok(su) => Ok(FirstParts(su, '-'))
  }

  /** The caches after getValidAssets_Universal. */
  function AfterAssets(refresh: bool, c: TickerCaches, resp: Response<Body<string>>): TickerCaches {
    if !refresh && c.2.Some? then c
    else
      var s := AfterSymbols(refresh, c, resp);
      var a := AssetsResult(refresh, c, resp);
      (s.0, s.1, if a.Ok? then Some(a.value) else c.2)
  }

  /** The requests of getValidAssets_Universal. */
  function AssetsAsked(refresh: bool, c: TickerCaches): seq<string> {
    if !refresh && c.2.Some? then [] else SymbolsAsked(refresh, c)
  }

  /** What getBalances_Universal returns: its cache, or the loop over what getBalances returns. */
  function BalancesResult(refresh: bool, cache: Option<Dict<string, real>>, balances: Option<Body<BalanceRec>>,
                          resp: Response<Body<BalanceRec>>): Result<Dict<string, real>> {
    if !refresh && cache.Some? then Ok(cache.value) else KeyLoop(Cached(refresh, balances, WholeAnswer(resp, resp.body.hasResult)))
  }

  /** The candles getHistoricalPricesDataFrame reads from what getHistoricalPrices returns, as
      written: it hands the whole response object to `pd.DataFrame` with the candle columns,
      which picks those columns out of the object's own keys. None of them is one, so an
      obtained object gives a frame with no rows. */
  function ObjectCandles(obj: Option<Body<Candle>>): (r: Option<seq<Candle>>)
    ensures r.Some? <==> obj.Some?
    ensures r.Some? ==> r.value == []
  {
    if obj.Some? then Some([]) else None
  }

  /** The candles the frame evidently means to hold: the records under `result`. */
  function IntendedCandles(obj: Option<Body<Candle>>): (r: Option<seq<Candle>>)
    ensures r.Some? <==> obj.Some?
    ensures r.Some? ==> r.value == obj.value.items
  {
    if obj.Some? then Some(obj.value.items) else None
  }

  /** One accepted daily candle for `BTC-USD`: as written the universal frame is empty, where the
      intended frame holds the candle's midpoint under `BTC/USD`. */
  lemma ObjectFrameEmpty()
    ensures var resp := Response(200, Body(true, [Candle(86400, 3.0, 1.0)]));
      PriceFrameOf("BTC-USD", ObjectCandles(WholeAnswer(resp, resp.body.hasResult))) == Some([]) &&
      PriceFrameOf("BTC-USD", IntendedCandles(WholeAnswer(resp, resp.body.hasResult))) == Some([("BTC/USD", [(86400, 2.0)])])
  {
    MarketSpelling("BTC", "USD");
    assert "BTC" + "-" + "USD" == "BTC-USD" && "BTC" + "/" + "USD" == "BTC/USD";
    assert Midpoints([Candle(86400, 3.0, 1.0)]) == [(86400, 2.0)];
  }

  class Bittrex {
    var balances: Option<Body<BalanceRec>>
    var balanceUniversal: Option<Dict<string, real>>
    var validSymbols: Option<Body<string>>
    var validSymbolsUniversal: Option<seq<string>>
    var validAssetsUniversal: Option<seq<string>>
    /** The endpoints requested so far. */
    ghost var requests: seq<string>

    /** The tickers, symbols and assets caches. */
    function Caches(): TickerCaches
      reads this
    {
      (validSymbols, validSymbolsUniversal, validAssetsUniversal)
    }

    /** Since the loops raise on every obtained body, the derived caches can only ever hold
        what a failed request leaves: nothing, or an empty dictionary or list. */
    predicate OnlyEmptyCaches()
      reads this
    {
      (balanceUniversal.None? || balanceUniversal == Some([])) &&
      (validSymbolsUniversal.None? || validSymbolsUniversal == Some([])) &&
      (validAssetsUniversal.None? || validAssetsUniversal == Some([]))
    }

    constructor ()
      ensures balances.None? && balanceUniversal.None? && validSymbols.None?
      ensures validSymbolsUniversal.None? && validAssetsUniversal.None? && requests == []
      ensures OnlyEmptyCaches()
    {
      balances := None;
      balanceUniversal := None;
      validSymbols := None;
      validSymbolsUniversal := None;
      validAssetsUniversal := None;
      requests := [];
    }

    /** getBalances: the whole accepted body. */
    method GetBalances(refresh: bool, resp: Response<Body<BalanceRec>>) returns (r: Option<Body<BalanceRec>>)
      modifies this`balances, this`requests
      ensures r == Cached(refresh, old(balances), WholeAnswer(resp, resp.body.hasResult))
      ensures balances == Stored(old(balances), r)
      ensures requests == old(requests) + Asked(refresh, old(balances), BalancesPath)
    {
      if refresh || balances.None? {
        requests := requests + [BalancesPath];
        if resp.status == 200 && resp.body.hasResult {
          balances := Some(resp.body);
          r := balances;
        } else {
          r := None;
        }
      } else {
        r := balances;
      }
    }

    /** getBalances_Universal: TypeError once a body is obtained (KeyLoop), leaving
        the cache as it was; an empty dictionary is cached when nothing is obtained, so later
        calls do not ask again. */
    method GetBalancesUniversal(refresh: bool, resp: Response<Body<BalanceRec>>) returns (r: Result<Dict<string, real>>)
      modifies this`balances, this`balanceUniversal, this`requests
      ensures r == BalancesResult(refresh, old(balanceUniversal), old(balances), resp)
      ensures !refresh && old(balanceUniversal).Some? ==>
        balances == old(balances) && requests == old(requests) && balanceUniversal == old(balanceUniversal)
      ensures refresh || old(balanceUniversal).None? ==>
        balances == Stored(old(balances), Cached(refresh, old(balances), WholeAnswer(resp, resp.body.hasResult))) &&
        requests == old(requests) + Asked(refresh, old(balances), BalancesPath) &&
        balanceUniversal == (if r.Ok? then Some(r.value) else old(balanceUniversal))
      ensures old(OnlyEmptyCaches()) ==> OnlyEmptyCaches()
    {
      if refresh || balanceUniversal.None? {
        var b := GetBalances(refresh, resp);
        if b.Some? {
          // the loop's first key is a string, which `balance['total']` cannot index
          return Fail("TypeError");
        }
        r := Ok([]);
        balanceUniversal := Some([]);
      } else {
        r := Ok(balanceUniversal.value);
      }
    }

    /** getValidSymbols: the whole accepted tickers body. */
    method GetValidSymbols(refresh: bool, resp: Response<Body<string>>) returns (r: Option<Body<string>>)
      modifies this`validSymbols, this`requests
      ensures r == Cached(refresh, old(validSymbols), WholeAnswer(resp, resp.body.hasResult))
      ensures validSymbols == Stored(old(validSymbols), r)
      ensures requests == old(requests) + Asked(refresh, old(validSymbols), TickersPath)
    {
      if refresh || validSymbols.None? {
        requests := requests + [TickersPath];
        if resp.status == 200 && resp.body.hasResult {
          validSymbols := Some(resp.body);
          r := validSymbols;
        } else {
          r := None;
        }
      } else {
        r := validSymbols;
      }
    }

    /** getValidSymbols_Universal: TypeError once the tickers are obtained (KeyLoop);
        an empty list is cached when nothing is obtained. */
    method GetValidSymbolsUniversal(refresh: bool, resp: Response<Body<string>>) returns (r: Result<seq<string>>)
      modifies this`validSymbols, this`validSymbolsUniversal, this`requests
      ensures r == SymbolsResult(refresh, old(Caches()), resp)
      ensures Caches() == AfterSymbols(refresh, old(Caches()), resp)
      ensures requests == old(requests) + SymbolsAsked(refresh, old(Caches()))
      ensures old(OnlyEmptyCaches()) ==> OnlyEmptyCaches()
    {
      if refresh || validSymbolsUniversal.None? {
        var t := GetValidSymbols(refresh, resp);
        if t.Some? {
          // the loop's first key is a string, which `symbol['symbol']` cannot index
          return Fail("TypeError");
        }
        r := Ok([]);
        validSymbolsUniversal := Some([]);
      } else {
        r := Ok(validSymbolsUniversal.value);
      }
    }

    /** getValidAssets_Universal: the distinct parts before the first `-` of the valid symbols,
        passing on the TypeError of their loop. */
    method GetValidAssetsUniversal(refresh: bool, resp: Response<Body<string>>) returns (r: Result<seq<string>>)
      modifies this`validSymbols, this`validSymbolsUniversal, this`validAssetsUniversal, this`requests
      ensures r == AssetsResult(refresh, old(Caches()), resp)
      ensures Caches() == AfterAssets(refresh, old(Caches()), resp)
      ensures requests == old(requests) + AssetsAsked(refresh, old(Caches()))
      ensures old(OnlyEmptyCaches()) ==> OnlyEmptyCaches()
    {
      if refresh || validAssetsUniversal.None? {
        var su := GetValidSymbolsUniversal(refresh, resp);
        if su.Fail? {
          return Fail(su.reason);
        }
        var assets := FirstParts(su.value, '-');
        r := Ok(assets);
        validAssetsUniversal := Some(assets);
      } else {
        r := Ok(validAssetsUniversal.value);
      }
    }

    /** getHistoricalPrices: the valid symbols are looked up without refresh, passing on their
        TypeError; a symbol missing from them is not requested and gives nothing; otherwise the
        whole accepted response object is returned. As the symbols can only be an empty list,
        no candles are ever requested. */
    method GetHistoricalPrices(symbol: string, tickers: Response<Body<string>>, resp: Response<Body<Candle>>)
      returns (r: Result<Option<Body<Candle>>>)
      modifies this`validSymbols, this`validSymbolsUniversal, this`requests
      ensures Caches() == AfterSymbols(false, old(Caches()), tickers)
      ensures var su := SymbolsResult(false, old(Caches()), tickers);
        var lookup := old(requests) + SymbolsAsked(false, old(Caches()));
        (su.Fail? ==> r == Fail(su.reason) && requests == lookup) &&
        (su.Ok? && symbol in su.value ==> r == Ok(WholeAnswer(resp, resp.body.hasResult)) && requests == lookup + [CandlesPath(symbol)]) &&
        (su.Ok? && symbol !in su.value ==> r == Ok(None) && requests == lookup)
      ensures old(OnlyEmptyCaches()) ==>
        OnlyEmptyCaches() && (r.Fail? || r == Ok(None)) && requests == old(requests) + SymbolsAsked(false, old(Caches()))
    {
      var su := GetValidSymbolsUniversal(false, tickers);
      if su.Fail? {
        return Fail(su.reason);
      }
      r := Ok(None);
      if symbol in su.value {
        requests := requests + [CandlesPath(symbol)];
        r := Ok(WholeAnswer(resp, resp.body.hasResult));
      }
    }

    /** getHistoricalPricesDataFrame_Universal: requests the `A-B` spelling of `symbol`; the frame
        built from the returned object has no rows (ObjectCandles), so it is returned empty and
        never gains the midpoint column. */
    method GetHistoricalPriceFrame(symbol: string, tickers: Response<Body<string>>, resp: Response<Body<Candle>>)
      returns (r: Result<Option<PriceFrame>>)
      modifies this`validSymbols, this`validSymbolsUniversal, this`requests
      ensures Caches() == AfterSymbols(false, old(Caches()), tickers)
      ensures var market := ReplaceAll(symbol, "/", "-");
        var su := SymbolsResult(false, old(Caches()), tickers);
        var lookup := old(requests) + SymbolsAsked(false, old(Caches()));
        (su.Fail? ==> r == Fail(su.reason) && requests == lookup) &&
        (su.Ok? && market in su.value ==>
          r == Ok(PriceFrameOf(symbol, ObjectCandles(WholeAnswer(resp, resp.body.hasResult)))) && requests == lookup + [CandlesPath(market)]) &&
        (su.Ok? && market !in su.value ==> r == Ok(None) && requests == lookup)
      ensures r.Ok? && r.value.Some? ==> r.value.value == []
      ensures old(OnlyEmptyCaches()) ==> OnlyEmptyCaches() && (r.Fail? || r == Ok(None))
    {
      var market := ReplaceAll(symbol, "/", "-");
      var obj := GetHistoricalPrices(market, tickers, resp);
      if obj.Fail? {
        return Fail(obj.reason);
      }
      r := Ok(PriceFrameOf(symbol, ObjectCandles(obj.value)));
    }

    /** getHistoricalPricesForNonZeroBalances_Universal: the price list of `ASSET-USD` for every
        non-fiat asset with a balance, passing on the TypeError of the balances loop. As the
        balances can only be an empty dictionary, the table, when there is one, is empty. The
        per-symbol price frames are the oracle `fetch`. */
    method HistoricalPricesForBalances(native: string, stableCoinAlt: bool, refresh: bool,
                                       resp: Response<Body<BalanceRec>>, alts: map<string, seq<string>>,
                                       fetch: string -> Option<PriceFrame>)
      returns (r: Result<PriceFrame>)
      modifies this`balances, this`balanceUniversal, this`requests
      ensures !refresh && old(balanceUniversal).Some? ==>
        balances == old(balances) && requests == old(requests) && balanceUniversal == old(balanceUniversal)
      ensures refresh || old(balanceUniversal).None? ==>
        balances == Stored(old(balances), Cached(refresh, old(balances), WholeAnswer(resp, resp.body.hasResult))) &&
        requests == old(requests) + Asked(refresh, old(balances), BalancesPath)
      ensures var b := BalancesResult(refresh, old(balanceUniversal), old(balances), resp);
        (b.Fail? ==> r == Fail(b.reason)) &&
        (b.Ok? ==>
          var t := Table(UsdSymbols(Keys(b.value), Config.FiatCurrencies, '-'), native, stableCoinAlt, alts, fetch);
          (r.Ok? <==> t.Ok?) && (r.Ok? ==> r.value == t.value.0) && (r.Fail? ==> t == Fail(r.reason)))
      ensures old(OnlyEmptyCaches()) ==> OnlyEmptyCaches() && (r.Fail? || r == Ok([]))
    {
      var bu := GetBalancesUniversal(refresh, resp);
      if bu.Fail? {
        return Fail(bu.reason);
      }
      var symbols := UsdSymbols(Keys(bu.value), Config.FiatCurrencies, '-');
      var table, calls := HistoricalPricesList(symbols, native, stableCoinAlt, alts, fetch);
      r := table;
    }
  }
}

=== FILE: coinbase.dfy ===
/** The coinbase exchange client (lib/coinbase.py): lazily cached accounts, balances, assets and
    symbols, the transactions of every crypto account, and the reshaping of its responses.
    Requests are not made: each method takes the response it would receive, uses it only when
    it would have asked, and records the endpoint in the ghost log `requests`. */
module Coinbase {
  import opened Wrappers
  import opened Strings
  import opened OrderedDicts
  import opened Http
  import opened Prices
  import opened CoinbaseRecords
  import opened Exchange
  import Config

  const AccountsPath: string := "/accounts"

  /** A wallet account and its balance. */
  datatype Account = Account(id: string, name: string, currency: string, balance: Money)

  /** The body of an accounts response: whether it has a `result` member, and its `data` list. */
  datatype AccountsJson = AccountsJson(hasResult: bool, data: Option<seq<Account>>)

  /** The body of a wallet-transactions response: whether it has a `result` and an `error`
      member, and its `data` list. */
  datatype TxJson = TxJson(hasResult: bool, hasError: bool, data: Option<seq<Txn>>)

  /** The body of a candles response: a JSON list of candles, or a JSON object, of which only
      the presence of a `result` member is read. */
  datatype CandlesJson = CandlesList(candles: seq<Candle>) | CandlesObject(hasResult: bool)

  /** The (currency, amount) of every account whose amount is not zero, in account order. */
  function NonZeroPairs(accounts: seq<Account>): (pairs: seq<(string, real)>)
    ensures forall p :: p in pairs <==> exists a :: a in accounts && a.balance.amount != 0.0 && p == (a.balance.currency, a.balance.amount)
  {
    if accounts == [] then []
    else
      var n := |accounts| - 1;
      var a := accounts[n];
      assert forall x :: x in accounts <==> x in accounts[..n] || x == a;
      NonZeroPairs(accounts[..n]) + (if a.balance.amount != 0.0 then [(a.balance.currency, a.balance.amount)] else [])
  }

  /** The loop `if float(amount) != 0: bu[currency] = amount` over the accounts. */
  method NonZeroBalances(accounts: seq<Account>) returns (bu: Dict<string, real>)
    ensures bu == FromPairs(NonZeroPairs(accounts))
  {
    bu := [];
    var i := 0;
    while i < |accounts|
      invariant 0 <= i <= |accounts|
      invariant bu == FromPairs(NonZeroPairs(accounts[..i]))
    {
      assert accounts[..i + 1][..i] == accounts[..i];
      var a := accounts[i];
      ghost var front := NonZeroPairs(accounts[..i]);
      assert accounts[..i + 1][i] == a;
      assert NonZeroPairs(accounts[..i + 1]) == front + (if a.balance.amount != 0.0 then [(a.balance.currency, a.balance.amount)] else []);
      if a.balance.amount != 0.0 {
        var p := (a.balance.currency, a.balance.amount);
        assert (front + [p])[..|front|] == front;
        assert FromPairs(front + [p]) == Put(FromPairs(front), p.0, p.1);
        bu := Put(bu, a.balance.currency, a.balance.amount);
      } else {
        assert front + [] == front;
      }
      i := i + 1;
    }
    assert accounts[..i] == accounts;
  }

  /** The balance dictionary maps a currency to the amount of an account in it, and never to
      zero; a currency has an entry exactly when some account in it has a non-zero amount. */
  lemma BalancesOmitZero(accounts: seq<Account>, c: string)
    ensures Lookup(FromPairs(NonZeroPairs(accounts)), c).Some? ==>
      var v := Lookup(FromPairs(NonZeroPairs(accounts)), c).value;
      v != 0.0 && exists a :: a in accounts && a.balance.currency == c && a.balance.amount == v
    ensures Lookup(FromPairs(NonZeroPairs(accounts)), c).None? <==>
      forall a :: a in accounts && a.balance.currency == c ==> a.balance.amount == 0.0
  {
    var pairs := NonZeroPairs(accounts);
    FromPairsLookup(pairs, c);
    LastValueIn(pairs, c);
    forall a | a in accounts && a.balance.currency == c && a.balance.amount != 0.0 ensures c in Keys(pairs) {
      assert (c, a.balance.amount) in pairs;
      var j :| 0 <= j < |pairs| && pairs[j] == (c, a.balance.amount);
      assert Keys(pairs)[j] == c;
    }
  }

  /** The balances a getBalances_Universal miss computes from the accounts it obtained: the
      non-zero amounts of a `data` list, or an empty dictionary when there is none. */
  function BalancesFrom(accounts: Option<AccountsJson>): Option<Dict<string, real>> {
    match accounts
    case None => None
    case Some(j) => Some(if j.data.Some? then FromPairs(NonZeroPairs(j.data.value)) else [])
  }

  /** `[a['currency'] for a in data if a['currency'] not in fiat_currencies]`. */
  function CryptoCurrencies(accounts: seq<Account>): (assets: seq<string>)
    ensures |assets| <= |accounts|
    ensures forall x :: x in assets <==> exists a :: a in accounts && a.currency == x && x !in Config.FiatCurrencies
  {
    if accounts == [] then []
    else
      var n := |accounts| - 1;
      var a := accounts[n];
      assert forall x :: x in accounts <==> x in accounts[..n] || x == a;
      CryptoCurrencies(accounts[..n]) + (if a.currency in Config.FiatCurrencies then [] else [a.currency])
  }

  function AssetsFrom(accounts: Option<AccountsJson>): Option<seq<string>> {
    if accounts.Some? && accounts.value.data.Some? then Some(CryptoCurrencies(accounts.value.data.value)) else None
  }

  /** `[f"{asset}/{native}" for asset in assets if asset not in fiat_currencies]`. */
  function NativeSymbols(assets: seq<string>, native: string): (symbols: seq<string>)
    ensures |symbols| <= |assets|
    ensures forall s :: s in symbols <==> exists a :: a in assets && a !in Config.FiatCurrencies && s == a + "/" + native
  {
    if assets == [] then []
    else
      var n := |assets| - 1;
      assert forall x :: x in assets <==> x in assets[..n] || x == assets[n];
      NativeSymbols(assets[..n], native) + (if assets[n] in Config.FiatCurrencies then [] else [assets[n] + "/" + native])
  }

  function SymbolsFrom(assets: Option<seq<string>>, native: string): Option<seq<string>> {
    match assets
    case None => None
    case Some(a) => Some(NativeSymbols(a, native))
  }

  /** A symbol `A/B` as a product id: every `/` becomes `-`. */
  function ProductId(symbol: string): string {
    ReplaceAll(symbol, "/", "-")
  }

  lemma ProductIdOfPair(a: string, b: string)
    requires '/' !in a && '/' !in b
    ensures ProductId(a + "/" + b) == a + "-" + b
  {
    assert a + "/" + b == a + ("/" + b);
    ReplaceSkip(a, "/" + b, "/", "-");
    ReplaceHead(b, "/", "-");
    MissingCharNotContained(b, "/", 0);
    ReplaceAbsent(b, "/", "-");
  }

  /** getHistoricalPricesDataFrame_Universal as written. A list body, which is what the candles
      endpoint sends, has no `.keys()` and raises AttributeError. An object body with a `result`
      member is handed to `pd.DataFrame` with the candle columns, which picks those columns out
      of the object's own members; none of them is one, so the frame is empty and nothing is
      returned. Any other response is only printed. */
  function HistoricalPriceFrame(symbol: string, resp: Response<CandlesJson>): (r: Result<Option<PriceFrame>>)
    ensures r.Fail? <==> resp.status == 200 && resp.body.CandlesList?
    ensures r.Fail? ==> r.reason == "AttributeError"
    ensures r.Ok? ==> r.value.None?
  {
    if resp.status == 200 && resp.body.CandlesList? then Fail("AttributeError") else Ok(None)
  }

  /** The frame the method evidently means to build, reading the list body as the other daily
      price fetcher does: one column named after the symbol with `(high + low) / 2` per date,
      nothing when the request is not accepted or there are no candles. */
  function IntendedPriceFrame(symbol: string, resp: Response<CandlesJson>): (r: Option<PriceFrame>)
    ensures r.Some? <==> resp.status == 200 && resp.body.CandlesList? && resp.body.candles != []
    ensures r.Some? ==> r.value == [(symbol, Midpoints(resp.body.candles))]
  {
    if resp.status == 200 && resp.body.CandlesList? then PriceColumn(symbol, resp.body.candles) else None
  }

  /** A list of one candle: the method as written raises AttributeError where the intended
      frame holds the candle's midpoint. */
  lemma ListBodyRaises()
    ensures var resp := Response(200, CandlesList([Candle(86400, 3.0, 1.0)]));
      HistoricalPriceFrame("BTC/USD", resp) == Fail("AttributeError") &&
      IntendedPriceFrame("BTC/USD", resp) == Some([("BTC/USD", [(86400, 2.0)])])
  {
    var c := [Candle(86400, 3.0, 1.0)];
    assert Midpoints(c) == [(86400, 2.0)];
  }

  /** The symbols of the transaction wallets: `asset/native` for every asset and every pair
      recorded, each once. */
  function TransactionSymbols(rows: seq<TxRow>, native: string): (symbols: seq<string>)
    ensures forall s :: s in symbols <==>
      (exists r :: r in rows && r.asset.Some? && s == r.asset.value + "/" + native) ||
      (exists r :: r in rows && r.pair == Some(s))
  {
    Distinct(AssetSymbols(rows, native) + RowPairs(rows))
  }

  function AssetSymbols(rows: seq<TxRow>, native: string): (s: seq<string>)
    ensures forall x :: x in s <==> exists r :: r in rows && r.asset.Some? && x == r.asset.value + "/" + native
  {
    if rows == [] then []
    else
      var n := |rows| - 1;
      assert forall x :: x in rows <==> x in rows[..n] || x == rows[n];
      AssetSymbols(rows[..n], native) + (if rows[n].asset.Some? then [rows[n].asset.value + "/" + native] else [])
  }

  function RowPairs(rows: seq<TxRow>): (s: seq<string>)
    ensures forall x :: x in s <==> exists r :: r in rows && r.pair == Some(x)
  {
    if rows == [] then []
    else
      var n := |rows| - 1;
      assert forall x :: x in rows <==> x in rows[..n] || x == rows[n];
      RowPairs(rows[..n]) + (if rows[n].pair.Some? then [rows[n].pair.value] else [])
  }

  /** parse_api_results: a body without `data` prints its `error` member and gives nothing, or
      raises KeyError when there is no `error` member either; otherwise the rows of its
      transactions, keeping unsupported types and sends as bare rows. */
  function ParsedBody(body: TxJson): Result<Option<seq<TxRow>>> {
    match body.data
    case None => if body.hasError then Ok(None) else Fail("KeyError")
    case Some(items) =>
      match TxRows(items, false)
      case Fail(e) => Fail(e)
      case Ok(rows) => Ok(Some(rows))
  }

  /** The transactions of one account: its response must be accepted, since a missing response
      reaches `resp.keys()` on None and raises AttributeError; an accepted body without `data`
      adds no rows when it has an `error` member and raises KeyError otherwise. */
  function AccountRows(resp: Response<TxJson>): (r: Result<seq<TxRow>>)
    ensures !(resp.status == 200 && resp.body.hasResult) ==> r == Fail("AttributeError")
    ensures resp.status == 200 && resp.body.hasResult && resp.body.data.None? ==>
      r == (if resp.body.hasError then Ok([]) else Fail("KeyError"))
    ensures resp.status == 200 && resp.body.hasResult && resp.body.data.Some? ==>
      r == TxRows(resp.body.data.value, false)
  {
    if !(resp.status == 200 && resp.body.hasResult) then Fail("AttributeError")
    else
      match ParsedBody(resp.body)
      case Fail(e) => Fail(e)
      case Ok(None) => Ok([])
      case Ok(Some(rows)) => Ok(rows)
  }

  /** The transactions of every non-fiat account, concatenated in account order, or the first
      exception. */
  function AllTransactions(accounts: seq<Account>, wallet: string -> Response<TxJson>): Result<seq<TxRow>> {
    if accounts == [] then Ok([])
    else
      var n := |accounts| - 1;
      match AllTransactions(accounts[..n], wallet)
      case Fail(e) => Fail(e)
      case Ok(rows) =>
        if accounts[n].currency in Config.FiatCurrencies then Ok(rows)
        else
          match AccountRows(wallet(accounts[n].id))
          case Fail(e) => Fail(e)
          case Ok(more) => Ok(rows + more)
  }

  lemma {:induction false} AllTransactionsFails(accounts: seq<Account>, i: nat, wallet: string -> Response<TxJson>)
    requires i <= |accounts| && AllTransactions(accounts[..i], wallet).Fail?
    ensures AllTransactions(accounts, wallet) == AllTransactions(accounts[..i], wallet)
    decreases |accounts|
  {
    if i < |accounts| {
      var n := |accounts| - 1;
      assert accounts[..n][..i] == accounts[..i];
      AllTransactionsFails(accounts[..n], i, wallet);
    } else {
      assert accounts[..i] == accounts;
    }
  }

  /** Fiat accounts contribute no transactions: only crypto wallets are asked. */
  lemma {:induction false} FiatAccountsSkipped(accounts: seq<Account>, wallet: string -> Response<TxJson>, other: string -> Response<TxJson>)
    requires forall a :: a in accounts && a.currency !in Config.FiatCurrencies ==> wallet(a.id) == other(a.id)
    ensures AllTransactions(accounts, wallet) == AllTransactions(accounts, other)
  {
    if accounts != [] {
      var n := |accounts| - 1;
      assert forall a :: a in accounts[..n] ==> a in accounts;
      FiatAccountsSkipped(accounts[..n], wallet, other);
    }
  }

  /** The accounts, assets and symbols caches of a client, in that order. */
  type AccountCaches = (Option<AccountsJson>, Option<seq<string>>, Option<seq<string>>)

  /** The accounts cache after getAccounts. */
  function AccountsAfter(refresh: bool, accounts: Option<AccountsJson>, resp: Response<AccountsJson>): Option<AccountsJson> {
    Stored(accounts, Cached(refresh, accounts, WholeAnswer(resp, resp.body.hasResult)))
  }

  /** The caches after getValidAssets_Universal: untouched when the assets are cached;
      otherwise the accounts are obtained and the assets of their `data` list stored. */
  function AfterAssets(refresh: bool, c: AccountCaches, resp: Response<AccountsJson>): AccountCaches {
    if !refresh && c.1.Some? then c
    else (AccountsAfter(refresh, c.0, resp), Stored(c.1, AssetsFrom(Cached(refresh, c.0, WholeAnswer(resp, resp.body.hasResult)))), c.2)
  }

  /** The requests of getValidAssets_Universal: the accounts endpoint, unless a cache answers. */
  function AssetsAsked(refresh: bool, c: AccountCaches): seq<string> {
    if !refresh && c.1.Some? then [] else Asked(refresh, c.0, AccountsPath)
  }

  /** The caches after getValidSymbols_Universal: untouched when the symbols are cached;
      otherwise as getValidAssets_Universal leaves them, with the symbols of the assets it
      returned stored when it returned any. */
  function AfterSymbols(refresh: bool, c: AccountCaches, resp: Response<AccountsJson>, native: string): AccountCaches {
    if !refresh && c.2.Some? then c
    else
      var a := AfterAssets(refresh, c, resp);
      var assets := Cached(refresh, c.1, AssetsFrom(Cached(refresh, c.0, WholeAnswer(resp, resp.body.hasResult))));
      (a.0, a.1, Stored(c.2, SymbolsFrom(assets, native)))
  }

  /** The requests of getValidSymbols_Universal. */
  function SymbolsAsked(refresh: bool, c: AccountCaches): seq<string> {
    if !refresh && c.2.Some? then [] else AssetsAsked(refresh, c)
  }

  /** `transactions.asset` and `transactions.pair` are attribute reads of the frame, which has
      such a column only when some row set it. */
  predicate HasAssetAndPair(rows: seq<TxRow>) {
    (exists x :: x in rows && x.asset.Some?) && (exists x :: x in rows && x.pair.Some?)
  }

  /** A wallet of buys alone parses into rows without an asset, so the transaction price lookup
      of such a history raises AttributeError. */
  lemma BuysHaveNoAsset(items: seq<Txn>)
    requires forall t :: t in items ==> t.kind == "buy"
    requires TxRows(items, false).Ok?
    ensures !HasAssetAndPair(TxRows(items, false).value)
  {
    TxRowsValues(items, false);
    var rows := TxRows(items, false).value;
    forall x | x in rows ensures x.asset.None? {
      var i :| 0 <= i < |rows| && rows[i] == x;
      assert items[i] in items;
    }
  }

  class Coinbase {
    var accounts: Option<AccountsJson>
    var balanceUniversal: Option<Dict<string, real>>
    var validAssetsUniversal: Option<seq<string>>
    var validSymbolsUniversal: Option<seq<string>>
    var transactions: Option<seq<TxRow>>
    /** The accounts requests made so far. */
    ghost var requests: seq<string>

    /** The accounts, assets and symbols caches. */
    function Caches(): AccountCaches
      reads this
    {
      (accounts, validAssetsUniversal, validSymbolsUniversal)
    }

    constructor ()
      ensures accounts.None? && balanceUniversal.None? && validAssetsUniversal.None?
      ensures validSymbolsUniversal.None? && transactions.None? && requests == []
    {
      accounts := None;
      balanceUniversal := None;
      validAssetsUniversal := None;
      validSymbolsUniversal := None;
      transactions := None;
      requests := [];
    }

    /** getAccounts. */
    method GetAccounts(refresh: bool, resp: Response<AccountsJson>) returns (r: Option<AccountsJson>)
      modifies this`accounts, this`requests
      ensures r == Cached(refresh, old(accounts), WholeAnswer(resp, resp.body.hasResult))
      ensures accounts == Stored(old(accounts), r)
      ensures requests == old(requests) + (if !refresh && old(accounts).Some? then [] else [AccountsPath])
    {
      if refresh || accounts.None? {
        requests := requests + [AccountsPath];
        if resp.status == 200 && resp.body.hasResult {
          accounts := Some(resp.body);
          r := accounts;
        } else {
          r := None;
        }
      } else {
        r := accounts;
      }
    }

    /** getBalances_Universal: currency to amount for every account with a non-zero amount. */
    method GetBalancesUniversal(refresh: bool, resp: Response<AccountsJson>) returns (r: Option<Dict<string, real>>)
      modifies this`accounts, this`balanceUniversal, this`requests
      ensures r == Cached(refresh, old(balanceUniversal), BalancesFrom(Cached(refresh, old(accounts), WholeAnswer(resp, resp.body.hasResult))))
      ensures balanceUniversal == Stored(old(balanceUniversal), r)
      ensures !refresh && old(balanceUniversal).Some? ==> accounts == old(accounts) && requests == old(requests)
      ensures refresh || old(balanceUniversal).None? ==>
        accounts == Stored(old(accounts), Cached(refresh, old(accounts), WholeAnswer(resp, resp.body.hasResult))) &&
        requests == old(requests) + (if !refresh && old(accounts).Some? then [] else [AccountsPath])
    {
      if refresh || balanceUniversal.None? {
        var acc := GetAccounts(refresh, resp);
        if acc.Some? {
          var bu: Dict<string, real> := [];
          if acc.value.data.Some? {
            bu := NonZeroBalances(acc.value.data.value);
          }
          balanceUniversal := Some(bu);
          r := balanceUniversal;
        } else {
          r := None;
        }
      } else {
        r := balanceUniversal;
      }
    }

    /** getValidAssets_Universal: the non-fiat account currencies in account order. */
    method GetValidAssetsUniversal(refresh: bool, resp: Response<AccountsJson>) returns (r: Option<seq<string>>)
      modifies this`accounts, this`validAssetsUniversal, this`requests
      ensures r == Cached(refresh, old(validAssetsUniversal), AssetsFrom(Cached(refresh, old(accounts), WholeAnswer(resp, resp.body.hasResult))))
      ensures validAssetsUniversal == Stored(old(validAssetsUniversal), r)
      ensures Caches() == AfterAssets(refresh, old(Caches()), resp)
      ensures requests == old(requests) + AssetsAsked(refresh, old(Caches()))
    {
      if refresh || validAssetsUniversal.None? {
        var acc := GetAccounts(refresh, resp);
        r := None;
        if acc.Some? && acc.value.data.Some? {
          validAssetsUniversal := Some(CryptoCurrencies(acc.value.data.value));
          r := validAssetsUniversal;
        }
      } else {
        r := validAssetsUniversal;
      }
    }

    /** getValidSymbols_Universal: `ASSET/native` for every valid asset. Once cached, the list is
        returned whatever `native` a later call passes. */
    method GetValidSymbolsUniversal(native: string, refresh: bool, resp: Response<AccountsJson>) returns (r: Option<seq<string>>)
      modifies this`accounts, this`validAssetsUniversal, this`validSymbolsUniversal, this`requests
      ensures r == Cached(refresh, old(validSymbolsUniversal),
        SymbolsFrom(Cached(refresh, old(validAssetsUniversal), AssetsFrom(Cached(refresh, old(accounts), WholeAnswer(resp, resp.body.hasResult)))), native))
      ensures Caches() == AfterSymbols(refresh, old(Caches()), resp, native)
      ensures requests == old(requests) + SymbolsAsked(refresh, old(Caches()))
    {
      if refresh || validSymbolsUniversal.None? {
        var assets := GetValidAssetsUniversal(refresh, resp);
        r := None;
        if assets.Some? {
          validSymbolsUniversal := Some(NativeSymbols(assets.value, native));
          r := validSymbolsUniversal;
        }
      } else {
        r := validSymbolsUniversal;
      }
    }

    /** getTransactions. The cache test looks for an attribute `/transactions` that is never
        set, so every call asks every crypto wallet again and replaces the stored frame. A
        missing accounts `data` list leaves everything as it was. */
    method GetTransactions(refresh: bool, resp: Response<AccountsJson>, wallet: string -> Response<TxJson>)
      returns (r: Result<Option<seq<TxRow>>>)
      modifies this`accounts, this`transactions, this`requests
      ensures var acc := Cached(refresh, old(accounts), WholeAnswer(resp, resp.body.hasResult));
        accounts == Stored(old(accounts), acc) &&
        requests == old(requests) + (if !refresh && old(accounts).Some? then [] else [AccountsPath]) &&
        (acc.None? || acc.value.data.None? ==> r == Ok(None) && transactions == old(transactions)) &&
        (acc.Some? && acc.value.data.Some? ==>
          var all := AllTransactions(acc.value.data.value, wallet);
          (r.Ok? <==> all.Ok?) &&
          (r.Ok? ==> r.value == Some(all.value) && transactions == r.value) &&
          (r.Fail? ==> r == Fail(all.reason) && transactions == old(transactions)))
    {
      var acc := GetAccounts(refresh, resp);
      if acc.None? || acc.value.data.None? {
        return Ok(None);
      }
      var items := acc.value.data.value;
      ghost var accountsAfter := accounts;
      ghost var requestsAfter := requests;
      var df: seq<TxRow> := [];
      var i := 0;
      while i < |items|
        invariant 0 <= i <= |items|
        invariant AllTransactions(items[..i], wallet) == Ok(df)
        invariant accounts == accountsAfter && requests == requestsAfter
        invariant transactions == old(transactions)
      {
        assert items[..i + 1][..i] == items[..i];
        if items[i].currency !in Config.FiatCurrencies {
          var more := AccountTransactions(wallet(items[i].id));
          if more.Fail? {
            AllTransactionsFails(items, i + 1, wallet);
            return Fail(more.reason);
          }
          df := df + more.value;
        }
        i := i + 1;
      }
      assert items[..i] == items;
      transactions := Some(df);
      r := Ok(transactions);
    }

    /** getHistoricalPricesForNonZeroBalances_Universal: the price table of `ASSET/USD` for every
        non-fiat currency with a non-zero balance; the symbols use USD whatever `native` is, and
        `native` only reaches the price-list builder. `fetch` stands for this exchange's universal
        price call. */
    method HistoricalPricesForBalances(native: string, stableCoinAlt: bool, refresh: bool, resp: Response<AccountsJson>,
                                       alts: map<string, seq<string>>, fetch: string -> Option<PriceFrame>)
      returns (r: Option<Result<PriceFrame>>)
      modifies this`accounts, this`balanceUniversal, this`requests
      ensures !refresh && old(balanceUniversal).Some? ==> accounts == old(accounts) && requests == old(requests)
      ensures refresh || old(balanceUniversal).None? ==>
        accounts == AccountsAfter(refresh, old(accounts), resp) &&
        requests == old(requests) + Asked(refresh, old(accounts), AccountsPath)
      ensures var b := Cached(refresh, old(balanceUniversal), BalancesFrom(Cached(refresh, old(accounts), WholeAnswer(resp, resp.body.hasResult))));
        balanceUniversal == Stored(old(balanceUniversal), b) &&
        (r.Some? <==> b.Some?) &&
        (r.Some? ==>
          var t := Table(UsdSymbols(Keys(b.value), Config.FiatCurrencies, '/'), native, stableCoinAlt, alts, fetch);
          (r.value.Ok? <==> t.Ok?) && (r.value.Ok? ==> r.value.value == t.value.0))
    {
      var balances := GetBalancesUniversal(refresh, resp);
      r := None;
      if balances.Some? {
        var symbols := UsdSymbols(Keys(balances.value), Config.FiatCurrencies, '/');
        var table, calls := HistoricalPricesList(symbols, native, stableCoinAlt, alts, fetch);
        r := Some(table);
      }
    }

    /** getHistoricalPricesForTransactionWallets_Universal: the price table of the transaction
        symbols (TransactionSymbols) when the transactions are obtained and not empty, provided
        their frame has both an `asset` and a `pair` column (AttributeError otherwise); an
        exception from either step is passed on. */
    method HistoricalPricesForTransactions(native: string, stableCoinAlt: bool, refresh: bool, resp: Response<AccountsJson>,
                                           wallet: string -> Response<TxJson>, alts: map<string, seq<string>>,
                                           fetch: string -> Option<PriceFrame>)
      returns (r: Result<Option<PriceFrame>>)
      modifies this`accounts, this`transactions, this`requests
      ensures var acc := Cached(refresh, old(accounts), WholeAnswer(resp, resp.body.hasResult));
        accounts == Stored(old(accounts), acc) &&
        requests == old(requests) + Asked(refresh, old(accounts), AccountsPath) &&
        (acc.None? || acc.value.data.None? ==> r == Ok(None) && transactions == old(transactions)) &&
        (acc.Some? && acc.value.data.Some? ==>
          var all := AllTransactions(acc.value.data.value, wallet);
          (all.Fail? ==> r == Fail(all.reason) && transactions == old(transactions)) &&
          (all.Ok? ==> transactions == Some(all.value)) &&
          (all.Ok? && all.value == [] ==> r == Ok(None)) &&
          (all.Ok? && all.value != [] && !HasAssetAndPair(all.value) ==> r == Fail("AttributeError")) &&
          (all.Ok? && all.value != [] && HasAssetAndPair(all.value) ==>
            var t := Table(TransactionSymbols(all.value, native), native, stableCoinAlt, alts, fetch);
            (r.Ok? <==> t.Ok?) && (r.Ok? ==> r.value == Some(t.value.0)) && (r.Fail? ==> t == Fail(r.reason))))
    {
      var txs := GetTransactions(refresh, resp, wallet);
      if txs.Fail? {
        return Fail(txs.reason);
      }
      if txs.value.None? || txs.value.value == [] {
        return Ok(None);
      }
      if !HasAssetAndPair(txs.value.value) {
        return Fail("AttributeError");
      }
      var symbols := TransactionSymbols(txs.value.value, native);
      var table, calls := HistoricalPricesList(symbols, native, stableCoinAlt, alts, fetch);
      if table.Fail? {
        return Fail(table.reason);
      }
      r := Ok(Some(table.value));
    }
  }

  /** One wallet's transactions: getWalletTransactions followed by parse_api_results. */
  method AccountTransactions(resp: Response<TxJson>) returns (r: Result<seq<TxRow>>)
    ensures r == AccountRows(resp)
  {
    if !(resp.status == 200 && resp.body.hasResult) {
      return Fail("AttributeError");
    }
    if resp.body.data.None? {
      if !resp.body.hasError {
        return Fail("KeyError");
      }
      return Ok([]);
    }
    r := ParseTransactions(resp.body.data.value, false);
  }
}

=== FILE: coinbase_records.dfy ===
/** Coinbase transactions and the rows they become (`parse_api_results` in lib/coinbase.py and
    `coinbase_parse_api_results` in API_functions.py, which share the per-type rules). */
module CoinbaseRecords {
  import opened Wrappers
  import opened Prices

  /** An `{amount, currency}` object. */
  datatype Money = Money(amount: real, currency: string)

  /** The `network` object of a send. */
  datatype Network = Network(status: string, transactionAmount: real, transactionFee: real, hash: string)

  /** One transaction of a `data` list. `createdAt` is in seconds since the epoch; the objects
      only some types carry are optional, and reading a missing one raises KeyError. */
  datatype Txn = Txn(id: string, kind: string, createdAt: int, resource: string, amount: Money,
                     nativeAmount: Option<Money>, tradeId: Option<string>, network: Option<Network>)

  /** A row of the parsed frame, indexed by the transaction id; a column the type does not set
      is missing (None). */
  datatype TxRow = TxRow(id: string, kind: string, date: int, resource: string,
                         vol: Option<real>, cost: Option<real>, pair: Option<string>,
                         asset: Option<string>, fee: Option<real>, tId: Option<string>)

  function Abs(x: real): real {
    if x < 0.0 then -x else x
  }

  /** The object a type needs is missing. */
  predicate MissingPart(t: Txn) {
    (t.kind == "buy" && t.nativeAmount.None?) ||
    (t.kind == "trade" && t.tradeId.None?) ||
    (t.kind == "send" && t.network.None?)
  }

  /** A send whose network status is neither confirmed, unconfirmed nor off_blockchain. */
  predicate UnsupportedSend(t: Txn) {
    t.kind == "send" && t.network.Some? &&
    t.network.value.status !in ["confirmed", "unconfirmed", "off_blockchain"]
  }

  /** The row of one transaction. `strict` is the API_functions.py variant, in which an
      unsupported send reaches `yy += [data]` with `yy` undefined and raises NameError; the
      lib/coinbase.py variant only prints and keeps the bare row. */
  function TxRowOf(t: Txn, strict: bool): (r: Result<TxRow>)
    ensures !strict ==> (r.Fail? <==> MissingPart(t))
    ensures strict ==> (r.Fail? <==> MissingPart(t) || UnsupportedSend(t))
    ensures r.Ok? ==> r.value.id == t.id && r.value.kind == t.kind && r.value.resource == t.resource
    ensures r.Ok? ==> r.value.date * SecondsPerDay <= t.createdAt < r.value.date * SecondsPerDay + SecondsPerDay
    ensures r.Ok? && t.kind == "buy" ==>
      r.value.pair == Some(t.amount.currency + "/" + t.nativeAmount.value.currency) &&
      r.value.vol == Some(t.amount.amount) && r.value.cost == Some(t.nativeAmount.value.amount)
    ensures r.Ok? && t.kind == "send" && t.network.value.status in ["confirmed", "unconfirmed"] ==>
      r.value.vol.Some? && Abs(r.value.vol.value) == Abs(t.network.value.transactionAmount) &&
      (t.network.value.transactionAmount > 0.0 ==> (r.value.vol.value < 0.0 <==> t.amount.amount < 0.0)) &&
      r.value.cost == Some(0.0) && r.value.fee == Some(t.network.value.transactionFee)
    ensures r.Ok? && !(t.kind in ["buy", "trade", "send", "staking_reward"]) ==> r.value.vol.None? && r.value.cost.None?
  {
    var base := TxRow(t.id, t.kind, Day(t.createdAt), t.resource, None, None, None, None, None, None);
    if t.kind == "buy" then
      match t.nativeAmount
      case None => Fail("KeyError")
      case Some(n) =>
        Ok(base.(vol := Some(t.amount.amount), cost := Some(n.amount), pair := Some(t.amount.currency + "/" + n.currency)))
    else if t.kind == "trade" then
      match t.tradeId
      case None => Fail("KeyError")
      case Some(id) =>
        Ok(base.(vol := Some(t.amount.amount), cost := Some(0.0), asset := Some(t.amount.currency), tId := Some(id)))
    else if t.kind == "send" then
      match t.network
      case None => Fail("KeyError")
      case Some(nw) =>
        if nw.status in ["confirmed", "unconfirmed"] then
          var vol := if t.amount.amount < 0.0 then -nw.transactionAmount else nw.transactionAmount;
          Ok(base.(vol := Some(vol), cost := Some(0.0), asset := Some(t.amount.currency),
                   fee := Some(nw.transactionFee), tId := Some(nw.hash)))
        else if nw.status == "off_blockchain" then
          Ok(base.(vol := Some(t.amount.amount), cost := Some(0.0), asset := Some(t.amount.currency)))
        else if strict then Fail("NameError")
        else Ok(base)
    else if t.kind == "staking_reward" then
      Ok(base.(vol := Some(t.amount.amount), cost := Some(0.0)))
    else Ok(base)
  }

  /** The rows of a `data` list in order, or the exception of its first failing transaction. */
  function TxRows(items: seq<Txn>, strict: bool): Result<seq<TxRow>> {
    if items == [] then Ok([])
    else
      var n := |items| - 1;
      match TxRows(items[..n], strict)
      case Fail(e) => Fail(e)
      case Ok(rows) =>
        match TxRowOf(items[n], strict)
        case Fail(e) => Fail(e)
        case Ok(row) => Ok(rows + [row])
  }

  /** One row per transaction, even for unsupported types, each keyed by its id: the parse fails
      exactly when some transaction's row does. */
  lemma TxRowsPerItem(items: seq<Txn>, strict: bool)
    ensures TxRows(items, strict).Ok? <==> forall i :: 0 <= i < |items| ==> TxRowOf(items[i], strict).Ok?
    ensures TxRows(items, strict).Ok? ==>
      |TxRows(items, strict).value| == |items| &&
      forall i :: 0 <= i < |items| ==> TxRows(items, strict).value[i] == TxRowOf(items[i], strict).value
  {
    TxRowsOk(items, strict);
    if TxRows(items, strict).Ok? {
      TxRowsValues(items, strict);
    }
  }

  lemma {:induction false} TxRowsOk(items: seq<Txn>, strict: bool)
    ensures TxRows(items, strict).Ok? <==> forall i :: 0 <= i < |items| ==> TxRowOf(items[i], strict).Ok?
  {
    if items != [] {
      var n := |items| - 1;
      var front := items[..n];
      TxRowsOk(front, strict);
      TxRowsLast(items, strict);
      assert forall i :: 0 <= i < n ==> front[i] == items[i];
    }
  }

  lemma TxRowsLast(items: seq<Txn>, strict: bool)
    requires items != []
    ensures TxRows(items, strict).Ok? <==>
      TxRows(items[..|items| - 1], strict).Ok? && TxRowOf(items[|items| - 1], strict).Ok?
  {
  }

  lemma {:induction false} TxRowsValues(items: seq<Txn>, strict: bool)
    requires TxRows(items, strict).Ok?
    ensures |TxRows(items, strict).value| == |items|
    ensures forall i :: 0 <= i < |items| ==> TxRowOf(items[i], strict) == Ok(TxRows(items, strict).value[i])
  {
    if items != [] {
      var n := |items| - 1;
      var front := items[..n];
      TxRowsValues(front, strict);
      assert forall i :: 0 <= i < n ==> front[i] == items[i];
    }
  }

  lemma {:induction false} TxRowsFails(items: seq<Txn>, i: nat, strict: bool)
    requires i <= |items| && TxRows(items[..i], strict).Fail?
    ensures TxRows(items, strict) == TxRows(items[..i], strict)
    decreases |items|
  {
    if i < |items| {
      var n := |items| - 1;
      assert items[..n][..i] == items[..i];
      TxRowsFails(items[..n], i, strict);
    } else {
      assert items[..i] == items;
    }
  }

  /** The loop over `data`: a one-row frame per transaction, concatenated. */
  method ParseTransactions(items: seq<Txn>, strict: bool) returns (r: Result<seq<TxRow>>)
    ensures r == TxRows(items, strict)
  {
    var rows: seq<TxRow> := [];
    var i := 0;
    while i < |items|
      invariant 0 <= i <= |items|
      invariant TxRows(items[..i], strict) == Ok(rows)
    {
      assert items[..i + 1][..i] == items[..i];
      var row := TxRowOf(items[i], strict);
      if row.Fail? {
        TxRowsFails(items, i + 1, strict);
        assert TxRows(items[..i + 1], strict) == Fail(row.reason);
        return Fail(row.reason);
      }
      rows := rows + [row.value];
      i := i + 1;
    }
    assert items[..i] == items;
    r := Ok(rows);
  }
}

=== FILE: coingecko.dfy ===
/** The coingecko client (lib/coingecko.py): the cached coin list, coin ids by symbol, spot prices
    keyed `SYMBOL/NATIVE`, and the valid symbols and assets, always quoted in USD. Requests are
    not made: each method takes the response it would receive and records the path in the ghost
    log `requests` when it would have asked. */
module CoinGecko {
  import opened Wrappers
  import opened Strings
  import opened OrderedDicts
  import opened Lists
  import opened Http

  const CoinListPath: string := "/coins/list?"

  /** One entry of the coin list. */
  datatype Coin = Coin(id: string, symbol: string)

  /** The body of a price response: the price in each currency, by coin id. */
  type PriceBody = Dict<string, Dict<string, real>>

  /** A coin list is kept only when the response is 200 and the list is not empty. */
  function CoinListAnswer(resp: Response<seq<Coin>>): (r: Option<seq<Coin>>)
    ensures r.Some? <==> resp.status == 200 && resp.body != []
    ensures r.Some? ==> r.value == resp.body
  {
    if resp.status == 200 && |resp.body| > 0 then Some(resp.body) else None
  }

  /** Coin `i` is the first whose symbol is `lower`. */
  predicate FirstWithSymbol(coins: seq<Coin>, lower: string, i: int) {
    0 <= i < |coins| && coins[i].symbol == lower && forall j :: 0 <= j < i ==> coins[j].symbol != lower
  }

  /** The id of the first coin whose symbol is the lower-cased `symbol`. */
  function SymbolID(coins: seq<Coin>, symbol: string): (r: Option<string>)
    ensures r.None? <==> forall c :: c in coins ==> c.symbol != Lower(symbol)
    ensures r.Some? ==> exists i :: FirstWithSymbol(coins, Lower(symbol), i) && coins[i].id == r.value
  {
    if coins == [] then None
    else if coins[0].symbol == Lower(symbol) then
      assert FirstWithSymbol(coins, Lower(symbol), 0);
      Some(coins[0].id)
    else
      var r := SymbolID(coins[1..], symbol);
      FirstWithSymbolShift(coins, Lower(symbol));
      r
  }

  /** Past a first coin without the symbol, the first coin with it is one further on. */
  lemma FirstWithSymbolShift(coins: seq<Coin>, lower: string)
    requires coins != [] && coins[0].symbol != lower
    ensures forall c :: c in coins ==> c == coins[0] || c in coins[1..]
    ensures forall i :: FirstWithSymbol(coins[1..], lower, i) ==> FirstWithSymbol(coins, lower, i + 1) && coins[i + 1] == coins[1..][i]
  {
    forall i | FirstWithSymbol(coins[1..], lower, i)
      ensures FirstWithSymbol(coins, lower, i + 1) && coins[i + 1] == coins[1..][i]
    {
      forall j | 0 <= j < i + 1 ensures coins[j].symbol != lower {
        if j > 0 { assert coins[j] == coins[1..][j - 1]; }
      }
    }
  }

  /** The coins whose upper-cased symbol is one of `symbols`, or nothing when there are none. */
  function SymbolIDs(coins: seq<Coin>, symbols: seq<string>): (r: Option<seq<Coin>>)
    ensures r.None? <==> forall c :: c in coins ==> Upper(c.symbol) !in symbols
    ensures r.Some? ==> forall c :: c in r.value <==> c in coins && Upper(c.symbol) in symbols
  {
    var drop := (c: Coin) => Upper(c.symbol) !in symbols;
    var kept := Reject(coins, drop);
    RejectMembers(coins, drop);
    assert forall c :: c in coins && Upper(c.symbol) in symbols ==> c in kept;
    if kept == [] then None else assert kept[0] in kept; Some(kept)
  }

  /** The symbol of the first coin with id `id`, as `coinList.at[id, 'symbol']` finds it. */
  function CoinSymbol(coins: seq<Coin>, id: string): (r: Option<string>)
    ensures r.None? <==> forall c :: c in coins ==> c.id != id
    ensures r.Some? ==> Coin(id, r.value) in coins
  {
    if coins == [] then None
    else if coins[0].id == id then Some(coins[0].symbol)
    else
      assert forall c :: c in coins ==> c == coins[0] || c in coins[1..];
      CoinSymbol(coins[1..], id)
  }

  /** The key of a spot price: `f"{symbol}/{native}".upper()`. */
  function PriceKey(symbol: string, native: string): string {
    Upper(symbol + "/" + native)
  }

  lemma PriceKeyParts(symbol: string, native: string)
    ensures PriceKey(symbol, native) == Upper(symbol) + "/" + Upper(native)
  {
    UpperAppend(symbol + "/", native);
    UpperAppend(symbol, "/");
  }

  /** The request of a spot price: the ids and the lower-cased native currency. */
  function PricePath(ids: string, native: string): string {
    "/simple/price?ids=" + ids + "&vs_currencies=" + Lower(native)
  }

  /** getSymbolPrice once the id and the response are known: the price under its key when the
      response is 200 and holds the id; a KeyError when the coin has no price in `native`. A
      missing id is requested as `None`, which is never a key of the response. */
  function SymbolPrice(symbol: string, native: string, id: Option<string>, resp: Response<PriceBody>)
    : (r: Result<Option<Dict<string, real>>>)
    ensures r.Ok? && r.value.Some? <==>
      resp.status == 200 && id.Some? && Lookup(resp.body, id.value).Some? &&
      Lookup(Lookup(resp.body, id.value).value, Lower(native)).Some?
    ensures r.Fail? <==>
      resp.status == 200 && id.Some? && Lookup(resp.body, id.value).Some? &&
      Lookup(Lookup(resp.body, id.value).value, Lower(native)).None?
    ensures r.Ok? && r.value.Some? ==>
      r.value.value == [(PriceKey(symbol, native), Lookup(Lookup(resp.body, id.value).value, Lower(native)).value)]
  {
    if resp.status != 200 || id.None? then Ok(None)
    else match Lookup(resp.body, id.value)
      case None => Ok(None)
      case Some(prices) =>
        match Lookup(prices, Lower(native))
        case None => Fail("KeyError")
        case Some(p) => Ok(Some([(PriceKey(symbol, native), p)]))
  }

  /** The (key, price) pairs of a multi-coin price response, in the response's order; a
      KeyError for an id that is not in the coin list or has no price in `native`. */
  function PricePairs(body: PriceBody, coins: seq<Coin>, native: string): (r: Result<seq<(string, real)>>)
    ensures r.Ok? <==> forall i :: 0 <= i < |body| ==>
      CoinSymbol(coins, body[i].0).Some? && Lookup(body[i].1, Lower(native)).Some?
    ensures r.Ok? ==> |r.value| == |body| && forall i :: 0 <= i < |body| ==>
      r.value[i] == (PriceKey(CoinSymbol(coins, body[i].0).value, native), Lookup(body[i].1, Lower(native)).value)
  {
    if body == [] then Ok([])
    else
      var n := |body| - 1;
      var front := PricePairs(body[..n], coins, native);
      assert forall i :: 0 <= i < n ==> body[..n][i] == body[i];
      if front.Fail? then front
      else
        match CoinSymbol(coins, body[n].0)
        case None => Fail("KeyError")
        case Some(symbol) =>
          match Lookup(body[n].1, Lower(native))
          case None => Fail("KeyError")
          case Some(p) => Ok(front.value + [(PriceKey(symbol, native), p)])
  }

  /** A failing prefix makes the whole response fail. */
  lemma PricePairsFails(body: PriceBody, coins: seq<Coin>, native: string, k: nat)
    requires k <= |body| && PricePairs(body[..k], coins, native).Fail?
    ensures PricePairs(body, coins, native).Fail?
  {
    var i :| 0 <= i < k && !(CoinSymbol(coins, body[..k][i].0).Some? && Lookup(body[..k][i].1, Lower(native)).Some?);
    assert body[..k][i] == body[i];
  }

  /** The loop of getSymbolPrices: `prices[key] = price` for every coin of the response. */
  method PriceTable(body: PriceBody, coins: seq<Coin>, native: string) returns (r: Result<Dict<string, real>>)
    ensures r.Ok? <==> PricePairs(body, coins, native).Ok?
    ensures r.Ok? ==> r.value == FromPairs(PricePairs(body, coins, native).value)
  {
    var prices: Dict<string, real> := [];
    var i := 0;
    while i < |body|
      invariant 0 <= i <= |body|
      invariant PricePairs(body[..i], coins, native).Ok?
      invariant prices == FromPairs(PricePairs(body[..i], coins, native).value)
    {
      assert body[..i + 1][..i] == body[..i];
      assert body[..i + 1][i] == body[i];
      var id := body[i].0;
      var symbol := CoinSymbol(coins, id);
      var p := Lookup(body[i].1, Lower(native));
      if symbol.None? || p.None? {
        PricePairsFails(body, coins, native, i + 1);
        return Fail("KeyError");
      }
      ghost var front := PricePairs(body[..i], coins, native).value;
      var pair := (PriceKey(symbol.value, native), p.value);
      assert PricePairs(body[..i + 1], coins, native).value == front + [pair];
      assert (front + [pair])[..|front|] == front;
      prices := Put(prices, pair.0, pair.1);
      i := i + 1;
    }
    assert body[..i] == body;
    r := Ok(prices);
  }

  /** Every key of a price table names a coin of the list quoted in `native`, and every coin of
      the response has a key. */
  lemma PriceTableKeys(body: PriceBody, coins: seq<Coin>, native: string, key: string)
    requires PricePairs(body, coins, native).Ok?
    ensures key in Keys(FromPairs(PricePairs(body, coins, native).value)) <==>
      exists i :: 0 <= i < |body| && key == PriceKey(CoinSymbol(coins, body[i].0).value, native)
  {
    var pairs := PricePairs(body, coins, native).value;
    FromPairsKeys(pairs);
    if key in Keys(pairs) {
      var i :| 0 <= i < |pairs| && Keys(pairs)[i] == key;
      assert pairs[i].0 == key;
    }
    forall i | 0 <= i < |body| ensures PriceKey(CoinSymbol(coins, body[i].0).value, native) in Keys(pairs) {
      assert Keys(pairs)[i] == pairs[i].0;
    }
  }

  /** The ids of a multi-coin request, each once, joined by `,`. */
  function IdList(kept: seq<Coin>): string {
    JoinWith(Distinct(seq(|kept|, i requires 0 <= i < |kept| => kept[i].id)), ',')
  }

  /** The `symbol` column of the coin list. */
  function CoinSymbols(coins: seq<Coin>): (r: seq<string>)
    ensures |r| == |coins| && forall i :: 0 <= i < |coins| ==> r[i] == coins[i].symbol
  {
    seq(|coins|, i requires 0 <= i < |coins| => coins[i].symbol)
  }

  /** `f"{asset.upper()}/USD"` for every asset. */
  function UsdPairs(assets: seq<string>): (r: seq<string>)
    ensures |r| == |assets| && forall i :: 0 <= i < |assets| ==> r[i] == Upper(assets[i]) + "/USD"
  {
    seq(|assets|, i requires 0 <= i < |assets| => Upper(assets[i]) + "/USD")
  }

  /** `[f"{asset.upper()}/USD" for asset in coinList.symbol.drop_duplicates()]`. */
  function ValidSymbols(coins: seq<Coin>): (r: seq<string>)
    ensures forall s :: s in r <==> exists c :: c in coins && s == Upper(c.symbol) + "/USD"
  {
    ValidSymbolsMembers(coins);
    UsdPairs(Distinct(CoinSymbols(coins)))
  }

  lemma ValidSymbolsMembers(coins: seq<Coin>)
    ensures forall s :: s in UsdPairs(Distinct(CoinSymbols(coins))) <==> exists c :: c in coins && s == Upper(c.symbol) + "/USD"
  {
    var names := CoinSymbols(coins);
    var symbols := Distinct(names);
    var r := UsdPairs(symbols);
    forall c | c in coins ensures Upper(c.symbol) + "/USD" in r {
      var i :| 0 <= i < |coins| && coins[i] == c;
      assert names[i] == c.symbol && names[i] in names;
      assert c.symbol in symbols;
      var j :| 0 <= j < |symbols| && symbols[j] == c.symbol;
      assert r[j] == Upper(c.symbol) + "/USD";
    }
    forall s | s in r ensures exists c :: c in coins && s == Upper(c.symbol) + "/USD" {
      var i :| 0 <= i < |r| && r[i] == s;
      assert symbols[i] in names;
      var j :| 0 <= j < |coins| && names[j] == symbols[i];
      assert coins[j] in coins;
    }
  }

  /** When no coin symbol holds a `/`, the valid assets are exactly the upper-cased coin symbols. */
  lemma ValidAssetsAreSymbols(coins: seq<Coin>, a: string)
    requires forall c :: c in coins ==> '/' !in c.symbol
    ensures a in FirstParts(ValidSymbols(coins), '/') <==> exists c :: c in coins && a == Upper(c.symbol)
  {
    forall c | c in coins ensures FirstPart(Upper(c.symbol) + "/USD", '/') == Upper(c.symbol) {
      UpperKeepsSlashOut(c.symbol);
      assert Upper(c.symbol) + "/USD" == Upper(c.symbol) + ['/'] + "USD";
      SplitFirst(Upper(c.symbol), "USD", '/');
    }
    if a in FirstParts(ValidSymbols(coins), '/') {
      var s :| s in ValidSymbols(coins) && FirstPart(s, '/') == a;
      var c :| c in coins && s == Upper(c.symbol) + "/USD";
    }
    if exists c :: c in coins && a == Upper(c.symbol) {
      var c :| c in coins && a == Upper(c.symbol);
      assert Upper(c.symbol) + "/USD" in ValidSymbols(coins);
    }
  }

  class CoinGecko {
    var coinList: Option<seq<Coin>>
    var validSymbolsUniversal: Option<seq<string>>
    var validAssetsUniversal: Option<seq<string>>
    /** The paths requested so far. */
    ghost var requests: seq<string>

    constructor ()
      ensures coinList.None? && validSymbolsUniversal.None? && validAssetsUniversal.None? && requests == []
    {
      coinList := None;
      validSymbolsUniversal := None;
      validAssetsUniversal := None;
      requests := [];
    }

    /** getCoinList: the cached list unless `refresh`; a failed or empty response caches
        nothing. */
    method GetCoinList(refresh: bool, resp: Response<seq<Coin>>) returns (r: Option<seq<Coin>>)
      modifies this`coinList, this`requests
      ensures r == Cached(refresh, old(coinList), CoinListAnswer(resp))
      ensures coinList == Stored(old(coinList), r)
      ensures requests == old(requests) + (if !refresh && old(coinList).Some? then [] else [CoinListPath])
    {
      if refresh || coinList.None? {
        requests := requests + [CoinListPath];
        r := None;
        if resp.status == 200 && |resp.body| > 0 {
          coinList := Some(resp.body);
          r := coinList;
        }
      } else {
        r := coinList;
      }
    }

    /** getSymbolID. */
    method GetSymbolID(symbol: string, refresh: bool, resp: Response<seq<Coin>>) returns (r: Option<string>)
      modifies this`coinList, this`requests
      ensures var l := Cached(refresh, old(coinList), CoinListAnswer(resp));
        coinList == Stored(old(coinList), l) && r == (if l.Some? then SymbolID(l.value, symbol) else None)
      ensures requests == old(requests) + (if !refresh && old(coinList).Some? then [] else [CoinListPath])
    {
      var l := GetCoinList(refresh, resp);
      r := None;
      if l.Some? {
        r := SymbolID(l.value, symbol);
      }
    }

    /** getSymbolIDs. */
    method GetSymbolIDs(symbols: seq<string>, refresh: bool, resp: Response<seq<Coin>>) returns (r: Option<seq<Coin>>)
      modifies this`coinList, this`requests
      ensures var l := Cached(refresh, old(coinList), CoinListAnswer(resp));
        coinList == Stored(old(coinList), l) && r == (if l.Some? then SymbolIDs(l.value, symbols) else None)
      ensures requests == old(requests) + (if !refresh && old(coinList).Some? then [] else [CoinListPath])
    {
      var l := GetCoinList(refresh, resp);
      r := None;
      if l.Some? {
        r := SymbolIDs(l.value, symbols);
      }
    }

    /** getSymbolPrice: the price request is made even when no id was found. */
    method GetSymbolPrice(symbol: string, native: string, refresh: bool, list: Response<seq<Coin>>,
                          resp: Response<PriceBody>) returns (r: Result<Option<Dict<string, real>>>)
      modifies this`coinList, this`requests
      ensures var l := Cached(refresh, old(coinList), CoinListAnswer(list));
        var id := if l.Some? then SymbolID(l.value, symbol) else None;
        coinList == Stored(old(coinList), l) && r == SymbolPrice(symbol, native, id, resp) &&
        requests == old(requests) + (if !refresh && old(coinList).Some? then [] else [CoinListPath]) +
          [PricePath(if id.Some? then id.value else "None", native)]
    {
      var id := GetSymbolID(symbol, refresh, list);
      requests := requests + [PricePath(if id.Some? then id.value else "None", native)];
      r := Ok(None);
      if resp.status == 200 {
        if id.Some? {
          var prices := Lookup(resp.body, id.value);
          if prices.Some? {
            var p := Lookup(prices.value, Lower(native));
            if p.None? {
              return Fail("KeyError");
            }
            r := Ok(Some([(PriceKey(symbol, native), p.value)]));
          }
        }
      }
    }

    /** getSymbolPrices: nothing when no coin matches; otherwise the coin list is fetched again
        (asked anew under `refresh`), one price request is made for the matching ids, and the
        price table of the response is returned when it is 200. */
    method GetSymbolPrices(symbols: seq<string>, native: string, refresh: bool, list: Response<seq<Coin>>,
                           resp: Response<PriceBody>) returns (r: Result<Option<Dict<string, real>>>)
      modifies this`coinList, this`requests
      ensures var l := Cached(refresh, old(coinList), CoinListAnswer(list));
        coinList == Stored(old(coinList), l) &&
        (l.None? || SymbolIDs(l.value, symbols).None? ==> r == Ok(None)) &&
        (l.Some? && SymbolIDs(l.value, symbols).Some? && resp.status != 200 ==> r == Ok(None)) &&
        (l.Some? && SymbolIDs(l.value, symbols).Some? && resp.status == 200 ==>
          var t := PricePairs(resp.body, l.value, native);
          (r.Ok? <==> t.Ok?) && (r.Ok? ==> r.value == Some(FromPairs(t.value))))
      ensures var l := Cached(refresh, old(coinList), CoinListAnswer(list));
        var ids := if l.Some? then SymbolIDs(l.value, symbols) else None;
        requests == old(requests) + Asked(refresh, old(coinList), CoinListPath) +
          (if ids.Some? then (if refresh then [CoinListPath] else []) + [PricePath(IdList(ids.value), native)] else [])
    {
      var kept := GetSymbolIDs(symbols, refresh, list);
      r := Ok(None);
      if kept.Some? {
        var coins := GetCoinList(refresh, list);
        requests := requests + [PricePath(IdList(kept.value), native)];
        if resp.status == 200 {
          var table := PriceTable(resp.body, coins.value, native);
          if table.Fail? {
            return Fail(table.reason);
          }
          r := Ok(Some(table.value));
        }
      }
    }

    /** getValidSymbols_Universal: cached only when the coin list was obtained. */
    method GetValidSymbolsUniversal(refresh: bool, resp: Response<seq<Coin>>) returns (r: Option<seq<string>>)
      modifies this`coinList, this`validSymbolsUniversal, this`requests
      ensures !refresh && old(validSymbolsUniversal).Some? ==>
        r == old(validSymbolsUniversal) && coinList == old(coinList) && requests == old(requests)
      ensures refresh || old(validSymbolsUniversal).None? ==>
        var l := Cached(refresh, old(coinList), CoinListAnswer(resp));
        coinList == Stored(old(coinList), l) &&
        r == (if l.Some? then Some(ValidSymbols(l.value)) else None) &&
        requests == old(requests) + (if !refresh && old(coinList).Some? then [] else [CoinListPath])
      ensures validSymbolsUniversal == Stored(old(validSymbolsUniversal), r)
    {
      if refresh || validSymbolsUniversal.None? {
        var l := GetCoinList(refresh, resp);
        r := None;
        if l.Some? {
          r := Some(ValidSymbols(l.value));
          validSymbolsUniversal := r;
        }
      } else {
        r := validSymbolsUniversal;
      }
    }

    /** getValidAssets_Universal: the distinct parts before `/` of the valid symbols. */
    method GetValidAssetsUniversal(refresh: bool, resp: Response<seq<Coin>>) returns (r: Option<seq<string>>)
      modifies this`coinList, this`validSymbolsUniversal, this`validAssetsUniversal, this`requests
      ensures !refresh && old(validAssetsUniversal).Some? ==>
        r == old(validAssetsUniversal) && coinList == old(coinList) &&
        validSymbolsUniversal == old(validSymbolsUniversal) && requests == old(requests)
      ensures refresh || old(validAssetsUniversal).None? ==>
        var l := Cached(refresh, old(coinList), CoinListAnswer(resp));
        var su := if !refresh && old(validSymbolsUniversal).Some? then old(validSymbolsUniversal)
                  else if l.Some? then Some(ValidSymbols(l.value)) else None;
        r == (if su.Some? then Some(FirstParts(su.value, '/')) else None) &&
        validSymbolsUniversal == Stored(old(validSymbolsUniversal), su) &&
        (!refresh && old(validSymbolsUniversal).Some? ==> coinList == old(coinList) && requests == old(requests)) &&
        (refresh || old(validSymbolsUniversal).None? ==>
          coinList == Stored(old(coinList), l) &&
          requests == old(requests) + (if !refresh && old(coinList).Some? then [] else [CoinListPath]))
      ensures validAssetsUniversal == Stored(old(validAssetsUniversal), r)
    {
      if refresh || validAssetsUniversal.None? {
        var su := GetValidSymbolsUniversal(refresh, resp);
        r := None;
        if su.Some? {
          r := Some(FirstParts(su.value, '/'));
          validAssetsUniversal := r;
        }
      } else {
        r := validAssetsUniversal;
      }
    }
  }
}

=== FILE: config.dfy ===
/** The configuration constants the core reads (TEMPLATE_config.py). */
module Config {

  /** The currencies a pair may be split into, in the order they are tried. */
  const AcceptedCurrencies: seq<string> :=
    ["XDG", "DOGE", "USD", "XMR", "BTC", "XBT", "ETH", "ADA", "DOT"]

  const FiatCurrencies: seq<string> := ["USD", "GBP"]

  /** Legacy tickers and their canonical names, in dictionary order. */
  const RemapAssets: seq<(string, string)> := [("XDG", "DOGE"), ("XBT", "BTC")]
}

=== FILE: dicts.dfy ===
/** Python dictionaries: insertion-ordered, one value per key, assignment to an existing key
    keeps its position and replaces its value. */
module OrderedDicts {
  import opened Wrappers
  import opened Strings

  type Dict<K, V> = seq<(K, V)>

  function Keys<K(==), V>(d: Dict<K, V>): (ks: seq<K>)
    ensures |ks| == |d|
  {
    seq(|d|, i requires 0 <= i < |d| => d[i].0)
  }

  predicate UniqueKeys<K(==), V>(d: Dict<K, V>) {
    forall i, j :: 0 <= i < j < |d| ==> d[i].0 != d[j].0
  }

  /** `d[k]`, or None when `k` is not a key. */
  function Lookup<K(==), V>(d: Dict<K, V>, k: K): Option<V> {
    if d == [] then None
    else if d[|d| - 1].0 == k then Some(d[|d| - 1].1)
    else Lookup(d[..|d| - 1], k)
  }

  /** Every entry with key `k` given the value `v`. */
  function Replace<K(==), V>(d: Dict<K, V>, k: K, v: V): (r: Dict<K, V>)
    ensures Keys(r) == Keys(d)
  {
    seq(|d|, i requires 0 <= i < |d| => if d[i].0 == k then (k, v) else d[i])
  }

  /** `d[k] = v`: an existing key keeps its position, a new key goes last. */
  function Put<K(==), V>(d: Dict<K, V>, k: K, v: V): Dict<K, V> {
    if k in Keys(d) then Replace(d, k, v) else d + [(k, v)]
  }

  /** The dictionary built by assigning the pairs one after the other, as
      `for k, v in pairs: d[k] = v` does. */
  function FromPairs<K(==), V>(pairs: seq<(K, V)>): Dict<K, V> {
    if pairs == [] then []
    else Put(FromPairs(pairs[..|pairs| - 1]), pairs[|pairs| - 1].0, pairs[|pairs| - 1].1)
  }

  /** The value of the last pair whose key is `k`. */
  function LastValue<K(==), V>(pairs: seq<(K, V)>, k: K): Option<V> {
    if pairs == [] then None
    else if pairs[|pairs| - 1].0 == k then Some(pairs[|pairs| - 1].1)
    else LastValue(pairs[..|pairs| - 1], k)
  }

  lemma {:induction false} ReplaceLookup<K, V>(d: Dict<K, V>, k: K, v: V, q: K)
    ensures Lookup(Replace(d, k, v), q) == if q == k && k in Keys(d) then Some(v) else Lookup(d, q)
  {
    if d != [] {
      var n := |d| - 1;
      assert Replace(d, k, v)[..n] == Replace(d[..n], k, v);
      assert Keys(d) == Keys(d[..n]) + [d[n].0];
      ReplaceLookup(d[..n], k, v, q);
    }
  }

  lemma PutLookup<K, V>(d: Dict<K, V>, k: K, v: V, q: K)
    ensures Lookup(Put(d, k, v), q) == if q == k then Some(v) else Lookup(d, q)
  {
    if k in Keys(d) {
      ReplaceLookup(d, k, v, q);
    } else {
      assert (d + [(k, v)])[..|d|] == d;
    }
  }

  /** Assigning the pairs in order leaves each key with the value it was given last. */
  lemma {:induction false} FromPairsLookup<K, V>(pairs: seq<(K, V)>, k: K)
    ensures Lookup(FromPairs(pairs), k) == LastValue(pairs, k)
  {
    if pairs != [] {
      var n := |pairs| - 1;
      FromPairsLookup(pairs[..n], k);
      PutLookup(FromPairs(pairs[..n]), pairs[n].0, pairs[n].1, k);
    }
  }

  lemma PutKeys<K, V>(d: Dict<K, V>, k: K, v: V)
    ensures Keys(Put(d, k, v)) == if k in Keys(d) then Keys(d) else Keys(d) + [k]
  {
    if k !in Keys(d) {
      assert Keys(d + [(k, v)]) == Keys(d) + [k];
    }
  }

  lemma KeysSnoc<K, V>(d: Dict<K, V>, k: K, v: V)
    ensures Keys(d + [(k, v)]) == Keys(d) + [k]
  {
  }

  /** The keys of the built dictionary are the distinct keys of the pairs, in order of first
      assignment. */
  lemma {:induction false} FromPairsKeys<K(!new), V>(pairs: seq<(K, V)>)
    ensures Keys(FromPairs(pairs)) == Distinct(Keys(pairs))
  {
    if pairs != [] {
      var n := |pairs| - 1;
      var front, k, v := pairs[..n], pairs[n].0, pairs[n].1;
      assert FromPairs(pairs) == Put(FromPairs(front), k, v);
      FromPairsKeys(front);
      PutKeys(FromPairs(front), k, v);
      assert pairs == front + [(k, v)];
      KeysSnoc(front, k, v);
      DistinctSnoc(Keys(front), k);
    }
  }

  /** The last value of a key is one of its pairs; a key without one has no pair. */
  lemma {:induction false} LastValueIn<K, V>(pairs: seq<(K, V)>, k: K)
    ensures LastValue(pairs, k).Some? ==> (k, LastValue(pairs, k).value) in pairs
    ensures LastValue(pairs, k).None? <==> k !in Keys(pairs)
  {
    if pairs != [] {
      var n := |pairs| - 1;
      LastValueIn(pairs[..n], k);
      assert Keys(pairs) == Keys(pairs[..n]) + [pairs[n].0];
      assert pairs == pairs[..n] + [pairs[n]];
    }
  }

  lemma {:induction false} LookupValue<K, V>(d: Dict<K, V>, k: K)
    ensures Lookup(d, k).Some? ==> exists i :: 0 <= i < |d| && d[i] == (k, Lookup(d, k).value)
  {
    if d != [] && d[|d| - 1].0 != k {
      LookupValue(d[..|d| - 1], k);
    }
  }

  lemma {:induction false} LookupAbsent<K, V>(d: Dict<K, V>, k: K)
    requires k !in Keys(d)
    ensures Lookup(d, k) == None
  {
    if d != [] {
      assert Keys(d[..|d| - 1]) == Keys(d)[..|d| - 1];
      assert d[|d| - 1].0 == Keys(d)[|d| - 1];
      LookupAbsent(d[..|d| - 1], k);
    }
  }

  /** `d.pop(k)` for a key of `d`: its entry removed, the others kept in order. */
  function Without<K(==,!new), V(!new)>(d: Dict<K, V>, k: K): (r: Dict<K, V>)
    ensures forall e :: e in r <==> e in d && e.0 != k
  {
    if d == [] then []
    else
      var n := |d| - 1;
      assert d == d[..n] + [d[n]];
      Without(d[..n], k) + (if d[n].0 == k then [] else [d[n]])
  }

  /** `d.pop(k)` for every `k` of `ks` in turn. */
  function WithoutKeys<K(==,!new), V(!new)>(d: Dict<K, V>, ks: seq<K>): (r: Dict<K, V>)
    ensures forall e :: e in r <==> e in d && e.0 !in ks
  {
    if ks == [] then d
    else
      var n := |ks| - 1;
      assert ks == ks[..n] + [ks[n]];
      Without(WithoutKeys(d, ks[..n]), ks[n])
  }

  lemma {:induction false} WithoutUnique<K(!new), V(!new)>(d: Dict<K, V>, k: K)
    requires UniqueKeys(d)
    ensures UniqueKeys(Without(d, k))
  {
    if d != [] {
      var n := |d| - 1;
      assert UniqueKeys(d[..n]);
      WithoutUnique(d[..n], k);
      var front := Without(d[..n], k);
      forall e | e in front ensures e.0 != d[n].0 {
        var i :| 0 <= i < n && d[i] == e;
      }
    }
  }

  lemma {:induction false} WithoutKeysUnique<K(!new), V(!new)>(d: Dict<K, V>, ks: seq<K>)
    requires UniqueKeys(d)
    ensures UniqueKeys(WithoutKeys(d, ks))
  {
    if ks != [] {
      var n := |ks| - 1;
      WithoutKeysUnique(d, ks[..n]);
      WithoutUnique(WithoutKeys(d, ks[..n]), ks[n]);
    }
  }

  /** In a dictionary with one entry per key, `d[k] == v` exactly when `(k, v)` is an entry. */
  lemma {:induction false} LookupUnique<K, V>(d: Dict<K, V>, k: K, v: V)
    requires UniqueKeys(d)
    ensures Lookup(d, k) == Some(v) <==> (k, v) in d
  {
    if d != [] {
      var n := |d| - 1;
      assert UniqueKeys(d[..n]);
      LookupUnique(d[..n], k, v);
      assert d == d[..n] + [d[n]];
    }
  }

  lemma {:induction false} ReplaceUnique<K, V>(d: Dict<K, V>, k: K, v: V)
    requires UniqueKeys(d)
    ensures UniqueKeys(Replace(d, k, v))
  {
    assert Keys(Replace(d, k, v)) == Keys(d);
    forall i, j | 0 <= i < j < |d| ensures Replace(d, k, v)[i].0 != Replace(d, k, v)[j].0 {
      assert Keys(d)[i] == d[i].0 && Keys(d)[j] == d[j].0;
    }
  }

  lemma PutUnique<K, V>(d: Dict<K, V>, k: K, v: V)
    requires UniqueKeys(d)
    ensures UniqueKeys(Put(d, k, v))
  {
    if k in Keys(d) {
      ReplaceUnique(d, k, v);
    } else {
      forall i | 0 <= i < |d| ensures d[i].0 != k {
        assert Keys(d)[i] == d[i].0;
      }
    }
  }

  lemma {:induction false} LookupPresent<K, V>(d: Dict<K, V>, k: K)
    requires k in Keys(d)
    ensures Lookup(d, k).Some?
  {
    var n := |d| - 1;
    if d[n].0 != k {
      assert Keys(d) == Keys(d[..n]) + [d[n].0];
      LookupPresent(d[..n], k);
    }
  }
}

=== FILE: exchange.dfy ===
/** `Exchange.getHistoricalPricesDataFrameList_Universal` (lib/exchange.py): the price table of a
    list of symbols, built by asking the exchange for each new symbol's daily prices. The
    exchange's `getHistoricalPricesDataFrame_Universal` is the oracle `fetch` (None when it
    obtained nothing), and every symbol asked of it is recorded in a ghost list of calls. */
module Exchange {
  import opened Wrappers
  import opened Strings
  import opened OrderedDicts
  import opened Prices

  /** The column a symbol is looked up under: every `.S` removed, then every `ETH2` replaced by
      `ETH` when the result starts with `ETH2`, so a staked symbol shares its base's prices. */
  function StakeKey(symbol: string): string {
    var t := ReplaceAll(symbol, ".S", "");
    if StartsWith(t, "ETH2") then ReplaceAll(t, "ETH2", "ETH") else t
  }

  /** A staked asset's symbol shares its base's column. */
  lemma StakeKeyStaked()
    ensures StakeKey("DOT.S/USD") == "DOT/USD"
  {
    DotUnstaked();
    StartsWithDiffers("DOT/USD", "ETH2", 0);
  }

  lemma DotUnstaked()
    ensures ReplaceAll("DOT.S/USD", ".S", "") == "DOT/USD"
  {
    MissingCharNotContained("/USD", ".S", 0);
    ReplaceOnce("DOT", ".S", "/USD", "");
    assert "DOT" + ".S" + "/USD" == "DOT.S/USD";
    assert "DOT" + "" + "/USD" == "DOT/USD";
  }

  lemma EtherUnstaked()
    ensures ReplaceAll("ETH2.S/USD", ".S", "") == "ETH2/USD"
  {
    MissingCharNotContained("/USD", ".S", 0);
    ReplaceOnce("ETH2", ".S", "/USD", "");
    assert "ETH2" + ".S" + "/USD" == "ETH2.S/USD";
    assert "ETH2" + "" + "/USD" == "ETH2/USD";
  }

  lemma EtherRenamed()
    ensures ReplaceAll("ETH2/USD", "ETH2", "ETH") == "ETH/USD"
  {
    MissingCharNotContained("/USD", "ETH2", 0);
    ReplaceAbsent("/USD", "ETH2", "ETH");
    ReplaceHead("/USD", "ETH2", "ETH");
    assert "ETH2/USD" == "ETH2" + "/USD";
  }

  /** Staked ether (`ETH2.S`) is priced as ether. */
  lemma StakeKeyEther()
    ensures StakeKey("ETH2.S/USD") == "ETH/USD"
  {
    EtherUnstaked();
    EtherRenamed();
    assert StartsWith("ETH2/USD", "ETH2");
  }

  /** An ordinary symbol is its own key. */
  lemma StakeKeyPlain()
    ensures StakeKey("BTC/USD") == "BTC/USD"
  {
    MissingCharNotContained("BTC/USD", ".S", 0);
    ReplaceAbsent("BTC/USD", ".S", "");
    StartsWithDiffers("BTC/USD", "ETH2", 0);
  }

  /** `[f"{asset}{sep}USD" for asset in assets if asset not in fiat_currencies]`: the symbols a
      non-zero-balance price query asks for, always quoted in USD. */
  function UsdSymbols(assets: seq<string>, fiat: seq<string>, sep: char): (symbols: seq<string>)
    ensures |symbols| <= |assets|
    ensures forall s :: s in symbols <==> exists a :: a in assets && a !in fiat && s == a + [sep] + "USD"
  {
    if assets == [] then []
    else
      var n := |assets| - 1;
      var front := UsdSymbols(assets[..n], fiat, sep);
      assert forall a :: a in assets <==> a in assets[..n] || a == assets[n];
      if assets[n] in fiat then front else front + [assets[n] + [sep] + "USD"]
  }

  /** The symbol with the native currency replaced by each stable-coin alternate in turn. */
  function AltSymbols(symbol: string, native: string, scs: seq<string>): (alts: seq<string>)
    ensures |alts| == |scs|
  {
    seq(|scs|, i requires 0 <= i < |scs| => ReplaceAll(symbol, native, scs[i]))
  }

  /** What a pull has obtained and the symbols it has asked for. */
  datatype Pull = Pull(frame: Option<PriceFrame>, calls: seq<string>)

  /** The stable-coin loop after the first pull: each alternate is asked for only while the
      fallback is on and nothing has been obtained. */
  function PullAlts(symbol: string, native: string, scs: seq<string>, stableCoinAlt: bool,
                    fetch: string -> Option<PriceFrame>, first: Pull): Pull {
    if scs == [] then first
    else
      var n := |scs| - 1;
      var p := PullAlts(symbol, native, scs[..n], stableCoinAlt, fetch, first);
      if stableCoinAlt && p.frame.None? then
        var alt := ReplaceAll(symbol, native, scs[n]);
        Pull(fetch(alt), p.calls + [alt])
      else p
  }

  /** One symbol of the loop: the frame grown by it and the symbols asked for, or the exception
      it raises. */
  function Step(hp: PriceFrame, symbol: string, native: string, stableCoinAlt: bool,
                alts: map<string, seq<string>>, fetch: string -> Option<PriceFrame>): (r: Result<(PriceFrame, seq<string>)>)
    ensures r.Ok? ==> hp <= r.value.0
  {
    var key := StakeKey(symbol);
    if symbol !in Keys(hp) && key in Keys(hp) && symbol != key then
      LookupPresent(hp, key);
      Ok((hp + [(symbol, Lookup(hp, key).value)], []))
    else if key !in Keys(hp) then
      // The key is pulled before `stable_coin_alts[native]` is read, so a missing native
      // raises KeyError only after that first request.
      var first := Pull(fetch(key), [key]);
      if native !in alts then Fail("KeyError")
      else
        var pull := PullAlts(symbol, native, alts[native], stableCoinAlt, fetch, first);
        if symbol !in Keys(hp) && symbol != key then
          match pull.frame
          case None => Fail("TypeError")
          case Some(df) =>
            match Lookup(df, key)
            case None => Fail("KeyError")
            case Some(col) => Ok((hp + Put(df, symbol, col), pull.calls))
        else
          match pull.frame
          case None => Ok((hp, pull.calls))
          case Some(df) => Ok((hp + df, pull.calls))
    else Ok((hp, []))
  }

  /** The table after the symbols, with every symbol asked of the exchange in order, or the
      first exception. */
  function Table(symbols: seq<string>, native: string, stableCoinAlt: bool,
                 alts: map<string, seq<string>>, fetch: string -> Option<PriceFrame>): Result<(PriceFrame, seq<string>)> {
    if symbols == [] then Ok(([], []))
    else
      var n := |symbols| - 1;
      match Table(symbols[..n], native, stableCoinAlt, alts, fetch)
      case Fail(e) => Fail(e)
      case Ok((hp, calls)) =>
        match Step(hp, symbols[n], native, stableCoinAlt, alts, fetch)
        case Fail(e) => Fail(e)
        case Ok((hp', more)) => Ok((hp', calls + more))
  }

  /** getHistoricalPricesDataFrameList_Universal: the loop over the symbols. */
  method HistoricalPricesList(symbols: seq<string>, native: string, stableCoinAlt: bool,
                              alts: map<string, seq<string>>, fetch: string -> Option<PriceFrame>)
    returns (r: Result<PriceFrame>, ghost calls: seq<string>)
    ensures r.Ok? <==> Table(symbols, native, stableCoinAlt, alts, fetch).Ok?
    ensures r.Ok? ==> (r.value, calls) == Table(symbols, native, stableCoinAlt, alts, fetch).value
    ensures r.Fail? ==> Table(symbols, native, stableCoinAlt, alts, fetch) == Fail(r.reason)
  {
    var hp: PriceFrame := [];
    calls := [];
    var i := 0;
    while i < |symbols|
      invariant 0 <= i <= |symbols|
      invariant Table(symbols[..i], native, stableCoinAlt, alts, fetch) == Ok((hp, calls))
    {
      assert symbols[..i + 1][..i] == symbols[..i];
      var next, more := AddSymbol(hp, symbols[i], native, stableCoinAlt, alts, fetch);
      if next.Fail? {
        assert Table(symbols[..i + 1], native, stableCoinAlt, alts, fetch) == Fail(next.reason);
        TableFails(symbols, i + 1, native, stableCoinAlt, alts, fetch);
        return Fail(next.reason), calls + more;
      }
      hp := next.value;
      calls := calls + more;
      i := i + 1;
    }
    assert symbols[..i] == symbols;
    r := Ok(hp);
  }

  /** The body of the loop for one symbol. */
  method AddSymbol(hp: PriceFrame, symbol: string, native: string, stableCoinAlt: bool,
                   alts: map<string, seq<string>>, fetch: string -> Option<PriceFrame>)
    returns (r: Result<PriceFrame>, ghost calls: seq<string>)
    ensures r.Ok? <==> Step(hp, symbol, native, stableCoinAlt, alts, fetch).Ok?
    ensures r.Ok? ==> (r.value, calls) == Step(hp, symbol, native, stableCoinAlt, alts, fetch).value
    ensures r.Fail? ==> Step(hp, symbol, native, stableCoinAlt, alts, fetch) == Fail(r.reason)
  {
    calls := [];
    var key := ReplaceAll(symbol, ".S", "");
    if StartsWith(key, "ETH2") {
      key := ReplaceAll(key, "ETH2", "ETH");
    }
    if symbol !in Keys(hp) && key in Keys(hp) && symbol != key {
      LookupPresent(hp, key);
      var df := [(symbol, Lookup(hp, key).value)];
      return Ok(hp + df), calls;
    } else if key !in Keys(hp) {
      var first := fetch(key);
      calls := [key];
      if native !in alts {
        return Fail("KeyError"), calls;
      }
      var df, pulled := PullNew(symbol, key, first, native, alts[native], stableCoinAlt, fetch);
      calls := pulled;
      if symbol !in Keys(hp) && symbol != key {
        if df.None? {
          return Fail("TypeError"), calls;
        }
        match Lookup(df.value, key) {
          case None =>
            return Fail("KeyError"), calls;
          case Some(col) =>
            df := Some(Put(df.value, symbol, col));
        }
      }
      if df.Some? {
        return Ok(hp + df.value), calls;
      }
    }
    r := Ok(hp);
  }

  /** The pull of a new key: the key's own answer `first`, then the stable-coin alternates of
      the symbol. */
  method PullNew(symbol: string, key: string, first: Option<PriceFrame>, native: string, scs: seq<string>,
                 stableCoinAlt: bool, fetch: string -> Option<PriceFrame>) returns (df: Option<PriceFrame>, ghost calls: seq<string>)
    ensures Pull(df, calls) == PullAlts(symbol, native, scs, stableCoinAlt, fetch, Pull(first, [key]))
  {
    df := first;
    calls := [key];
    var j := 0;
    while j < |scs|
      invariant 0 <= j <= |scs|
      invariant Pull(df, calls) == PullAlts(symbol, native, scs[..j], stableCoinAlt, fetch, Pull(first, [key]))
    {
      assert scs[..j + 1][..j] == scs[..j];
      if stableCoinAlt && df.None? {
        var alt := ReplaceAll(symbol, native, scs[j]);
        df := fetch(alt);
        calls := calls + [alt];
      }
      j := j + 1;
    }
    assert scs[..j] == scs;
  }

  /** The pull asks for the key, then for the alternates in order, stopping at the first that
      yields prices; with the fallback off it asks for the key only. What it obtained is the
      answer to its last question, and every earlier question went unanswered. */
  lemma {:induction false} PullOrder(symbol: string, key: string, native: string, scs: seq<string>, stableCoinAlt: bool,
                                     fetch: string -> Option<PriceFrame>)
    ensures var p := PullAlts(symbol, native, scs, stableCoinAlt, fetch, Pull(fetch(key), [key]));
      1 <= |p.calls| <= |scs| + 1 &&
      p.calls == ([key] + AltSymbols(symbol, native, scs))[..|p.calls|] &&
      p.frame == fetch(p.calls[|p.calls| - 1]) &&
      (forall j :: 0 <= j < |p.calls| - 1 ==> fetch(p.calls[j]).None?) &&
      (!stableCoinAlt ==> p.calls == [key]) &&
      (stableCoinAlt && p.frame.None? ==> |p.calls| == |scs| + 1)
  {
    if scs != [] {
      var n := |scs| - 1;
      PullOrder(symbol, key, native, scs[..n], stableCoinAlt, fetch);
      var all := [key] + AltSymbols(symbol, native, scs);
      assert ([key] + AltSymbols(symbol, native, scs[..n])) == all[..n + 1];
    }
  }

  /** A symbol whose key is already a column is never fetched; if the symbol itself is missing,
      its column is a copy of the key's. */
  lemma StepPresentKey(hp: PriceFrame, symbol: string, native: string, stableCoinAlt: bool,
                       alts: map<string, seq<string>>, fetch: string -> Option<PriceFrame>)
    requires StakeKey(symbol) in Keys(hp)
    ensures Step(hp, symbol, native, stableCoinAlt, alts, fetch).Ok?
    ensures Step(hp, symbol, native, stableCoinAlt, alts, fetch).value.1 == []
    ensures symbol !in Keys(hp) && symbol != StakeKey(symbol) ==>
      Lookup(Step(hp, symbol, native, stableCoinAlt, alts, fetch).value.0, symbol) == Lookup(hp, StakeKey(symbol))
  {
    var key := StakeKey(symbol);
    if symbol !in Keys(hp) && symbol != key {
      LookupPresent(hp, key);
      var col := Lookup(hp, key).value;
      assert (hp + [(symbol, col)])[..|hp|] == hp;
    }
  }

  /** With the fallback off, a new key is asked for exactly once. */
  lemma StepSingleFetch(hp: PriceFrame, symbol: string, native: string,
                        alts: map<string, seq<string>>, fetch: string -> Option<PriceFrame>)
    requires StakeKey(symbol) !in Keys(hp) && native in alts
    requires Step(hp, symbol, native, false, alts, fetch).Ok?
    ensures Step(hp, symbol, native, false, alts, fetch).value.1 == [StakeKey(symbol)]
  {
    PullOrder(symbol, StakeKey(symbol), native, alts[native], false, fetch);
  }

  /** A staked symbol for which neither the key nor any alternate yields prices reaches the
      copy `df[symbol] = df[temp_symbol].copy()` with no frame to copy from: the call fails. */
  lemma StakedWithoutPrices(hp: PriceFrame, symbol: string, native: string, stableCoinAlt: bool,
                            alts: map<string, seq<string>>, fetch: string -> Option<PriceFrame>)
    requires symbol != StakeKey(symbol) && symbol !in Keys(hp) && StakeKey(symbol) !in Keys(hp) && native in alts
    requires forall c :: c in [StakeKey(symbol)] + AltSymbols(symbol, native, alts[native]) ==> fetch(c).None?
    ensures Step(hp, symbol, native, stableCoinAlt, alts, fetch).Fail?
  {
    var key := StakeKey(symbol);
    PullOrder(symbol, key, native, alts[native], stableCoinAlt, fetch);
    var p := PullAlts(symbol, native, alts[native], stableCoinAlt, fetch, Pull(fetch(key), [key]));
    var all := [key] + AltSymbols(symbol, native, alts[native]);
    assert p.calls[|p.calls| - 1] == all[|p.calls| - 1];
  }

  /** Columns are only ever added: every table on the way is a prefix of the next. */
  lemma {:induction false} TableGrows(symbols: seq<string>, i: nat, native: string, stableCoinAlt: bool,
                                      alts: map<string, seq<string>>, fetch: string -> Option<PriceFrame>)
    requires i <= |symbols|
    requires Table(symbols, native, stableCoinAlt, alts, fetch).Ok?
    ensures Table(symbols[..i], native, stableCoinAlt, alts, fetch).Ok?
    ensures Table(symbols[..i], native, stableCoinAlt, alts, fetch).value.0 <= Table(symbols, native, stableCoinAlt, alts, fetch).value.0
    decreases |symbols|
  {
    if i < |symbols| {
      var n := |symbols| - 1;
      assert symbols[..n][..i] == symbols[..i];
      TableGrows(symbols[..n], i, native, stableCoinAlt, alts, fetch);
    } else {
      assert symbols[..i] == symbols;
    }
  }

  /** The first exception ends the call: once a prefix of the symbols fails, so does the whole. */
  lemma {:induction false} TableFails(symbols: seq<string>, i: nat, native: string, stableCoinAlt: bool,
                                      alts: map<string, seq<string>>, fetch: string -> Option<PriceFrame>)
    requires i <= |symbols|
    requires Table(symbols[..i], native, stableCoinAlt, alts, fetch).Fail?
    ensures Table(symbols, native, stableCoinAlt, alts, fetch) == Table(symbols[..i], native, stableCoinAlt, alts, fetch)
    decreases |symbols|
  {
    if i < |symbols| {
      var n := |symbols| - 1;
      var front := symbols[..n];
      assert front[..i] == symbols[..i];
      TableFails(front, i, native, stableCoinAlt, alts, fetch);
      TableFailsLast(symbols, native, stableCoinAlt, alts, fetch);
    } else {
      assert symbols[..i] == symbols;
    }
  }

  lemma TableFailsLast(symbols: seq<string>, native: string, stableCoinAlt: bool,
                       alts: map<string, seq<string>>, fetch: string -> Option<PriceFrame>)
    requires symbols != [] && Table(symbols[..|symbols| - 1], native, stableCoinAlt, alts, fetch).Fail?
    ensures Table(symbols, native, stableCoinAlt, alts, fetch) == Table(symbols[..|symbols| - 1], native, stableCoinAlt, alts, fetch)
  {
  }

  /** A last symbol whose key is already a column adds no exchange call. */
  lemma TableLastNoCalls(symbols: seq<string>, native: string, stableCoinAlt: bool,
                         alts: map<string, seq<string>>, fetch: string -> Option<PriceFrame>)
    requires symbols != [] && Table(symbols[..|symbols| - 1], native, stableCoinAlt, alts, fetch).Ok?
    requires StakeKey(symbols[|symbols| - 1]) in Keys(Table(symbols[..|symbols| - 1], native, stableCoinAlt, alts, fetch).value.0)
    ensures Table(symbols, native, stableCoinAlt, alts, fetch).Ok?
    ensures Table(symbols, native, stableCoinAlt, alts, fetch).value.1 == Table(symbols[..|symbols| - 1], native, stableCoinAlt, alts, fetch).value.1
  {
    var hp := Table(symbols[..|symbols| - 1], native, stableCoinAlt, alts, fetch).value.0;
    StepPresentKey(hp, symbols[|symbols| - 1], native, stableCoinAlt, alts, fetch);
  }

  /** A column of the table of a prefix is a column of the table of a longer prefix. */
  lemma KeyStays(symbols: seq<string>, i: nat, k: string, native: string, stableCoinAlt: bool,
                 alts: map<string, seq<string>>, fetch: string -> Option<PriceFrame>)
    requires i <= |symbols| && Table(symbols, native, stableCoinAlt, alts, fetch).Ok?
    ensures Table(symbols[..i], native, stableCoinAlt, alts, fetch).Ok?
    ensures k in Keys(Table(symbols[..i], native, stableCoinAlt, alts, fetch).value.0) ==>
      k in Keys(Table(symbols, native, stableCoinAlt, alts, fetch).value.0)
  {
    TableGrows(symbols, i, native, stableCoinAlt, alts, fetch);
    var before := Table(symbols[..i], native, stableCoinAlt, alts, fetch).value.0;
    var hp := Table(symbols, native, stableCoinAlt, alts, fetch).value.0;
    assert Keys(before) == Keys(hp)[..|before|];
  }

  /** Within one call, a key that is a column by the time a later symbol is reached is not
      fetched for that symbol. */
  lemma NoRefetch(symbols: seq<string>, i: nat, j: nat, native: string, stableCoinAlt: bool,
                  alts: map<string, seq<string>>, fetch: string -> Option<PriceFrame>)
    requires i <= j < |symbols|
    requires Table(symbols[..j + 1], native, stableCoinAlt, alts, fetch).Ok?
    requires Table(symbols[..i], native, stableCoinAlt, alts, fetch).Ok?
    requires StakeKey(symbols[j]) in Keys(Table(symbols[..i], native, stableCoinAlt, alts, fetch).value.0)
    ensures Table(symbols[..j], native, stableCoinAlt, alts, fetch).Ok?
    ensures Table(symbols[..j + 1], native, stableCoinAlt, alts, fetch).value.1 == Table(symbols[..j], native, stableCoinAlt, alts, fetch).value.1
  {
    var s := symbols[..j + 1];
    assert s[..j] == symbols[..j] && s[j] == symbols[j];
    TableGrows(s, j, native, stableCoinAlt, alts, fetch);
    KeyStays(symbols[..j], i, StakeKey(symbols[j]), native, stableCoinAlt, alts, fetch);
    assert symbols[..j][..i] == symbols[..i];
    TableLastNoCalls(s, native, stableCoinAlt, alts, fetch);
  }
}

=== FILE: http.dfy ===
/** Responses of the exchanges' HTTP APIs as the core reads them, and the lazy-cache rule the
    exchange classes share. No request is made here: a response is an input. */
module Http {
  import opened Wrappers

  /** A decoded response: the status code and the JSON body. */
  datatype Response<T> = Response(status: int, body: T)

  /** A kraken-style body whose `result` member is present (`Some`) or missing (`None`). */
  predicate Accepted<T>(resp: Response<Option<T>>) {
    resp.status == 200 && resp.body.Some?
  }

  /** What a kraken-style request yields: the `result` member of an accepted response, None
      otherwise (a bad status or an `error` body is only printed). */
  function Answer<T>(resp: Response<Option<T>>): (r: Option<T>)
    ensures r.Some? <==> Accepted(resp)
    ensures r.Some? ==> r == resp.body
  {
    if resp.status == 200 then resp.body else None
  }

  /** What a coinbase- or bittrex-style request yields: the whole body of a 200 response whose
      `result` member is present (`hasResult`), None otherwise. */
  function WholeAnswer<T>(resp: Response<T>, hasResult: bool): (r: Option<T>)
    ensures r.Some? <==> resp.status == 200 && hasResult
    ensures r.Some? ==> r.value == resp.body
  {
    if resp.status == 200 && hasResult then Some(resp.body) else None
  }

  /** What a cached getter returns: the cached value when not refreshing and a value is cached,
      otherwise what a fresh request yields. */
  function Cached<T>(refresh: bool, cache: Option<T>, fetched: Option<T>): (r: Option<T>)
    ensures !refresh && cache.Some? ==> r == cache
    ensures refresh || cache.None? ==> r == fetched
  {
    if !refresh && cache.Some? then cache else fetched
  }

  /** The cache field after a getter: set to what it returned, kept when it returned nothing. */
  function Stored<T>(cache: Option<T>, returned: Option<T>): (r: Option<T>)
    ensures returned.Some? ==> r == returned
    ensures returned.None? ==> r == cache
  {
    if returned.Some? then returned else cache
  }

  /** The request a cached getter makes: none when it answers from its cache, `path` otherwise. */
  function Asked<T>(refresh: bool, cache: Option<T>, path: string): (r: seq<string>)
    ensures r == [] <==> !refresh && cache.Some?
    ensures r != [] ==> r == [path]
  {
    if !refresh && cache.Some? then [] else [path]
  }
}

=== FILE: kraken.dfy ===
/** The kraken exchange client (lib/kraken.py): lazily cached balances, pairs, symbols, assets,
    trades and ledger, and the reshaping of its responses. Requests are not made: each method
    takes the response it would receive, uses it only when it would have asked, and records the
    endpoint in the ghost log `requests`. */
module Kraken {
  import opened Wrappers
  import opened Strings
  import opened OrderedDicts
  import opened Http
  import opened Prices
  import opened KrakenRecords
  import opened Exchange
  import Config

  const BalancePath: string := "/0/private/Balance"
  const AssetPairsPath: string := "/0/public/AssetPairs"
  const TradesPath: string := "/0/private/TradesHistory"
  const LedgerPath: string := "/0/private/Ledgers"

  /** An entry of the `AssetPairs` result; only its optional `wsname` is read. */
  datatype PairInfo = PairInfo(wsname: Option<string>)

  /** `[p['wsname'] for p in pairs if 'wsname' in p]`: the names of exactly the pairs that
      have one, in response order. */
  function WsNames(pairs: Dict<string, PairInfo>): (names: seq<string>)
    ensures |names| <= |pairs|
    ensures forall x :: x in names <==> exists i :: 0 <= i < |pairs| && pairs[i].1.wsname == Some(x)
  {
    if pairs == [] then []
    else
      var n := |pairs| - 1;
      var front := WsNames(pairs[..n]);
      assert forall i :: 0 <= i < n ==> pairs[..n][i] == pairs[i];
      match pairs[n].1.wsname
      case Some(w) => front + [w]
      case None => front
  }

  /** The balance dictionary with every ticker passed through `rename`. */
  function RenameKeys(d: Dict<string, real>, rename: string -> string): (r: Dict<string, real>)
    ensures |r| == |d|
  {
    seq(|d|, i requires 0 <= i < |d| => (rename(d[i].0), d[i].1))
  }

  /** One more balance puts its renamed ticker into the dictionary built so far. */
  lemma RenameKeysStep(d: Dict<string, real>, rename: string -> string, i: nat)
    requires i < |d|
    ensures FromPairs(RenameKeys(d[..i + 1], rename)) == Put(FromPairs(RenameKeys(d[..i], rename)), rename(d[i].0), d[i].1)
  {
    assert RenameKeys(d[..i + 1], rename)[..i] == RenameKeys(d[..i], rename);
  }

  lemma {:induction false} LastValueRenamed(d: Dict<string, real>, rename: string -> string, k: string, v: real)
    requires UniqueKeys(d) && (k, v) in d
    requires forall a, b :: rename(a) == rename(b) ==> a == b
    ensures LastValue(RenameKeys(d, rename), rename(k)) == Some(v)
  {
    var n := |d| - 1;
    assert RenameKeys(d, rename)[..n] == RenameKeys(d[..n], rename);
    var i :| 0 <= i < |d| && d[i] == (k, v);
    if i == n {
      assert RenameKeys(d, rename)[n] == (rename(k), v);
    } else {
      assert d[..n][i] == (k, v);
      assert d[n].0 != k;
      LastValueRenamed(d[..n], rename, k, v);
    }
  }

  /** Every ticker of the response is kept under its renamed key with its value unchanged; zero
      balances are not filtered out. */
  lemma RenamedBalances(d: Dict<string, real>, rename: string -> string, k: string, v: real)
    requires UniqueKeys(d) && (k, v) in d
    requires forall a, b :: rename(a) == rename(b) ==> a == b
    ensures Lookup(FromPairs(RenameKeys(d, rename)), rename(k)) == Some(v)
  {
    FromPairsLookup(RenameKeys(d, rename), rename(k));
    LastValueRenamed(d, rename, k, v);
  }

  /** What a balance request yields. */
  function BalancesOf(resp: Response<Option<Dict<string, real>>>, rename: string -> string): Option<Dict<string, real>> {
    match Answer(resp)
    case None => None
    case Some(d) => Some(FromPairs(RenameKeys(d, rename)))
  }

  function SymbolsOf(vs: Option<Dict<string, PairInfo>>): Option<seq<string>> {
    match vs
    case None => None
    case Some(pairs) => Some(WsNames(pairs))
  }

  function AssetsOfSymbols(su: Option<seq<string>>): Option<seq<string>> {
    match su
    case None => None
    case Some(symbols) => Some(FirstParts(symbols, '/'))
  }

  /** The pairs, symbols and assets caches of a client, in that order. */
  type SymbolCaches = (Option<Dict<string, PairInfo>>, Option<seq<string>>, Option<seq<string>>)

  /** The caches after getValidSymbols_Universal: untouched when the symbols are cached;
      otherwise the pairs are obtained, from their cache or from `resp`, and both the pairs and
      their names are stored when there are any. */
  function AfterSymbols(refresh: bool, c: SymbolCaches, resp: Response<Option<Dict<string, PairInfo>>>): SymbolCaches {
    if !refresh && c.1.Some? then c
    else
      var vs := Cached(refresh, c.0, Answer(resp));
      (Stored(c.0, vs), Stored(c.1, SymbolsOf(vs)), c.2)
  }

  /** The requests of getValidSymbols_Universal: the pairs endpoint, unless a cache answers. */
  function SymbolsAsked(refresh: bool, c: SymbolCaches): seq<string> {
    if !refresh && c.1.Some? then [] else Asked(refresh, c.0, AssetPairsPath)
  }

  /** The caches after getValidAssets_Universal: untouched when the assets are cached;
      otherwise as getValidSymbols_Universal leaves them, with the assets of the symbols it
      returned stored when it returned any. */
  function AfterAssets(refresh: bool, c: SymbolCaches, resp: Response<Option<Dict<string, PairInfo>>>): SymbolCaches {
    if !refresh && c.2.Some? then c
    else
      var s := AfterSymbols(refresh, c, resp);
      var su := Cached(refresh, c.1, SymbolsOf(Cached(refresh, c.0, Answer(resp))));
      (s.0, s.1, Stored(c.2, AssetsOfSymbols(su)))
  }

  /** The requests of getValidAssets_Universal. */
  function AssetsAsked(refresh: bool, c: SymbolCaches): seq<string> {
    if !refresh && c.2.Some? then [] else SymbolsAsked(refresh, c)
  }

  /** The caches after `getValidAssets_Universal()` has been evaluated n times in a row, as
      getBalances_Universal does once per returned balance. */
  function AfterLookups(n: nat, c: SymbolCaches, resp: Response<Option<Dict<string, PairInfo>>>): SymbolCaches {
    if n == 0 then c else AfterAssets(false, AfterLookups(n - 1, c, resp), resp)
  }

  /** The requests of those n evaluations, in order. */
  function LookupsAsked(n: nat, c: SymbolCaches, resp: Response<Option<Dict<string, PairInfo>>>): seq<string> {
    if n == 0 then [] else LookupsAsked(n - 1, c, resp) + AssetsAsked(false, AfterLookups(n - 1, c, resp))
  }

  /** How many times getBalances_Universal looks the valid assets up: once per balance of an
      accepted response. */
  function BalanceCount(resp: Response<Option<Dict<string, real>>>): nat {
    if Accepted(resp) then |resp.body.value| else 0
  }

  /** A second lookup without refresh leaves the caches as the first one did. */
  lemma AfterAssetsIdempotent(c: SymbolCaches, resp: Response<Option<Dict<string, PairInfo>>>)
    ensures AfterAssets(false, AfterAssets(false, c, resp), resp) == AfterAssets(false, c, resp)
  {
    if c.2.None? && c.1.None? && c.0.None? && !Accepted(resp) {
      assert AfterAssets(false, c, resp) == c;
    }
  }

  /** However many balances there are, the caches end as after one lookup. */
  lemma {:induction false} LookupsSettle(n: nat, c: SymbolCaches, resp: Response<Option<Dict<string, PairInfo>>>)
    requires n >= 1
    ensures AfterLookups(n, c, resp) == AfterAssets(false, c, resp)
  {
    if n > 1 {
      LookupsSettle(n - 1, c, resp);
      AfterAssetsIdempotent(c, resp);
    }
  }

  /** An accepted pairs response is requested at most once, whatever the number of balances. */
  lemma {:induction false} LookupsAskOnce(n: nat, c: SymbolCaches, resp: Response<Option<Dict<string, PairInfo>>>)
    requires Accepted(resp)
    ensures LookupsAsked(n, c, resp) == if n == 0 then [] else AssetsAsked(false, c)
  {
    if n > 1 {
      LookupsAskOnce(n - 1, c, resp);
      LookupsSettle(n - 1, c, resp);
      assert AfterAssets(false, c, resp).2.Some?;
    }
  }

  /** With no cache set and a failing pairs response, every balance asks for the pairs again. */
  lemma {:induction false} LookupsRepeat(n: nat, resp: Response<Option<Dict<string, PairInfo>>>)
    requires !Accepted(resp)
    ensures AfterLookups(n, (None, None, None), resp) == (None, None, None)
    ensures LookupsAsked(n, (None, None, None), resp) == seq(n, k => AssetPairsPath)
  {
    if n > 0 {
      LookupsRepeat(n - 1, resp);
      assert seq(n, k => AssetPairsPath) == seq(n - 1, k => AssetPairsPath) + [AssetPairsPath];
    }
  }

  /** What a trades request yields: the parsed `trades` object, or nothing. */
  function TradesOf(resp: Response<Option<Dict<string, Dict<string, Entry>>>>): Option<seq<Row>> {
    match Answer(resp)
    case None => None
    case Some(result) =>
      match Lookup(result, "trades")
      case None => None
      case Some(entries) => Some(Rows(entries))
  }

  /** What a ledger request yields: the parsed `ledger` object without its trades, or nothing
      when the object is missing or has no entries. */
  function LedgerOf(resp: Response<Option<Dict<string, Dict<string, Entry>>>>): (r: Option<seq<Row>>)
    ensures r.Some? ==> forall x :: x in r.value ==> x.kind != "trade"
  {
    match Answer(resp)
    case None => None
    case Some(result) =>
      match Lookup(result, "ledger")
      case None => None
      case Some(entries) => if entries == [] then None else Some(NonTrades(Rows(entries)))
  }

  /** A ledger object with entries is cached with exactly its non-trade rows. */
  lemma LedgerKeepsNonTrades(resp: Response<Option<Dict<string, Dict<string, Entry>>>>, entries: Dict<string, Entry>)
    requires Accepted(resp) && Lookup(resp.body.value, "ledger") == Some(entries) && entries != []
    ensures LedgerOf(resp).Some?
    ensures forall x :: x in LedgerOf(resp).value <==> x in Rows(entries) && x.kind != "trade"
  {
  }

  /** `symbol.split('/')` joined back without the slash: the pair name an OHLC request uses. A
      symbol without `/` raises IndexError. */
  function OhlcPair(symbol: string): (r: Result<string>)
    ensures r.Fail? <==> |SplitOn(symbol, '/')| < 2
  {
    var parts := SplitOn(symbol, '/');
    if |parts| < 2 then Fail("IndexError") else Ok(parts[0] + parts[1])
  }

  /** `A/B` is requested as `AB`. */
  lemma OhlcPairJoins(a: string, b: string)
    requires '/' !in a && '/' !in b
    ensures OhlcPair(a + "/" + b) == Ok(a + b)
  {
    SplitTwo(a, b, '/');
  }

  /** A symbol without a slash cannot be requested. */
  lemma OhlcPairNeedsSlash(symbol: string)
    requires '/' !in symbol
    ensures OhlcPair(symbol).Fail?
  {
    SplitNone(symbol, '/');
  }

  /** getHistoricalPrices followed by getHistoricalPricesDataFrame: the candles of the first
      result key unless it is `last`, nothing when the request is not accepted. */
  function HistoricalCandles(symbol: string, resp: Response<Option<Dict<string, OhlcEntry>>>): (r: Result<Option<seq<Candle>>>)
    ensures r.Ok? && r.value.Some? ==> Accepted(resp) && SelectOhlc(resp.body.value) == Ok(r.value.value)
    ensures OhlcPair(symbol).Ok? && Accepted(resp) && SelectOhlc(resp.body.value).Ok? ==>
      r == Ok(Some(SelectOhlc(resp.body.value).value))
    ensures OhlcPair(symbol).Ok? && !Accepted(resp) ==> r == Ok(None)
    ensures r.Fail? <==> OhlcPair(symbol).Fail? || (Accepted(resp) && SelectOhlc(resp.body.value).Fail?)
  {
    match OhlcPair(symbol)
    case Fail(e) => Fail(e)
    case Ok(_) =>
      if !Accepted(resp) then Ok(None)
      else
        match SelectOhlc(resp.body.value)
        case Fail(e) => Fail(e)
        case Ok(candles) => Ok(Some(candles))
  }

  /** getHistoricalPricesDataFrame_Universal: one column named after the symbol with
      `(high + low) / 2` per date, or nothing when there are no candles. */
  function HistoricalPriceFrame(symbol: string, resp: Response<Option<Dict<string, OhlcEntry>>>): (r: Result<Option<PriceFrame>>)
    ensures r.Ok? && r.value.Some? ==>
      exists candles :: candles != [] && HistoricalCandles(symbol, resp) == Ok(Some(candles)) && r.value.value == [(symbol, Midpoints(candles))]
    ensures r.Ok? && r.value.Some? <==>
      var c := HistoricalCandles(symbol, resp);
      c.Ok? && c.value.Some? && c.value.value != []
    ensures r.Fail? <==> HistoricalCandles(symbol, resp).Fail?
  {
    match HistoricalCandles(symbol, resp)
    case Fail(e) => Fail(e)
    case Ok(None) => Ok(None)
    case Ok(Some(candles)) => Ok(PriceColumn(symbol, candles))
  }

  class Kraken {
    var balanceUniversal: Option<Dict<string, real>>
    var validSymbols: Option<Dict<string, PairInfo>>
    var validSymbolsUniversal: Option<seq<string>>
    var validAssetsUniversal: Option<seq<string>>
    var walletTrades: Option<seq<Row>>
    var walletLedger: Option<seq<Row>>
    /** The endpoints requested so far. */
    ghost var requests: seq<string>

    /** The pairs, symbols and assets caches. */
    function Caches(): SymbolCaches
      reads this
    {
      (validSymbols, validSymbolsUniversal, validAssetsUniversal)
    }

    constructor ()
      ensures balanceUniversal.None? && validSymbols.None? && validSymbolsUniversal.None?
      ensures validAssetsUniversal.None? && walletTrades.None? && walletLedger.None?
      ensures requests == []
    {
      balanceUniversal := None;
      validSymbols := None;
      validSymbolsUniversal := None;
      validAssetsUniversal := None;
      walletTrades := None;
      walletLedger := None;
      requests := [];
    }

    /** The loop `for balance in result: bu[rename_asset(balance, self.getValidAssets_Universal())]
        = result[balance]`: each balance is renamed under its value, and the valid assets are
        looked up once per balance, answered by `pairsResp` whenever that reaches the network.
        `rename` stands for `rename_asset` with those assets; lib/functions.py does not define
        it. */
    method RenameBalances(d: Dict<string, real>, rename: string -> string, pairsResp: Response<Option<Dict<string, PairInfo>>>)
      returns (bu: Dict<string, real>)
      modifies this`validSymbols, this`validSymbolsUniversal, this`validAssetsUniversal, this`requests
      ensures bu == FromPairs(RenameKeys(d, rename))
      ensures Caches() == AfterLookups(|d|, old(Caches()), pairsResp)
      ensures requests == old(requests) + LookupsAsked(|d|, old(Caches()), pairsResp)
    {
      bu := [];
      var i := 0;
      while i < |d|
        invariant 0 <= i <= |d|
        invariant bu == FromPairs(RenameKeys(d[..i], rename))
        invariant Caches() == AfterLookups(i, old(Caches()), pairsResp)
        invariant requests == old(requests) + LookupsAsked(i, old(Caches()), pairsResp)
      {
        ghost var before, asked := Caches(), requests;
        assert before == AfterLookups(i, old(Caches()), pairsResp);
        assert AfterLookups(i + 1, old(Caches()), pairsResp) == AfterAssets(false, before, pairsResp);
        assert LookupsAsked(i + 1, old(Caches()), pairsResp) == LookupsAsked(i, old(Caches()), pairsResp) + AssetsAsked(false, before);
        var assets := GetValidAssetsUniversal(false, pairsResp);
        assert requests == asked + AssetsAsked(false, before);
        RenameKeysStep(d, rename, i);
        bu := Put(bu, rename(d[i].0), d[i].1);
        i := i + 1;
      }
      assert d[..i] == d;
    }

    /** getBalances_Universal: the renamed balances of an accepted response, with the asset
        lookups of the renaming loop. */
    method GetBalancesUniversal(refresh: bool, resp: Response<Option<Dict<string, real>>>, rename: string -> string,
                                pairsResp: Response<Option<Dict<string, PairInfo>>>)
      returns (r: Option<Dict<string, real>>)
      modifies this`balanceUniversal, this`validSymbols, this`validSymbolsUniversal, this`validAssetsUniversal, this`requests
      ensures r == Cached(refresh, old(balanceUniversal), BalancesOf(resp, rename))
      ensures balanceUniversal == Stored(old(balanceUniversal), r)
      ensures var n := if !refresh && old(balanceUniversal).Some? then 0 else BalanceCount(resp);
        Caches() == AfterLookups(n, old(Caches()), pairsResp) &&
        requests == old(requests) + Asked(refresh, old(balanceUniversal), BalancePath) + LookupsAsked(n, old(Caches()), pairsResp)
    {
      if refresh || balanceUniversal.None? {
        requests := requests + [BalancePath];
        if resp.status == 200 && resp.body.Some? {
          var bu := RenameBalances(resp.body.value, rename, pairsResp);
          balanceUniversal := Some(bu);
          r := balanceUniversal;
        } else {
          r := None;
        }
      } else {
        r := balanceUniversal;
      }
    }

    /** getValidSymbols: the `AssetPairs` result. */
    method GetValidSymbols(refresh: bool, resp: Response<Option<Dict<string, PairInfo>>>)
      returns (r: Option<Dict<string, PairInfo>>)
      modifies this`validSymbols, this`requests
      ensures r == Cached(refresh, old(validSymbols), Answer(resp))
      ensures validSymbols == Stored(old(validSymbols), r)
      ensures requests == old(requests) + (if !refresh && old(validSymbols).Some? then [] else [AssetPairsPath])
    {
      if refresh || validSymbols.None? {
        requests := requests + [AssetPairsPath];
        if resp.status == 200 && resp.body.Some? {
          validSymbols := resp.body;
          r := validSymbols;
        } else {
          r := None;
        }
      } else {
        r := validSymbols;
      }
    }

    /** getValidSymbols_Universal: the `wsname` of every pair. */
    method GetValidSymbolsUniversal(refresh: bool, resp: Response<Option<Dict<string, PairInfo>>>)
      returns (r: Option<seq<string>>)
      modifies this`validSymbols, this`validSymbolsUniversal, this`requests
      ensures r == Cached(refresh, old(validSymbolsUniversal), SymbolsOf(Cached(refresh, old(validSymbols), Answer(resp))))
      ensures validSymbolsUniversal == Stored(old(validSymbolsUniversal), r)
      ensures Caches() == AfterSymbols(refresh, old(Caches()), resp)
      ensures requests == old(requests) + SymbolsAsked(refresh, old(Caches()))
    {
      if refresh || validSymbolsUniversal.None? {
        var vs := GetValidSymbols(refresh, resp);
        if vs.Some? {
          validSymbolsUniversal := Some(WsNames(vs.value));
          r := validSymbolsUniversal;
        } else {
          r := None;
        }
      } else {
        r := validSymbolsUniversal;
      }
    }

    /** getValidAssets_Universal: the distinct left-hand parts of the universal symbols. */
    method GetValidAssetsUniversal(refresh: bool, resp: Response<Option<Dict<string, PairInfo>>>)
      returns (r: Option<seq<string>>)
      modifies this`validSymbols, this`validSymbolsUniversal, this`validAssetsUniversal, this`requests
      ensures r == Cached(refresh, old(validAssetsUniversal),
        AssetsOfSymbols(Cached(refresh, old(validSymbolsUniversal), SymbolsOf(Cached(refresh, old(validSymbols), Answer(resp))))))
      ensures validAssetsUniversal == Stored(old(validAssetsUniversal), r)
      ensures Caches() == AfterAssets(refresh, old(Caches()), resp)
      ensures requests == old(requests) + AssetsAsked(refresh, old(Caches()))
    {
      if refresh || validAssetsUniversal.None? {
        var su := GetValidSymbolsUniversal(refresh, resp);
        if su.Some? {
          validAssetsUniversal := Some(FirstParts(su.value, '/'));
          r := validAssetsUniversal;
        } else {
          r := None;
        }
      } else {
        r := validAssetsUniversal;
      }
    }

    /** getTrades: the parsed `trades` object of the trade history. */
    method GetTrades(refresh: bool, resp: Response<Option<Dict<string, Dict<string, Entry>>>>)
      returns (r: Option<seq<Row>>)
      modifies this`walletTrades, this`requests
      ensures r == Cached(refresh, old(walletTrades), TradesOf(resp))
      ensures walletTrades == Stored(old(walletTrades), r)
      ensures requests == old(requests) + (if !refresh && old(walletTrades).Some? then [] else [TradesPath])
    {
      if refresh || walletTrades.None? {
        requests := requests + [TradesPath];
        r := None;
        if resp.status == 200 && resp.body.Some? {
          var trades := Lookup(resp.body.value, "trades");
          if trades.Some? {
            var rows := ParseApiResults(trades.value);
            walletTrades := Some(rows);
            r := walletTrades;
          }
        }
      } else {
        r := walletTrades;
      }
    }

    /** getLedger: the parsed `ledger` object without its trade rows; an empty ledger is not
        cached. */
    method GetLedger(refresh: bool, resp: Response<Option<Dict<string, Dict<string, Entry>>>>)
      returns (r: Option<seq<Row>>)
      modifies this`walletLedger, this`requests
      ensures r == Cached(refresh, old(walletLedger), LedgerOf(resp))
      ensures walletLedger == Stored(old(walletLedger), r)
      ensures requests == old(requests) + (if !refresh && old(walletLedger).Some? then [] else [LedgerPath])
    {
      if refresh || walletLedger.None? {
        requests := requests + [LedgerPath];
        r := None;
        if resp.status == 200 && resp.body.Some? {
          var ledger := Lookup(resp.body.value, "ledger");
          if ledger.Some? {
            var rows := ParseApiResults(ledger.value);
            if rows != [] {
              walletLedger := Some(NonTrades(rows));
              r := walletLedger;
            }
          }
        }
      } else {
        r := walletLedger;
      }
    }

    /** getTradesPairs: always a TypeError. With trades it calls `parse_pairs_from_series` with
        three arguments where lib/functions.py takes two, after the valid assets (its third
        argument) are obtained; without trades it returns None, which its caller unpacks. */
    method GetTradesPairs(refresh: bool, resp: Response<Option<Dict<string, Dict<string, Entry>>>>,
                          pairsResp: Response<Option<Dict<string, PairInfo>>>)
      returns (r: Result<(seq<Row>, seq<string>)>)
      modifies this`walletTrades, this`validSymbols, this`validSymbolsUniversal, this`validAssetsUniversal, this`requests
      ensures r == Fail("TypeError")
      ensures var trades := Cached(refresh, old(walletTrades), TradesOf(resp));
        walletTrades == Stored(old(walletTrades), trades) &&
        Caches() == (if trades.Some? then AfterAssets(refresh, old(Caches()), pairsResp) else old(Caches())) &&
        requests == old(requests) + Asked(refresh, old(walletTrades), TradesPath) +
          (if trades.Some? then AssetsAsked(refresh, old(Caches())) else [])
    {
      var trades := GetTrades(refresh, resp);
      if trades.Some? {
        var assets := GetValidAssetsUniversal(refresh, pairsResp);
      }
      r := Fail("TypeError");
    }

    /** getHistoricalPricesForTransactionWallets_Universal: the ledger is obtained, then
        getTradesPairs raises, so no price is ever requested. */
    method HistoricalPricesForTransactions(refresh: bool, ledger: Response<Option<Dict<string, Dict<string, Entry>>>>,
                                           trades: Response<Option<Dict<string, Dict<string, Entry>>>>,
                                           pairsResp: Response<Option<Dict<string, PairInfo>>>)
      returns (r: Result<PriceFrame>)
      modifies this`walletLedger, this`walletTrades, this`validSymbols, this`validSymbolsUniversal,
        this`validAssetsUniversal, this`requests
      ensures r == Fail("TypeError")
      ensures walletLedger == Stored(old(walletLedger), Cached(refresh, old(walletLedger), LedgerOf(ledger)))
      ensures var got := Cached(refresh, old(walletTrades), TradesOf(trades));
        walletTrades == Stored(old(walletTrades), got) &&
        Caches() == (if got.Some? then AfterAssets(refresh, old(Caches()), pairsResp) else old(Caches())) &&
        requests == old(requests) + Asked(refresh, old(walletLedger), LedgerPath) + Asked(refresh, old(walletTrades), TradesPath) +
          (if got.Some? then AssetsAsked(refresh, old(Caches())) else [])
    {
      var walletLedger := GetLedger(refresh, ledger);
      var pairs := GetTradesPairs(refresh, trades, pairsResp);
      r := Fail(pairs.reason);
    }

    /** getHistoricalPricesForNonZeroBalances_Universal: the price table of `ASSET/USD` for
        every non-fiat balance (kraken's balances are not filtered for zero). `fetch` stands for
        this exchange's universal price call. */
    method HistoricalPricesForBalances(native: string, stableCoinAlt: bool, refresh: bool,
                                       resp: Response<Option<Dict<string, real>>>, rename: string -> string,
                                       pairsResp: Response<Option<Dict<string, PairInfo>>>,
                                       alts: map<string, seq<string>>, fetch: string -> Option<PriceFrame>)
      returns (r: Option<Result<PriceFrame>>)
      modifies this`balanceUniversal, this`validSymbols, this`validSymbolsUniversal, this`validAssetsUniversal, this`requests
      ensures var n := if !refresh && old(balanceUniversal).Some? then 0 else BalanceCount(resp);
        Caches() == AfterLookups(n, old(Caches()), pairsResp) &&
        requests == old(requests) + Asked(refresh, old(balanceUniversal), BalancePath) + LookupsAsked(n, old(Caches()), pairsResp)
      ensures var b := Cached(refresh, old(balanceUniversal), BalancesOf(resp, rename));
        balanceUniversal == Stored(old(balanceUniversal), b) &&
        (r.Some? <==> b.Some?) &&
        (r.Some? ==>
          var t := Table(UsdSymbols(Keys(b.value), Config.FiatCurrencies, '/'), native, stableCoinAlt, alts, fetch);
          (r.value.Ok? <==> t.Ok?) && (r.value.Ok? ==> r.value.value == t.value.0))
    {
      var balances := GetBalancesUniversal(refresh, resp, rename, pairsResp);
      r := None;
      if balances.Some? {
        var symbols := UsdSymbols(Keys(balances.value), Config.FiatCurrencies, '/');
        var table, calls := HistoricalPricesList(symbols, native, stableCoinAlt, alts, fetch);
        r := Some(table);
      }
    }
  }
}

=== FILE: kraken_records.dfy ===
/** Kraken ledger and trade entries and the rows they become (`parse_api_results` in
    lib/kraken.py, `parse_api_results` in functions.py and `kraken_parse_api_results` in
    API_functions.py). Times are seconds since the epoch; a row's date is its day number. */
module KrakenRecords {
  import opened Wrappers
  import opened OrderedDicts
  import opened Lists
  import opened Prices

  /** One entry of a `trades` or `ledger` object: its `time`, its `type` and the other fields,
      which are carried over untouched. */
  datatype Entry = Entry(time: int, kind: string, fields: map<string, string>)

  /** A row of the parsed frame, indexed by the entry's id. */
  datatype Row = Row(id: string, time: int, date: int, kind: string, fields: map<string, string>)

  function RowOf(id: string, e: Entry): Row {
    Row(id, e.time, Day(e.time), e.kind, e.fields)
  }

  /** The frame of a response object: one row per entry, in response order, each keyed by its id
      and dated by the day of its time. */
  function Rows(entries: Dict<string, Entry>): (rows: seq<Row>)
    ensures |rows| == |entries|
    ensures forall i :: 0 <= i < |rows| ==> rows[i].id == entries[i].0 && rows[i].kind == entries[i].1.kind
    ensures forall i :: 0 <= i < |rows| ==>
      (rows[i].date * SecondsPerDay <= entries[i].1.time < rows[i].date * SecondsPerDay + SecondsPerDay)
  {
    seq(|entries|, i requires 0 <= i < |entries| => RowOf(entries[i].0, entries[i].1))
  }

  /** The loop of `parse_api_results`: a one-row frame per entry, concatenated. */
  method ParseApiResults(entries: Dict<string, Entry>) returns (rows: seq<Row>)
    ensures rows == Rows(entries)
  {
    rows := [];
    var i := 0;
    while i < |entries|
      invariant 0 <= i <= |entries|
      invariant rows == Rows(entries[..i])
    {
      rows := rows + [RowOf(entries[i].0, entries[i].1)];
      i := i + 1;
    }
    assert entries[..i] == entries;
  }

  /** `kraken_parse_api_results` (API_functions.py): the rows of `result[result_type]`, KeyError
      when `result` lacks the object. A body without `result` prints its `error` member and
      gives an empty frame, or raises KeyError when it has no `error` member either. */
  method ParseResultObject(result: Option<Dict<string, Dict<string, Entry>>>, hasError: bool, resultType: string)
    returns (r: Result<seq<Row>>)
    ensures result.None? ==> r == (if hasError then Ok([]) else Fail("KeyError"))
    ensures result.Some? ==>
      match Lookup(result.value, resultType)
      case None => r == Fail("KeyError")
      case Some(entries) => r == Ok(Rows(entries))
  {
    if result.None? {
      if !hasError {
        return Fail("KeyError");
      }
      return Ok([]);
    }
    var entries := Lookup(result.value, resultType);
    if entries.None? {
      return Fail("KeyError");
    }
    var rows := ParseApiResults(entries.value);
    r := Ok(rows);
  }

  /** `parse_api_results` (functions.py): as above, except that a body without `result` is
      indexed all the same after the message is printed, and raises KeyError. */
  method ParseResultObjectOlder(result: Option<Dict<string, Dict<string, Entry>>>, resultType: string)
    returns (r: Result<seq<Row>>)
    ensures result.None? ==> r == Fail("KeyError")
    ensures result.Some? ==>
      match Lookup(result.value, resultType)
      case None => r == Fail("KeyError")
      case Some(entries) => r == Ok(Rows(entries))
  {
    if result.None? {
      return Fail("KeyError");
    }
    r := ParseResultObject(result, true, resultType);
  }

  predicate IsTrade(r: Row) {
    r.kind == "trade"
  }

  /** `df[df.type != 'trade']`. */
  function NonTrades(rows: seq<Row>): (r: seq<Row>)
    ensures forall x :: x in r <==> x in rows && x.kind != "trade"
  {
    RejectMembers(rows, IsTrade);
    Reject(rows, IsTrade)
  }
}

=== FILE: lists.dfy ===
/** Python list behaviour the model relies on: `list.remove`, filtering, and the pattern
    `for x in ls: if drop(x): ls.remove(x)`, which skips the element after every removal. */
module Lists {

  /** `s.remove(x)`: the first element equal to `x` taken out (nothing when `x` is absent; the
      ValueError Python raises then cannot happen at the call sites, which remove an element
      just read from the list). */
  function RemoveFirst<T(==)>(s: seq<T>, x: T): (r: seq<T>)
    ensures x in s ==> |r| == |s| - 1 && multiset(r) == multiset(s) - multiset{x}
    ensures x !in s ==> r == s
  {
    if s == [] then []
    else if s[0] == x then
      assert s == [s[0]] + s[1..];
      s[1..]
    else
      assert s == [s[0]] + s[1..];
      [s[0]] + RemoveFirst(s[1..], x)
  }

  lemma {:induction false} RemoveFirstAppend<T>(a: seq<T>, b: seq<T>, x: T)
    requires x !in a
    ensures RemoveFirst(a + b, x) == a + RemoveFirst(b, x)
  {
    if a == [] {
      assert a + b == b;
    } else {
      assert (a + b)[1..] == a[1..] + b;
      RemoveFirstAppend(a[1..], b, x);
      assert [a[0]] + (a[1..] + RemoveFirst(b, x)) == a + RemoveFirst(b, x);
    }
  }

  /** What is removed is the first occurrence of `x`: when `x` first occurs at `i`, the
      elements before `i` are kept, in order, and so are the ones after it. */
  lemma RemoveFirstAt<T>(s: seq<T>, x: T, i: nat)
    requires i < |s| && s[i] == x && x !in s[..i]
    ensures RemoveFirst(s, x) == s[..i] + s[i + 1..]
  {
    assert s == s[..i] + s[i..];
    RemoveFirstAppend(s[..i], s[i..], x);
    assert s[i..][0] == x;
    assert s[i..][1..] == s[i + 1..];
  }

  /** The elements of `s` that `drop` does not select, in order. */
  function Reject<T>(s: seq<T>, drop: T -> bool): (r: seq<T>)
    ensures |r| <= |s|
    ensures forall x :: x in r ==> !drop(x) && x in s
  {
    if s == [] then []
    else
      var front := s[..|s| - 1];
      assert forall x :: x in front ==> x in s;
      Reject(front, drop) + (if drop(s[|s| - 1]) then [] else [s[|s| - 1]])
  }

  /** No two neighbouring elements are both to be dropped. */
  predicate NoAdjacent<T>(s: seq<T>, drop: T -> bool) {
    forall i :: 0 <= i < |s| - 1 ==> !(drop(s[i]) && drop(s[i + 1]))
  }

  /** What `for x in ls: if drop(x): ls.remove(x)` leaves in `ls`, starting at list position `idx`.
      Python's list iterator reads position `idx` and moves to `idx + 1` even when the element
      it read was removed, so the element that slid into its place is never looked at. */
  function RemoveWhileIterating<T(==)>(s: seq<T>, drop: T -> bool, idx: nat): seq<T>
    decreases |s| - idx
  {
    if idx >= |s| then s
    else if drop(s[idx]) then RemoveWhileIterating(RemoveFirst(s, s[idx]), drop, idx + 1)
    else RemoveWhileIterating(s, drop, idx + 1)
  }

  /** The loop itself, over a list value. */
  method RemoveWhileIteratingLoop<T(==)>(ls: seq<T>, drop: T -> bool) returns (r: seq<T>)
    ensures r == RemoveWhileIterating(ls, drop, 0)
  {
    r := ls;
    var idx := 0;
    while idx < |r|
      invariant RemoveWhileIterating(r, drop, idx) == RemoveWhileIterating(ls, drop, 0)
      decreases |r| - idx
    {
      var x := r[idx];
      if drop(x) {
        r := RemoveFirst(r, x);
      }
      idx := idx + 1;
    }
  }

  /** The loop only ever removes elements to be dropped: every other element keeps its
      multiplicity, and nothing is added. */
  lemma {:induction false} RemoveWhileIteratingKeeps<T>(s: seq<T>, drop: T -> bool, idx: nat)
    ensures multiset(RemoveWhileIterating(s, drop, idx)) <= multiset(s)
    ensures forall y :: !drop(y) ==> multiset(RemoveWhileIterating(s, drop, idx))[y] == multiset(s)[y]
    decreases |s| - idx
  {
    if idx < |s| {
      var x := s[idx];
      assert x in s;
      if drop(x) {
        var t := RemoveFirst(s, x);
        assert RemoveWhileIterating(s, drop, idx) == RemoveWhileIterating(t, drop, idx + 1);
        RemoveWhileIteratingKeeps(t, drop, idx + 1);
        forall y | !drop(y) ensures multiset(t)[y] == multiset(s)[y] {
          assert y != x;
        }
      } else {
        assert RemoveWhileIterating(s, drop, idx) == RemoveWhileIterating(s, drop, idx + 1);
        RemoveWhileIteratingKeeps(s, drop, idx + 1);
      }
    }
  }

  lemma {:induction false} RejectPrefix<T>(s: seq<T>, drop: T -> bool, k: nat)
    requires k < |s|
    ensures Reject(s[..k + 1], drop) == Reject(s[..k], drop) + (if drop(s[k]) then [] else [s[k]])
  {
    assert s[..k + 1][..k] == s[..k];
  }

  /** With no two neighbours to drop, the loop removes exactly the elements to drop. */
  lemma RemoveWhileIteratingRejects<T>(s: seq<T>, drop: T -> bool)
    requires NoAdjacent(s, drop)
    ensures RemoveWhileIterating(s, drop, 0) == Reject(s, drop)
  {
    assert s[..0] == [] && s[0..] == s;
    assert Reject(s[..0], drop) + s[0..] == s;
    RejectedFrom(s, drop, 0);
  }

  /** One dropped element at original position `k` while the loop state is the kept part of
      `s[..k]` followed by `s[k..]`: it is removed, and the iterator passes over `s[k + 1]`. */
  lemma DropStep<T>(s: seq<T>, drop: T -> bool, k: nat)
    requires k < |s| && drop(s[k])
    ensures RemoveFirst(Reject(s[..k], drop) + s[k..], s[k]) == Reject(s[..k + 1], drop) + s[k + 1..]
  {
    var front := Reject(s[..k], drop);
    assert s[k] !in front;
    assert s[k..] == [s[k]] + s[k + 1..];
    RemoveFirstAppend(front, s[k..], s[k]);
    RejectPrefix(s, drop, k);
  }

  /** The loop state after the original positions `..k` have been dealt with: the kept part of
      `s[..k]` followed by `s[k..]` untouched, with the iterator just past the kept part. */
  lemma {:induction false} RejectedFrom<T>(s: seq<T>, drop: T -> bool, k: nat)
    requires NoAdjacent(s, drop) && k <= |s|
    ensures RemoveWhileIterating(Reject(s[..k], drop) + s[k..], drop, |Reject(s[..k], drop)|) == Reject(s, drop)
    decreases |s| - k
  {
    var front := Reject(s[..k], drop);
    var r := front + s[k..];
    if k == |s| {
      assert s[..k] == s;
      assert r == front;
    } else {
      assert r[|front|] == s[k];
      if !drop(s[k]) {
        SkipKept(s, drop, k);
        RejectedFrom(s, drop, k + 1);
      } else {
        DropStep(s, drop, k);
        DroppedTail(s, drop, k);
      }
    }
  }

  /** After a drop at position `k`, the loop finishes with the kept elements (the iterator has
      passed over `s[k + 1]`, which is kept since no two neighbours are dropped). */
  lemma {:induction false} DroppedTail<T>(s: seq<T>, drop: T -> bool, k: nat)
    requires NoAdjacent(s, drop) && k < |s| && drop(s[k])
    ensures RemoveWhileIterating(Reject(s[..k + 1], drop) + s[k + 1..], drop, |Reject(s[..k], drop)| + 1) == Reject(s, drop)
    decreases |s| - k, 0
  {
    RejectPrefix(s, drop, k);
    if k + 1 == |s| {
      assert s[..k + 1] == s;
      assert Reject(s, drop) + s[k + 1..] == Reject(s, drop);
    } else {
      SkipKept(s, drop, k + 1);
      RejectedFrom(s, drop, k + 2);
    }
  }

  /** The kept element the iterator passes over moves into the kept part. */
  lemma SkipKept<T>(s: seq<T>, drop: T -> bool, j: nat)
    requires j < |s| && !drop(s[j])
    ensures Reject(s[..j], drop) + s[j..] == Reject(s[..j + 1], drop) + s[j + 1..]
    ensures |Reject(s[..j + 1], drop)| == |Reject(s[..j], drop)| + 1
  {
    RejectPrefix(s, drop, j);
    var front := Reject(s[..j], drop);
    assert s[j..] == [s[j]] + s[j + 1..];
    assert front + s[j..] == (front + [s[j]]) + s[j + 1..];
  }

  lemma {:induction false} RejectMembers<T>(s: seq<T>, drop: T -> bool)
    ensures forall x :: x in Reject(s, drop) <==> x in s && !drop(x)
  {
    if s != [] {
      var n := |s| - 1;
      RejectMembers(s[..n], drop);
      assert s == s[..n] + [s[n]];
    }
  }
}

=== FILE: pair_split.dfy ===
/** Splitting a raw exchange pair such as `XXBTZUSD` into two accepted currencies
    (`split_pair` and `parse_pairs_from_series` in lib/functions.py and in functions.py). */
module PairSplit {
  import opened Wrappers
  import opened Strings

  /** One spelling tried by split_pair: an accepted currency and the variant matched for it. */
  datatype Candidate = Candidate(currency: string, variant: string)

  /** The variants of one currency, in the order split_pair tries them. */
  function Variants(c: string): seq<Candidate> {
    [Candidate(c, c), Candidate(c, "X" + c), Candidate(c, "XX" + c), Candidate(c, "Z" + c)]
  }

  /** Every variant of every accepted currency, in the order of the two nested loops. */
  function Candidates(accepted: seq<string>): (cs: seq<Candidate>)
    ensures |cs| == 4 * |accepted|
    ensures forall k :: 0 <= k < |cs| ==> cs[k].currency in accepted
  {
    if accepted == [] then []
    else
      var front := accepted[..|accepted| - 1];
      assert forall x :: x in front ==> x in accepted;
      Candidates(front) + Variants(accepted[|accepted| - 1])
  }

  lemma {:induction false} CandidatesAt(accepted: seq<string>, i: nat, j: nat)
    requires i < |accepted| && j < 4
    ensures Candidates(accepted)[4 * i + j] == Variants(accepted[i])[j]
  {
    var n := |accepted| - 1;
    if i < n {
      CandidatesAt(accepted[..n], i, j);
    }
  }

  /** Whether the pair starts (atEnd false) or ends (atEnd true) with the candidate's variant. */
  predicate Matches(pair: string, c: Candidate, atEnd: bool) {
    if atEnd then EndsWith(pair, c.variant) else StartsWith(pair, c.variant)
  }

  /** The first candidate that matches, as the `found` flag lets only the first one through. */
  function FirstMatch(pair: string, cs: seq<Candidate>, atEnd: bool): (m: Option<Candidate>)
    ensures m.Some? ==> m.value in cs && Matches(pair, m.value, atEnd)
  {
    if cs == [] then None
    else if Matches(pair, cs[0], atEnd) then Some(cs[0])
    else FirstMatch(pair, cs[1..], atEnd)
  }

  function Short(m: Option<Candidate>): string {
    if m.Some? then m.value.currency else ""
  }

  /** The pair split_pair returns: the currency of the first variant the pair starts with and
      of the first variant it ends with, `""` where there is none. */
  function SplitSpec(pair: string, accepted: seq<string>): (r: (string, string))
    ensures r.0 == "" || r.0 in accepted
    ensures r.1 == "" || r.1 in accepted
  {
    var cs := Candidates(accepted);
    (Short(FirstMatch(pair, cs, false)), Short(FirstMatch(pair, cs, true)))
  }

  /** FirstMatch finds the first matching candidate, and None exactly when nothing matches. */
  lemma {:induction false} FirstMatchCharacterised(pair: string, cs: seq<Candidate>, atEnd: bool)
    ensures FirstMatch(pair, cs, atEnd).None? <==> forall k :: 0 <= k < |cs| ==> !Matches(pair, cs[k], atEnd)
    ensures FirstMatch(pair, cs, atEnd).Some? ==>
      exists k :: 0 <= k < |cs| && cs[k] == FirstMatch(pair, cs, atEnd).value
        && forall j :: 0 <= j < k ==> !Matches(pair, cs[j], atEnd)
  {
    if cs != [] && !Matches(pair, cs[0], atEnd) {
      FirstMatchCharacterised(pair, cs[1..], atEnd);
      if FirstMatch(pair, cs, atEnd).Some? {
        var k :| 0 <= k < |cs[1..]| && cs[1..][k] == FirstMatch(pair, cs, atEnd).value
          && forall j :: 0 <= j < k ==> !Matches(pair, cs[1..][j], atEnd);
        assert cs[k + 1] == FirstMatch(pair, cs, atEnd).value;
        assert forall j :: 0 <= j < k + 1 ==> !Matches(pair, cs[j], atEnd) by {
          forall j | 0 <= j < k + 1 ensures !Matches(pair, cs[j], atEnd) {
            if j > 0 { assert cs[j] == cs[1..][j - 1]; }
          }
        }
      } else {
        forall k | 0 <= k < |cs| ensures !Matches(pair, cs[k], atEnd) {
          if k > 0 { assert cs[k] == cs[1..][k - 1]; }
        }
      }
    }
  }

  /** A matching candidate preceded by no matching one is the one FirstMatch returns. */
  lemma {:induction false} FirstMatchIsFirst(pair: string, cs: seq<Candidate>, atEnd: bool, k: nat)
    requires k < |cs| && Matches(pair, cs[k], atEnd)
    requires forall j :: 0 <= j < k ==> !Matches(pair, cs[j], atEnd)
    ensures FirstMatch(pair, cs, atEnd) == Some(cs[k])
  {
    if k > 0 {
      assert !Matches(pair, cs[0], atEnd);
      FirstMatchIsFirst(pair, cs[1..], atEnd, k - 1);
    }
  }

  lemma {:induction false} FirstMatchAppend(pair: string, cs: seq<Candidate>, c: Candidate, atEnd: bool)
    ensures FirstMatch(pair, cs + [c], atEnd) ==
      if FirstMatch(pair, cs, atEnd).Some? then FirstMatch(pair, cs, atEnd)
      else if Matches(pair, c, atEnd) then Some(c) else None
  {
    if cs != [] {
      assert (cs + [c])[1..] == cs[1..] + [c];
      FirstMatchAppend(pair, cs[1..], c, atEnd);
    } else {
      assert [c][1..] == [];
    }
  }

  /** A bare accepted ticker splits into itself on both sides, as the doc example
      `split_pair('VTC') == ['VTC', 'VTC']` says, unless a variant tried earlier is already a
      prefix or a suffix of it. */
  lemma {:induction false} BareTicker(accepted: seq<string>, i: nat)
    requires i < |accepted|
    requires forall k :: 0 <= k < 4 * i ==>
      !Matches(accepted[i], Candidates(accepted)[k], false) && !Matches(accepted[i], Candidates(accepted)[k], true)
    ensures SplitSpec(accepted[i], accepted) == (accepted[i], accepted[i])
  {
    var c := accepted[i];
    var cs := Candidates(accepted);
    CandidatesAt(accepted, i, 0);
    assert cs[4 * i] == Candidate(c, c);
    assert StartsWith(c, c) by { assert c[..|c|] == c; }
    assert EndsWith(c, c) by { assert c[|c| - |c|..] == c; }
    FirstMatchIsFirst(c, cs, false, 4 * i);
    FirstMatchIsFirst(c, cs, true, 4 * i);
  }

  /** The spelling Kraken uses, `XXBTZUSD`, splits into `XBT` (found as `XXBT`) and `USD`. */
  lemma KrakenSpelling()
    ensures SplitSpec("XXBTZUSD", ["USD", "XBT"]) == ("XBT", "USD")
  {
    assert ["USD", "XBT"][..1] == ["USD"] && ["USD"][..0] == [];
    assert Candidates(["USD", "XBT"]) == Variants("USD") + Variants("XBT");
    KrakenPrefix();
    KrakenSuffix();
  }

  lemma KrakenPrefix()
    ensures FirstMatch("XXBTZUSD", Variants("USD") + Variants("XBT"), false) == Some(Candidate("XBT", "XXBT"))
  {
    var pair := "XXBTZUSD";
    var cs := Variants("USD") + Variants("XBT");
    assert cs[..5] == Variants("USD") + [Candidate("XBT", "XBT")];
    StartsWithDiffers(pair, "USD", 0);
    StartsWithDiffers(pair, "XUSD", 1);
    StartsWithDiffers(pair, "XXUSD", 2);
    StartsWithDiffers(pair, "ZUSD", 0);
    StartsWithDiffers(pair, "XBT", 1);
    assert StartsWith(pair, "XXBT");
    FirstMatchIsFirst(pair, cs, false, 5);
  }

  lemma KrakenSuffix()
    ensures FirstMatch("XXBTZUSD", Variants("USD") + Variants("XBT"), true) == Some(Candidate("USD", "USD"))
  {
    var pair := "XXBTZUSD";
    assert EndsWith(pair, "USD");
    FirstMatchIsFirst(pair, Variants("USD") + Variants("XBT"), true, 0);
  }

  /** The state of one `return_pair` dictionary. */
  datatype Side = Side(found: bool, currencyShort: string, currencyLong: string)

  function SideOf(m: Option<Candidate>): Side {
    if m.Some? then Side(true, m.value.currency, m.value.variant) else Side(false, "", "")
  }

  /** The body of the inner loop for one variant `c`: the whole-string branch (only in the
      lib/functions.py version, `whole`), then the prefix and the suffix checks. */
  method CheckVariant(pair: string, c: Candidate, whole: bool, left: Side, right: Side, ghost done: seq<Candidate>)
    returns (left': Side, right': Side)
    requires left == SideOf(FirstMatch(pair, done, false)) && right == SideOf(FirstMatch(pair, done, true))
    ensures left' == SideOf(FirstMatch(pair, done + [c], false)) && right' == SideOf(FirstMatch(pair, done + [c], true))
  {
    FirstMatchAppend(pair, done, c, false);
    FirstMatchAppend(pair, done, c, true);
    left', right' := left, right;
    if whole && pair == c.variant && !left'.found && !right'.found {
      assert pair[..|c.variant|] == c.variant && pair[|pair| - |c.variant|..] == c.variant;
      left' := Side(true, c.currency, c.variant);
      right' := Side(true, c.currency, c.variant);
    }
    if StartsWith(pair, c.variant) && !left'.found {
      left' := Side(true, c.currency, c.variant);
    }
    if EndsWith(pair, c.variant) && !right'.found {
      right' := Side(true, c.currency, c.variant);
    }
  }

  /** The inner loop over the four variants of one accepted currency. */
  method CheckCurrency(pair: string, curr: string, whole: bool, left: Side, right: Side, ghost done: seq<Candidate>)
    returns (left': Side, right': Side)
    requires left == SideOf(FirstMatch(pair, done, false)) && right == SideOf(FirstMatch(pair, done, true))
    ensures left' == SideOf(FirstMatch(pair, done + Variants(curr), false))
    ensures right' == SideOf(FirstMatch(pair, done + Variants(curr), true))
  {
    var variants := [curr, "X" + curr, "XX" + curr, "Z" + curr];
    left', right' := left, right;
    var j := 0;
    assert done + Variants(curr)[..0] == done;
    while j < |variants|
      invariant 0 <= j <= |variants|
      invariant left' == SideOf(FirstMatch(pair, done + Variants(curr)[..j], false))
      invariant right' == SideOf(FirstMatch(pair, done + Variants(curr)[..j], true))
    {
      assert done + Variants(curr)[..j + 1] == (done + Variants(curr)[..j]) + [Candidate(curr, variants[j])];
      left', right' := CheckVariant(pair, Candidate(curr, variants[j]), whole, left', right', done + Variants(curr)[..j]);
      j := j + 1;
    }
    assert Variants(curr)[..4] == Variants(curr);
  }

  /** split_pair in lib/functions.py, whose loop also has a whole-string branch. */
  method SplitPair(pair: string, accepted: seq<string>) returns (r: (string, string))
    ensures r == SplitSpec(pair, accepted)
  {
    var left, right := Side(false, "", ""), Side(false, "", "");
    var i := 0;
    while i < |accepted|
      invariant 0 <= i <= |accepted|
      invariant left == SideOf(FirstMatch(pair, Candidates(accepted[..i]), false))
      invariant right == SideOf(FirstMatch(pair, Candidates(accepted[..i]), true))
    {
      assert accepted[..i + 1][..i] == accepted[..i];
      left, right := CheckCurrency(pair, accepted[i], true, left, right, Candidates(accepted[..i]));
      i := i + 1;
    }
    assert accepted[..i] == accepted;
    r := (left.currencyShort, right.currencyShort);
  }

  /** split_pair in functions.py: the same loop without the whole-string branch. It returns what
      the lib/functions.py version returns, for every pair and every accepted list. */
  method SplitPairOlder(pair: string, accepted: seq<string>) returns (r: (string, string))
    ensures r == SplitSpec(pair, accepted)
  {
    var left, right := Side(false, "", ""), Side(false, "", "");
    var i := 0;
    while i < |accepted|
      invariant 0 <= i <= |accepted|
      invariant left == SideOf(FirstMatch(pair, Candidates(accepted[..i]), false))
      invariant right == SideOf(FirstMatch(pair, Candidates(accepted[..i]), true))
    {
      assert accepted[..i + 1][..i] == accepted[..i];
      left, right := CheckCurrency(pair, accepted[i], false, left, right, Candidates(accepted[..i]));
      i := i + 1;
    }
    assert accepted[..i] == accepted;
    r := (left.currencyShort, right.currencyShort);
  }

  /** parse_pairs_from_series: the series (as strings) split into the `pair_1` and `pair_2`
      columns, one split per row. */
  function ParsePairsFromSeries(series: seq<string>, accepted: seq<string>): (r: (seq<(string, string)>, seq<string>))
    ensures r.1 == ["pair_1", "pair_2"]
    ensures |r.0| == |series|
    ensures forall i :: 0 <= i < |series| ==> (r.0[i].0 == "" || r.0[i].0 in accepted) && (r.0[i].1 == "" || r.0[i].1 in accepted)
  {
    (seq(|series|, i requires 0 <= i < |series| => SplitSpec(series[i], accepted)), ["pair_1", "pair_2"])
  }
}

=== FILE: prices.dfy ===
/** Daily price data as the exchange classes and the public-API functions handle it: OHLC candles
    from a response, and price frames with one column per symbol. A column is the list of its
    (time, price) rows; frames joined side by side keep each column's own rows, so the date
    alignment of pandas' outer join is not modelled. */
module Prices {
  import opened Wrappers
  import opened OrderedDicts

  const SecondsPerDay: int := 86400

  /** The day of a time: `pd.to_datetime(t, unit='s').dt.date`, as days since the epoch. */
  function Day(t: int): (d: int)
    ensures d * SecondsPerDay <= t < d * SecondsPerDay + SecondsPerDay
  {
    t / SecondsPerDay
  }

  /** One daily candle; only the fields the core reads. */
  datatype Candle = Candle(unix: int, high: real, low: real)

  type Series = seq<(int, real)>

  /** Columns by name, in order. */
  type PriceFrame = Dict<string, Series>

  /** `(high + low) / 2` per date: the price column built from a list of candles. */
  function Midpoints(candles: seq<Candle>): (s: Series)
    ensures |s| == |candles|
    ensures forall k :: 0 <= k < |s| ==>
      (s[k].0 == candles[k].unix && (candles[k].low <= s[k].1 <= candles[k].high || candles[k].high <= s[k].1 <= candles[k].low))
    ensures forall k :: 0 <= k < |s| ==> s[k].1 - candles[k].low == candles[k].high - s[k].1
  {
    seq(|candles|, k requires 0 <= k < |candles| => (candles[k].unix, (candles[k].high + candles[k].low) / 2.0))
  }

  /** The universal price frame of a symbol: one column named after the symbol holding the
      midpoint of every candle, or nothing when there are no candles. */
  function PriceColumn(symbol: string, candles: seq<Candle>): (r: Option<PriceFrame>)
    ensures r.Some? <==> candles != []
    ensures r.Some? ==> |r.value| == 1 && r.value[0].0 == symbol && r.value[0].1 == Midpoints(candles)
  {
    if candles == [] then None else Some([(symbol, Midpoints(candles))])
  }

  /** A value of the `result` object of a kraken OHLC response: the candles of a pair, or the
      `last` cursor. */
  datatype OhlcEntry = PairCandles(candles: seq<Candle>) | Last(since: int)

  /** The candles of a kraken OHLC `result`: those of its first key unless that key is `last`,
      then those of its second key (an IndexError when the keys run out). */
  function SelectOhlc(result: Dict<string, OhlcEntry>): (r: Result<seq<Candle>>)
    ensures r.Ok? ==> exists i :: 0 <= i < 2 && i < |result| && result[i].1 == PairCandles(r.value)
    ensures r.Ok? && result[0].0 != "last" ==> result[0].1 == PairCandles(r.value)
    ensures |result| >= 1 && result[0].0 != "last" && result[0].1.PairCandles? ==> r.Ok?
  {
    if result == [] then Fail("IndexError")
    else
      var i := if result[0].0 != "last" then 0 else 1;
      if i >= |result| then Fail("IndexError")
      else
        match result[i].1
        case PairCandles(candles) => Ok(candles)
        case Last(_) => Fail("ValueError")
  }
}

=== FILE: remap.dfy ===
/** Renaming legacy tickers (`remap_and_dedupe_assets` and `remap_series`, identical in
    lib/functions.py and functions.py). The remap table is a Python dictionary from a legacy
    ticker to its canonical name, in insertion order. */
module Remap {
  import opened Wrappers
  import opened Strings
  import opened OrderedDicts
  import opened Lists
  import Config

  /** `remap_assets[asset]` when `asset` is a key, the asset itself otherwise. */
  function RemapValue(remap: Dict<string, string>, asset: string): string {
    match Lookup(remap, asset)
    case Some(v) => v
    case None => asset
  }

  /** The list after the first loop of remap_and_dedupe_assets. */
  function Remapped(remap: Dict<string, string>, ls: seq<string>): (r: seq<string>)
    ensures |r| == |ls|
  {
    seq(|ls|, i requires 0 <= i < |ls| => RemapValue(remap, ls[i]))
  }

  /** The entries the second loop removes: `''` and the text of a missing value. */
  predicate IsDud(asset: string) {
    asset == "" || asset == "nan"
  }

  /** The caller's list, which remap_and_dedupe_assets rewrites in place. */
  class AssetList {
    var items: seq<string>

    constructor(items: seq<string>)
      ensures this.items == items
    {
      this.items := items;
    }
  }

  /** remap_and_dedupe_assets: rename every entry of the caller's list that is a remap key, then
      remove duds while iterating over the list, and return the distinct entries left. */
  method RemapAndDedupeAssets(ls: AssetList, remap: Dict<string, string>) returns (assets: set<string>)
    modifies ls
    ensures ls.items == RemoveWhileIterating(Remapped(remap, old(ls.items)), IsDud, 0)
    ensures assets == set x | x in ls.items
  {
    ghost var original := ls.items;
    var i := 0;
    while i < |ls.items|
      invariant 0 <= i <= |ls.items| == |original|
      invariant ls.items == Remapped(remap, original)[..i] + original[i..]
    {
      var asset := ls.items[i];
      RemapStep(remap, original, i);
      match Lookup(remap, asset) {
        case Some(v) => ls.items := ls.items[i := v];
        case None =>
      }
      i := i + 1;
    }
    assert ls.items == Remapped(remap, original);
    ls.items := RemoveWhileIteratingLoop(ls.items, IsDud);
    assets := set x | x in ls.items;
  }

  /** One pass of the renaming loop: position `i` takes its renamed value. */
  lemma RemapStep(remap: Dict<string, string>, original: seq<string>, i: nat)
    requires i < |original|
    ensures var cur := Remapped(remap, original)[..i] + original[i..];
      cur[i] == original[i] &&
      cur[i := RemapValue(remap, original[i])] == Remapped(remap, original)[..i + 1] + original[i + 1..]
  {
  }

  /** What remap_and_dedupe_assets returns, for a list in which no two neighbours are duds
      after renaming: exactly the renamed non-dud entries. */
  lemma {:induction false} DedupeWithoutAdjacentDuds(remap: Dict<string, string>, ls: seq<string>)
    requires NoAdjacent(Remapped(remap, ls), IsDud)
    ensures forall x :: x in RemoveWhileIterating(Remapped(remap, ls), IsDud, 0) <==> x in Remapped(remap, ls) && !IsDud(x)
  {
    var m := Remapped(remap, ls);
    RemoveWhileIteratingRejects(m, IsDud);
    RejectMembers(m, IsDud);
  }

  /** Whatever the neighbours, the returned entries are all renamed entries of the list, and every
      renamed entry that is not a dud is among them. */
  lemma DedupeKeepsNonDuds(remap: Dict<string, string>, ls: seq<string>)
    ensures forall x :: x in RemoveWhileIterating(Remapped(remap, ls), IsDud, 0) ==> x in Remapped(remap, ls)
    ensures forall x :: x in Remapped(remap, ls) && !IsDud(x) ==> x in RemoveWhileIterating(Remapped(remap, ls), IsDud, 0)
  {
    var m := Remapped(remap, ls);
    RemoveWhileIteratingKeeps(m, IsDud, 0);
    var r := RemoveWhileIterating(m, IsDud, 0);
    forall x | x in r ensures x in m {
      assert multiset(r)[x] > 0;
    }
    forall x | x in m && !IsDud(x) ensures x in r {
      assert multiset(m)[x] > 0;
    }
  }

  /** Two neighbouring duds: the second one slides into the position the iterator has just read,
      is never looked at, and is returned. */
  lemma AdjacentDudsSurvive()
    ensures RemoveWhileIterating(["", "", "BTC"], IsDud, 0) == ["", "BTC"]
  {
    assert RemoveFirst(["", "", "BTC"], "") == ["", "BTC"];
    assert RemoveWhileIterating(["", "BTC"], IsDud, 1) == ["", "BTC"];
  }

  /** A table whose values are not keys: renaming once more changes nothing. */
  lemma {:induction false} RemapIdempotent(remap: Dict<string, string>, asset: string)
    requires forall i :: 0 <= i < |remap| ==> remap[i].1 !in Keys(remap)
    ensures RemapValue(remap, RemapValue(remap, asset)) == RemapValue(remap, asset)
  {
    match Lookup(remap, asset)
    case Some(v) =>
      LookupValue(remap, asset);
      LookupAbsent(remap, v);
    case None =>
  }

  lemma ConfigRemapIdempotent(asset: string)
    ensures RemapValue(Config.RemapAssets, RemapValue(Config.RemapAssets, asset)) == RemapValue(Config.RemapAssets, asset)
  {
    assert Keys(Config.RemapAssets) == ["XDG", "XBT"];
    RemapIdempotent(Config.RemapAssets, asset);
  }

  /** `s` after `s.str.replace(asset, remap_assets[asset])` for every key in table order. */
  function RemapString(remap: Dict<string, string>, s: string): string {
    if remap == [] then s
    else
      var n := |remap| - 1;
      ReplaceAll(RemapString(remap[..n], s), remap[n].0, remap[n].1)
  }

  /** remap_series: the column rewritten once per table entry, in table order. */
  method RemapSeries(column: seq<string>, remap: Dict<string, string>) returns (r: seq<string>)
    ensures |r| == |column|
    ensures forall i :: 0 <= i < |column| ==> r[i] == RemapString(remap, column[i])
  {
    r := column;
    var j := 0;
    while j < |remap|
      invariant 0 <= j <= |remap|
      invariant |r| == |column|
      invariant forall i :: 0 <= i < |column| ==> r[i] == RemapString(remap[..j], column[i])
    {
      var (asset, canonical) := remap[j];
      assert remap[..j + 1][..j] == remap[..j];
      r := seq(|r|, i requires 0 <= i < |r| => ReplaceAll(r[i], asset, canonical));
      j := j + 1;
    }
    assert remap[..j] == remap;
  }

  /** A value in which no key occurs is left unchanged. */
  lemma {:induction false} RemapStringAbsent(remap: Dict<string, string>, s: string)
    requires forall i :: 0 <= i < |remap| ==> remap[i].0 != [] && !Contains(s, remap[i].0)
    ensures RemapString(remap, s) == s
  {
    if remap != [] {
      var n := |remap| - 1;
      RemapStringAbsent(remap[..n], s);
      ReplaceAbsent(s, remap[n].0, remap[n].1);
    }
  }

  /** With the configured table a value equal to a legacy ticker becomes its canonical name. */
  lemma ConfigRemapSeries()
    ensures RemapString(Config.RemapAssets, "XDG") == "DOGE"
    ensures RemapString(Config.RemapAssets, "XBT") == "BTC"
  {
    var t := Config.RemapAssets;
    assert t[..1] == [("XDG", "DOGE")] && t[..1][..0] == [];
    ReplaceWhole("XDG", "DOGE");
    MissingCharNotContained("DOGE", "XBT", 0);
    ReplaceAbsent("DOGE", "XBT", "BTC");
    MissingCharNotContained("XBT", "XDG", 1);
    ReplaceAbsent("XBT", "XDG", "DOGE");
    ReplaceWhole("XBT", "BTC");
  }

  /** The configured table renames the four tickers XDG, XBT, DOGE and BTC the same way in a list
      and in a series; EmbeddedTickerDisagrees shows that other tickers can differ. */
  lemma ConfigRemapAgrees(asset: string)
    requires asset in {"XDG", "XBT", "DOGE", "BTC"}
    ensures RemapValue(Config.RemapAssets, asset) == RemapString(Config.RemapAssets, asset)
  {
    ConfigRemapSeries();
    var t := Config.RemapAssets;
    assert t[..1] == [("XDG", "DOGE")] && t[..1][..0] == [];
    assert Keys(t) == ["XDG", "XBT"];
    if asset == "DOGE" {
      LookupAbsent(t, "DOGE");
      MissingCharNotContained("DOGE", "XDG", 0);
      MissingCharNotContained("DOGE", "XBT", 0);
      RemapStringAbsent(t, "DOGE");
    } else if asset == "BTC" {
      LookupAbsent(t, "BTC");
      MissingCharNotContained("BTC", "XDG", 0);
      MissingCharNotContained("BTC", "XBT", 0);
      RemapStringAbsent(t, "BTC");
    }
  }

  /** Whole-entry and substring renaming differ on a ticker that merely contains a key: `XBTC`
      is not a key, so the list keeps it, but the series rewrites its `XBT` to `BTC`. */
  lemma EmbeddedTickerDisagrees()
    ensures RemapValue(Config.RemapAssets, "XBTC") == "XBTC"
    ensures RemapString(Config.RemapAssets, "XBTC") == "BTCC"
  {
    var t := Config.RemapAssets;
    assert t[..1] == [("XDG", "DOGE")] && t[..1][..0] == [];
    assert Keys(t) == ["XDG", "XBT"];
    LookupAbsent(t, "XBTC");
    MissingCharNotContained("XBTC", "XDG", 1);
    ReplaceAbsent("XBTC", "XDG", "DOGE");
    assert "XBTC" == "XBT" + "C";
    ReplaceHead("C", "XBT", "BTC");
    MissingCharNotContained("C", "XBT", 0);
    ReplaceAbsent("C", "XBT", "BTC");
  }
}

=== FILE: settings.dfy ===
/** The wallet-settings dictionary of lib/functions.py: `{'Wallets': {wallet_type:
    {wallet_subtype: [wallets]}}}`, where a wallet type is `'APIs'` or `'Addresses'`, a subtype
    is an exchange or an asset, and every wallet is a dictionary carrying an integer `'id'`.
    The object under `'Wallets'` is modelled as the field of `AppSettings`, which the entry
    functions update in place. */
module Settings {
  import opened Wrappers
  import opened OrderedDicts
  import opened Lists

  /** One wallet: its `'id'` and the rest of its dictionary (credentials or address). */
  datatype Wallet = Wallet(id: int, details: Dict<string, string>)

  type Subtypes = Dict<string, seq<Wallet>>

  type WalletDict = Dict<string, Subtypes>

  /** settings_default: both wallet types present, each without subtypes. */
  function SettingsDefault(): WalletDict {
    [("APIs", []), ("Addresses", [])]
  }

  // ---------------------------------------------------------------------------------------
  // clean_json.

  /** The subtypes whose wallet list is empty, in dictionary order (the `delete_ls` of
      clean_json). */
  function EmptyKeys(st: Subtypes): (ks: seq<string>)
    ensures forall e :: e in st && e.1 == [] ==> e.0 in ks
    ensures forall k :: k in ks ==> (k, []) in st
  {
    if st == [] then []
    else
      var n := |st| - 1;
      assert st == st[..n] + [st[n]];
      EmptyKeys(st[..n]) + (if st[n].1 == [] then [st[n].0] else [])
  }

  /** One wallet type after clean_json: every subtype with an empty list popped. */
  function CleanSubtypes(st: Subtypes): Subtypes {
    WithoutKeys(st, EmptyKeys(st))
  }

  function CleanAll(ws: WalletDict): (r: WalletDict)
    ensures Keys(r) == Keys(ws)
  {
    seq(|ws|, i requires 0 <= i < |ws| => (ws[i].0, CleanSubtypes(ws[i].1)))
  }

  /** The two loops clean_json runs for one wallet type: collect the empty subtypes, then pop
      them one by one. */
  method CleanSubtypeDict(st: Subtypes) returns (r: Subtypes)
    ensures r == CleanSubtypes(st)
  {
    var deleteLs := CollectEmpty(st);
    r := PopAll(st, deleteLs);
  }

  /** The first loop: `delete_ls` gathers the subtypes whose list is empty. */
  method CollectEmpty(st: Subtypes) returns (deleteLs: seq<string>)
    ensures deleteLs == EmptyKeys(st)
  {
    deleteLs := [];
    var i := 0;
    while i < |st|
      invariant 0 <= i <= |st|
      invariant deleteLs == EmptyKeys(st[..i])
    {
      assert st[..i + 1][..i] == st[..i];
      if st[i].1 == [] {
        deleteLs := deleteLs + [st[i].0];
      }
      i := i + 1;
    }
    assert st[..i] == st;
  }

  /** The second loop: every gathered subtype popped in turn. */
  method PopAll(st: Subtypes, deleteLs: seq<string>) returns (r: Subtypes)
    ensures r == WithoutKeys(st, deleteLs)
  {
    r := st;
    var j := 0;
    while j < |deleteLs|
      invariant 0 <= j <= |deleteLs|
      invariant r == WithoutKeys(st, deleteLs[..j])
    {
      assert deleteLs[..j + 1][..j] == deleteLs[..j];
      r := Without(r, deleteLs[j]);
      j := j + 1;
    }
    assert deleteLs[..j] == deleteLs;
  }

  /** After cleaning, no subtype maps to an empty list, and a subtype with wallets keeps them
      (a dictionary has one entry per key). */
  lemma CleanSubtypesEntries(st: Subtypes)
    requires UniqueKeys(st)
    ensures forall e :: e in CleanSubtypes(st) ==> e in st && e.1 != []
    ensures forall e :: e in st && e.1 != [] ==> e in CleanSubtypes(st)
    ensures UniqueKeys(CleanSubtypes(st))
  {
    WithoutKeysUnique(st, EmptyKeys(st));
    forall e | e in st && e.1 != [] ensures e.0 !in EmptyKeys(st) {
      if e.0 in EmptyKeys(st) {
        SameKeySameEntry(st, e, (e.0, []));
      }
    }
  }

  lemma SameKeySameEntry<V>(d: Dict<string, V>, a: (string, V), b: (string, V))
    requires UniqueKeys(d) && a in d && b in d && a.0 == b.0
    ensures a == b
  {
    var i :| 0 <= i < |d| && d[i] == a;
    var j :| 0 <= j < |d| && d[j] == b;
  }

  /** `d[wst]` once cleaned: present exactly when it was present with wallets. */
  function Cleaned(o: Option<seq<Wallet>>): Option<seq<Wallet>> {
    match o
    case Some(ls) => if ls == [] then None else Some(ls)
    case None => None
  }

  lemma LookupClean(st: Subtypes, k: string)
    requires UniqueKeys(st)
    ensures Lookup(CleanSubtypes(st), k) == Cleaned(Lookup(st, k))
  {
    var c := CleanSubtypes(st);
    CleanSubtypesEntries(st);
    match Lookup(st, k)
    case Some(ls) =>
      LookupUnique(st, k, ls);
      if ls == [] {
        NoEntryNone(c, k);
      } else {
        LookupUnique(c, k, ls);
      }
    case None =>
      forall e | e in c ensures e.0 != k {
        LookupUnique(st, e.0, e.1);
      }
      NoEntryNone(c, k);
  }

  /** A key that no entry carries has no value. */
  lemma NoEntryNone(d: Subtypes, k: string)
    requires forall e :: e in d ==> e.0 != k
    ensures Lookup(d, k) == None
  {
    forall i | 0 <= i < |d| ensures Keys(d)[i] != k {
      assert d[i] in d;
    }
    LookupAbsent(d, k);
  }

  /** One step of clean_json's loop over the wallet types. */
  lemma CleanStep(ws: WalletDict, i: nat)
    requires i < |ws|
    ensures var cur := CleanAll(ws)[..i] + ws[i..];
      cur[i] == ws[i] && cur[i := (ws[i].0, CleanSubtypes(ws[i].1))] == CleanAll(ws)[..i + 1] + ws[i + 1..]
  {
  }

  lemma CleanAllPrefix(ws: WalletDict, n: nat)
    requires n <= |ws|
    ensures CleanAll(ws)[..n] == CleanAll(ws[..n])
  {
    forall i | 0 <= i < n ensures CleanAll(ws)[i] == CleanAll(ws[..n])[i] {
    }
  }

  lemma {:induction false} LookupCleanAll(ws: WalletDict, t: string)
    ensures Lookup(CleanAll(ws), t) == match Lookup(ws, t) case Some(st) => Some(CleanSubtypes(st)) case None => None
  {
    if ws != [] {
      var n := |ws| - 1;
      CleanAllPrefix(ws, n);
      LookupCleanAll(ws[..n], t);
    }
  }

  /** Cleaning twice changes nothing more. */
  lemma CleanIdempotent(st: Subtypes)
    requires UniqueKeys(st)
    ensures CleanSubtypes(CleanSubtypes(st)) == CleanSubtypes(st)
  {
    var c := CleanSubtypes(st);
    CleanSubtypesEntries(st);
    NoEmptyKeys(c);
    assert EmptyKeys(c) == [];
  }

  lemma NoEmptyKeys(st: Subtypes)
    requires forall e :: e in st ==> e.1 != []
    ensures EmptyKeys(st) == []
  {
    if EmptyKeys(st) != [] {
      assert EmptyKeys(st)[0] in EmptyKeys(st);
    }
  }

  // ---------------------------------------------------------------------------------------
  // add_entry_to_json.

  function OrEmpty(o: Option<seq<Wallet>>): seq<Wallet> {
    match o
    case Some(ls) => ls
    case None => []
  }

  /** One subtype of add_entry_to_json: the wallet appended to its list, a new list when the
      subtype is absent or its list is empty. */
  function Appended(st: Subtypes, wst: string, w: Wallet): Subtypes {
    Put(st, wst, OrEmpty(Lookup(st, wst)) + [w])
  }

  /** Every `(subtype, wallet)` of `entries` appended in dictionary order. */
  function AppendAll(st: Subtypes, entries: Dict<string, Wallet>): Subtypes {
    if entries == [] then st
    else
      var n := |entries| - 1;
      Appended(AppendAll(st, entries[..n]), entries[n].0, entries[n].1)
  }

  /** The new dictionary of add_entry_to_json, or the KeyError it raises for a missing wallet
      type, which it reaches only when there is an entry to add. */
  function AddEntrySpec(ws: WalletDict, walletType: string, entries: Dict<string, Wallet>): Result<WalletDict> {
    if entries == [] then Ok(CleanAll(ws))
    else
      match Lookup(ws, walletType)
      case None => Fail("KeyError")
      case Some(st) => Ok(CleanAll(Put(ws, walletType, AppendAll(st, entries))))
  }

  // ---------------------------------------------------------------------------------------
  // remove_entry_from_json.

  function IdIs(index: int): Wallet -> bool {
    (w: Wallet) => w.id == index
  }

  /** Every subtype list after `for wallet in ls: if wallet['id'] == index: ls.remove(wallet)`. */
  function RemoveId(st: Subtypes, index: int): (r: Subtypes)
    ensures Keys(r) == Keys(st)
  {
    seq(|st|, i requires 0 <= i < |st| => (st[i].0, RemoveWhileIterating(st[i].1, IdIs(index), 0)))
  }

  function RemoveEntrySpec(ws: WalletDict, index: int, walletType: string): Result<WalletDict> {
    match Lookup(ws, walletType)
    case None => Fail("KeyError")
    case Some(st) => Ok(CleanAll(Put(ws, walletType, RemoveId(st, index))))
  }

  /** The object under `'Wallets'`, which the entry functions update in place. */
  class AppSettings {
    var wallets: WalletDict

    constructor ()
      ensures wallets == SettingsDefault()
    {
      wallets := SettingsDefault();
    }

    /** clean_json. */
    method Clean()
      modifies this
      ensures wallets == CleanAll(old(wallets))
    {
      var i := 0;
      while i < |wallets|
        invariant 0 <= i <= |wallets| == |old(wallets)|
        invariant wallets == CleanAll(old(wallets))[..i] + old(wallets)[i..]
      {
        CleanStep(old(wallets), i);
        var st := CleanSubtypeDict(wallets[i].1);
        wallets := wallets[i := (wallets[i].0, st)];
        i := i + 1;
      }
    }

    /** add_entry_to_json. */
    method AddEntry(walletType: string, entries: Dict<string, Wallet>) returns (r: Result<()>)
      modifies this
      ensures r.Ok? <==> AddEntrySpec(old(wallets), walletType, entries).Ok?
      ensures r.Ok? ==> wallets == AddEntrySpec(old(wallets), walletType, entries).value
      ensures r.Fail? ==> wallets == old(wallets)
    {
      if entries != [] {
        match Lookup(wallets, walletType)
        case None =>
          return Fail("KeyError");
        case Some(st) =>
          var cur := st;
          var j := 0;
          while j < |entries|
            invariant 0 <= j <= |entries|
            invariant cur == AppendAll(st, entries[..j])
            invariant wallets == old(wallets)
          {
            assert entries[..j + 1][..j] == entries[..j];
            var (wst, w) := entries[j];
            ghost var next := Appended(cur, wst, w);
            assert next == AppendAll(st, entries[..j + 1]);
            match Lookup(cur, wst) {
              case Some(ls) =>
                if ls != [] {
                  cur := Put(cur, wst, ls + [w]);
                } else {
                  assert OrEmpty(Lookup(cur, wst)) + [w] == [w];
                  cur := Put(cur, wst, [w]);
                }
              case None =>
                assert OrEmpty(Lookup(cur, wst)) + [w] == [w];
                cur := Put(cur, wst, [w]);
            }
            assert cur == next;
            j := j + 1;
          }
          assert entries[..j] == entries;
          wallets := Put(wallets, walletType, cur);
      }
      Clean();
      r := Ok(());
    }

    /** remove_entry_from_json. */
    method RemoveEntry(index: int, walletType: string) returns (r: Result<()>)
      modifies this
      ensures r.Ok? <==> RemoveEntrySpec(old(wallets), index, walletType).Ok?
      ensures r.Ok? ==> wallets == RemoveEntrySpec(old(wallets), index, walletType).value
      ensures r.Fail? ==> wallets == old(wallets)
    {
      match Lookup(wallets, walletType)
      case None =>
        return Fail("KeyError");
      case Some(st) =>
        var cur := st;
        var j := 0;
        while j < |cur|
          invariant 0 <= j <= |cur| == |st|
          invariant cur == RemoveId(st, index)[..j] + st[j..]
          invariant wallets == old(wallets)
        {
          var ls := RemoveWhileIteratingLoop(cur[j].1, IdIs(index));
          cur := cur[j := (cur[j].0, ls)];
          j := j + 1;
        }
        assert cur == RemoveId(st, index);
        wallets := Put(wallets, walletType, cur);
        Clean();
        r := Ok(());
    }
  }

  /** Appending keeps one entry per subtype; the subtypes named in the entries get the wallet
      appended at the end of their old list, the others keep theirs. */
  lemma {:induction false} AppendAllLookup(st: Subtypes, entries: Dict<string, Wallet>, k: string)
    requires UniqueKeys(st)
    ensures UniqueKeys(AppendAll(st, entries))
    ensures Lookup(AppendAll(st, entries), k) ==
      match LastValue(entries, k)
      case Some(w) => Some(OrEmpty(Lookup(AppendAll(st, entries[..LastIndex(entries, k)]), k)) + [w])
      case None => Lookup(st, k)
    decreases |entries|
  {
    if entries != [] {
      var n := |entries| - 1;
      var (wst, w) := entries[n];
      var front := AppendAll(st, entries[..n]);
      var ls := OrEmpty(Lookup(front, wst)) + [w];
      assert AppendAll(st, entries) == Put(front, wst, ls);
      AppendAllLookup(st, entries[..n], k);
      PutUnique(front, wst, ls);
      PutLookup(front, wst, ls, k);
      if wst == k {
        assert LastValue(entries, k) == Some(w) && LastIndex(entries, k) == n;
      } else {
        assert LastValue(entries, k) == LastValue(entries[..n], k);
        assert LastIndex(entries, k) == LastIndex(entries[..n], k);
        if LastValue(entries, k).Some? {
          assert entries[..n][..LastIndex(entries[..n], k)] == entries[..LastIndex(entries, k)];
        }
      }
    }
  }

  /** The position of the last pair with key `k` (0 when there is none). */
  function LastIndex(pairs: Dict<string, Wallet>, k: string): (i: nat)
    ensures i <= |pairs|
    ensures LastValue(pairs, k).Some? ==> i < |pairs| && pairs[i] == (k, LastValue(pairs, k).value)
  {
    if pairs == [] then 0
    else if pairs[|pairs| - 1].0 == k then |pairs| - 1
    else LastIndex(pairs[..|pairs| - 1], k)
  }

  /** In a dictionary of entries (one wallet per subtype), each subtype's list grows by exactly
      its wallet, at the end; every other list is untouched. */
  lemma AppendAllOnce(st: Subtypes, entries: Dict<string, Wallet>, k: string)
    requires UniqueKeys(st) && UniqueKeys(entries)
    ensures Lookup(AppendAll(st, entries), k) ==
      match LastValue(entries, k)
      case Some(w) => Some(OrEmpty(Lookup(st, k)) + [w])
      case None => Lookup(st, k)
  {
    AppendAllLookup(st, entries, k);
    if LastValue(entries, k).Some? {
      var i := LastIndex(entries, k);
      assert UniqueKeys(entries[..i]);
      forall j | 0 <= j < i ensures entries[..i][j].0 != k {
        assert entries[j].0 != entries[i].0;
      }
      NoLastValue(entries[..i], k);
      AppendAllLookup(st, entries[..i], k);
    }
  }

  lemma {:induction false} NoLastValue(pairs: Dict<string, Wallet>, k: string)
    requires forall j :: 0 <= j < |pairs| ==> pairs[j].0 != k
    ensures LastValue(pairs, k) == None
  {
    if pairs != [] {
      NoLastValue(pairs[..|pairs| - 1], k);
    }
  }

  /** What add_entry_to_json promises: in the chosen wallet type, every subtype named in the
      entries ends with its new wallet after the old ones, every other subtype keeps its wallets,
      and no subtype is left with an empty list. */
  lemma AddEntryAppends(ws: WalletDict, walletType: string, entries: Dict<string, Wallet>, k: string)
    requires UniqueKeys(ws) && UniqueKeys(entries) && entries != []
    requires forall e :: e in ws ==> UniqueKeys(e.1)
    requires walletType in Keys(ws)
    ensures AddEntrySpec(ws, walletType, entries).Ok?
    ensures Lookup(AddEntrySpec(ws, walletType, entries).value, walletType).Some?
    ensures Lookup(Lookup(AddEntrySpec(ws, walletType, entries).value, walletType).value, k) ==
      match LastValue(entries, k)
      case Some(w) => Some(OrEmpty(Lookup(Lookup(ws, walletType).value, k)) + [w])
      case None => Cleaned(Lookup(Lookup(ws, walletType).value, k))
  {
    var st := Lookup(ws, walletType);
    if st.None? {
      LookupPresent(ws, walletType);
    }
    var added := AppendAll(st.value, entries);
    LookupValue(ws, walletType);
    AppendAllLookup(st.value, entries, k);
    AppendAllOnce(st.value, entries, k);
    PutLookup(ws, walletType, added, walletType);
    LookupCleanAll(Put(ws, walletType, added), walletType);
    LookupClean(added, k);
  }

  /** Removing by id keeps one entry per subtype. */
  lemma RemoveIdUnique(st: Subtypes, index: int)
    requires UniqueKeys(st)
    ensures UniqueKeys(RemoveId(st, index))
  {
    var removed := RemoveId(st, index);
    forall i, j | 0 <= i < j < |st| ensures removed[i].0 != removed[j].0 {
      assert Keys(removed)[i] == Keys(st)[i];
    }
  }

  /** A subtype's list after removal by id is what the removal loop leaves of its old list. */
  lemma RemoveIdLookup(st: Subtypes, index: int, k: string)
    requires UniqueKeys(st)
    ensures Lookup(RemoveId(st, index), k) ==
      match Lookup(st, k) case Some(ls) => Some(RemoveWhileIterating(ls, IdIs(index), 0)) case None => None
  {
    var removed := RemoveId(st, index);
    RemoveIdUnique(st, index);
    match Lookup(st, k)
    case Some(ls) =>
      LookupUnique(st, k, ls);
      var i :| 0 <= i < |st| && st[i] == (k, ls);
      assert removed[i] == (k, RemoveWhileIterating(ls, IdIs(index), 0));
      LookupUnique(removed, k, RemoveWhileIterating(ls, IdIs(index), 0));
    case None =>
      forall e | e in removed ensures e.0 != k {
        var i :| 0 <= i < |removed| && removed[i] == e;
        LookupUnique(st, k, st[i].1);
      }
      NoEntryNone(removed, k);
  }

  /** What remove_entry_from_json promises when no two neighbouring wallets of a list carry the
      id (as when ids are unique): the wallets with that id are gone, all others stay. */
  lemma RemoveEntryRemoves(ws: WalletDict, index: int, walletType: string, k: string)
    requires Lookup(ws, walletType).Some?
    requires UniqueKeys(Lookup(ws, walletType).value)
    requires forall f :: f in Lookup(ws, walletType).value ==> NoAdjacent(f.1, IdIs(index))
    ensures RemoveEntrySpec(ws, index, walletType).Ok?
    ensures Lookup(RemoveEntrySpec(ws, index, walletType).value, walletType).Some?
    ensures forall w: Wallet :: w in OrEmpty(Lookup(Lookup(RemoveEntrySpec(ws, index, walletType).value, walletType).value, k)) <==>
      w in OrEmpty(Lookup(Lookup(ws, walletType).value, k)) && w.id != index
  {
    var st := Lookup(ws, walletType).value;
    var removed := RemoveId(st, index);
    RemoveIdUnique(st, index);
    PutLookup(ws, walletType, removed, walletType);
    LookupCleanAll(Put(ws, walletType, removed), walletType);
    assert Lookup(RemoveEntrySpec(ws, index, walletType).value, walletType) == Some(CleanSubtypes(removed));
    LookupClean(removed, k);
    RemoveIdLookup(st, index, k);
    if Lookup(st, k).Some? {
      var ls := Lookup(st, k).value;
      LookupUnique(st, k, ls);
      assert NoAdjacent(ls, IdIs(index));
      RemoveWhileIteratingRejects(ls, IdIs(index));
      RejectMembers(ls, IdIs(index));
    }
  }

  // ---------------------------------------------------------------------------------------
  // get_latest_index_from_json.

  /** The ids of every wallet of one type, subtype by subtype. */
  function Ids(st: Subtypes): seq<int> {
    if st == [] then []
    else
      var n := |st| - 1;
      Ids(st[..n]) + seq(|st[n].1|, k requires 0 <= k < |st[n].1| => st[n].1[k].id)
  }

  /** `max([-1] + ids)`. */
  function MaxId(ids: seq<int>): (m: int)
    ensures m >= -1
    ensures forall i :: i in ids ==> i <= m
    ensures m == -1 || m in ids
  {
    if ids == [] then -1
    else
      var n := |ids| - 1;
      var front := MaxId(ids[..n]);
      assert ids == ids[..n] + [ids[n]];
      if ids[n] > front then ids[n] else front
  }

  /** get_latest_index_from_json: one more than the largest id of the wallet type, 0 when it has
      none, or the KeyError for a missing wallet type. */
  function LatestIndex(ws: WalletDict, walletType: string): Result<int> {
    match Lookup(ws, walletType)
    case None => Fail("KeyError")
    case Some(st) => Ok(MaxId(Ids(st)) + 1)
  }

  lemma {:induction false} IdsMembers(st: Subtypes, w: Wallet, e: (string, seq<Wallet>))
    requires e in st && w in e.1
    ensures w.id in Ids(st)
  {
    var n := |st| - 1;
    if e == st[n] {
      var k :| 0 <= k < |e.1| && e.1[k] == w;
      assert Ids(st)[|Ids(st[..n])| + k] == w.id;
    } else {
      assert e in st[..n];
      IdsMembers(st[..n], w, e);
    }
  }

  /** The index returned is fresh: no wallet of the type carries it, it is not negative, and it
      follows the largest id directly. */
  lemma LatestIndexFresh(ws: WalletDict, walletType: string)
    ensures LatestIndex(ws, walletType).Ok? <==> walletType in Keys(ws)
    ensures LatestIndex(ws, walletType).Ok? ==>
      var r := LatestIndex(ws, walletType).value;
      var st := Lookup(ws, walletType).value;
      r >= 0 && (r == 0 || r - 1 in Ids(st)) &&
      forall e, w :: e in st && w in e.1 ==> w.id < r
  {
    if walletType in Keys(ws) {
      LookupPresent(ws, walletType);
      var st := Lookup(ws, walletType).value;
      forall e, w | e in st && w in e.1 ensures w.id < MaxId(Ids(st)) + 1 {
        IdsMembers(st, w, e);
      }
    } else {
      LookupAbsent(ws, walletType);
    }
  }

  /** A fresh settings file: nothing to clean, and both wallet types start numbering at 0. */
  lemma DefaultSettings()
    ensures CleanAll(SettingsDefault()) == SettingsDefault()
    ensures LatestIndex(SettingsDefault(), "APIs") == Ok(0)
    ensures LatestIndex(SettingsDefault(), "Addresses") == Ok(0)
  {
    assert SettingsDefault()[..1][..0] == [];
    assert CleanSubtypes([]) == [];
  }

  // ---------------------------------------------------------------------------------------
  // mask_str.

  /** mask_str: the first character and `...` for a string shorter than 8, otherwise the first
      three characters, `...` and the last three; the IndexError of an empty string. */
  function MaskStr(s: string): (r: Result<string>)
    ensures r.Fail? <==> s == []
    ensures r.Ok? ==> |r.value| == (if |s| < 8 then 4 else 9) && r.value[0] == s[0]
    ensures r.Ok? && |s| >= 8 ==> r.value[..3] == s[..3] && r.value[6..] == s[|s| - 3..]
  {
    if |s| < 8 then
      if s == [] then Fail("IndexError") else Ok([s[0]] + "...")
    else Ok(s[0..3] + "..." + s[|s| - 3..])
  }

  /** The mask shows only the ends: long strings with the same three first and three last
      characters, or short strings with the same first character, are masked alike. */
  lemma MaskHidesMiddle(s: string, t: string)
    requires s != [] && t != []
    requires (|s| < 8 && |t| < 8 && s[0] == t[0]) ||
      (|s| >= 8 && |t| >= 8 && s[..3] == t[..3] && s[|s| - 3..] == t[|t| - 3..])
    ensures MaskStr(s) == MaskStr(t)
  {
  }
}

=== FILE: strings.dfy ===
/** The parts of Python's `str` and `list` behaviour the model relies on. */
module Strings {

  predicate StartsWith(s: string, p: string) {
    |p| <= |s| && s[..|p|] == p
  }

  predicate EndsWith(s: string, p: string) {
    |p| <= |s| && s[|s| - |p|..] == p
  }

  /** A string whose character at `i` differs from the pattern's does not start with it. */
  lemma StartsWithDiffers(s: string, p: string, i: nat)
    requires i < |p| && i < |s| && s[i] != p[i]
    ensures !StartsWith(s, p)
  {
  }

  predicate OccursAt(s: string, p: string, i: int) {
    0 <= i && i + |p| <= |s| && s[i..i + |p|] == p
  }

  /** Python's `p in s` for strings. */
  predicate Contains(s: string, p: string) {
    exists i | 0 <= i <= |s| - |p| :: OccursAt(s, p, i)
  }

  /** A string that lacks one of the pattern's characters does not contain the pattern. */
  lemma MissingCharNotContained(s: string, p: string, j: nat)
    requires j < |p| && p[j] !in s
    ensures !Contains(s, p)
  {
  }

  /** `repl` inserted before every character of `s` and at its end: Python's `s.replace('', repl)`. */
  function InsertAround(s: string, repl: string): string {
    if s == [] then repl else repl + [s[0]] + InsertAround(s[1..], repl)
  }

  /** Python's `s.replace(pat, repl)`: every non-overlapping occurrence, scanned from the left. */
  function ReplaceAll(s: string, pat: string, repl: string): string {
    if pat == [] then InsertAround(s, repl) else ReplaceScan(s, pat, repl)
  }

  /** The left-to-right scan for a non-empty pattern. */
  function ReplaceScan(s: string, pat: string, repl: string): string
    requires pat != []
    decreases |s|
  {
    if s == [] then []
    else if StartsWith(s, pat) then repl + ReplaceScan(s[|pat|..], pat, repl)
    else [s[0]] + ReplaceScan(s[1..], pat, repl)
  }

  lemma ContainsTail(s: string, p: string)
    requires s != [] && Contains(s[1..], p)
    ensures Contains(s, p)
  {
    var i :| 0 <= i <= |s[1..]| - |p| && OccursAt(s[1..], p, i);
    assert s[1..][i..i + |p|] == s[i + 1..i + 1 + |p|];
    assert OccursAt(s, p, i + 1);
  }

  /** A string in which `pat` does not occur is left as it is. */
  lemma {:induction false} ReplaceAbsent(s: string, pat: string, repl: string)
    requires pat != [] && !Contains(s, pat)
    ensures ReplaceAll(s, pat, repl) == s
  {
    if s != [] {
      assert !StartsWith(s, pat) by {
        if StartsWith(s, pat) { assert OccursAt(s, pat, 0); }
      }
      if Contains(s[1..], pat) { ContainsTail(s, pat); }
      ReplaceAbsent(s[1..], pat, repl);
    }
  }

  /** A first character that is not the pattern's is kept. */
  lemma ScanKeepsFirst(s: string, pat: string, repl: string)
    requires pat != [] && s != [] && s[0] != pat[0]
    ensures ReplaceScan(s, pat, repl) == [s[0]] + ReplaceScan(s[1..], pat, repl)
  {
    StartsWithDiffers(s, pat, 0);
  }

  /** The first `k` characters, none of them the pattern's first, are passed over unchanged. */
  lemma {:induction false} ScanSkipPrefix(s: string, k: nat, pat: string, repl: string)
    requires pat != [] && k <= |s| && forall i :: 0 <= i < k ==> s[i] != pat[0]
    ensures ReplaceScan(s, pat, repl) == s[..k] + ReplaceScan(s[k..], pat, repl)
    decreases k
  {
    if k == 0 {
      assert s[..k] == [] && s[k..] == s;
    } else {
      var t := s[1..];
      ScanKeepsFirst(s, pat, repl);
      ScanSkipPrefix(t, k - 1, pat, repl);
      SliceAfterFirst(s, k);
      AppendAssoc([s[0]], t[..k - 1], ReplaceScan(s[k..], pat, repl));
    }
  }

  lemma SliceAfterFirst<T>(s: seq<T>, k: nat)
    requires 0 < k <= |s|
    ensures s[1..][k - 1..] == s[k..] && s[..k] == [s[0]] + s[1..][..k - 1]
  {
  }

  lemma AppendAssoc<T>(a: seq<T>, b: seq<T>, c: seq<T>)
    ensures a + (b + c) == (a + b) + c
  {
  }

  /** A front part without the pattern's first character is passed over unchanged. */
  lemma ReplaceSkip(a: string, b: string, pat: string, repl: string)
    requires pat != [] && forall i :: 0 <= i < |a| ==> a[i] != pat[0]
    ensures ReplaceAll(a + b, pat, repl) == a + ReplaceAll(b, pat, repl)
  {
    ScanSkipPrefix(a + b, |a|, pat, repl);
    assert (a + b)[..|a|] == a && (a + b)[|a|..] == b;
  }

  /** An occurrence at the front is replaced and the scan goes on after it. */
  lemma ReplaceHead(b: string, pat: string, repl: string)
    requires pat != []
    ensures ReplaceAll(pat + b, pat, repl) == repl + ReplaceAll(b, pat, repl)
  {
    assert StartsWith(pat + b, pat);
    assert (pat + b)[|pat|..] == b;
  }

  /** A single occurrence after a part without the pattern's first character. */
  lemma ReplaceOnce(a: string, pat: string, b: string, repl: string)
    requires pat != [] && (forall i :: 0 <= i < |a| ==> a[i] != pat[0]) && !Contains(b, pat)
    ensures ReplaceAll(a + pat + b, pat, repl) == a + repl + b
  {
    ReplaceSkip(a, pat + b, pat, repl);
    ReplaceHead(b, pat, repl);
    ReplaceAbsent(b, pat, repl);
    assert a + pat + b == a + (pat + b);
  }

  /** A string equal to `pat` becomes `repl`. */
  lemma ReplaceWhole(pat: string, repl: string)
    requires pat != []
    ensures ReplaceAll(pat, pat, repl) == repl
  {
    assert StartsWith(pat, pat);
    assert pat[|pat|..] == [];
    assert ReplaceScan(pat[|pat|..], pat, repl) == [];
  }

  /** Replacing a pattern that cannot occur in a single character: the characters of `s` are
      rewritten one for one. */
  lemma {:induction false} ReplaceCharByChar(s: string, a: char, b: char)
    ensures |ReplaceAll(s, [a], [b])| == |s|
    ensures forall i :: 0 <= i < |s| ==> ReplaceAll(s, [a], [b])[i] == (if s[i] == a then b else s[i])
  {
    if s != [] {
      ReplaceCharByChar(s[1..], a, b);
      if StartsWith(s, [a]) {
        assert s[1..] == s[|[a]|..];
      }
    }
  }

  /** Python's `s.split(sep)` for a one-character separator. */
  function SplitOn(s: string, sep: char): (parts: seq<string>)
    ensures |parts| >= 1
    ensures forall k :: 0 <= k < |parts| ==> sep !in parts[k]
  {
    if s == [] then [[]]
    else
      var rest := SplitOn(s[1..], sep);
      if s[0] == sep then [[]] + rest else [[s[0]] + rest[0]] + rest[1..]
  }

  /** Python's `sep.join(parts)`. */
  function JoinWith(parts: seq<string>, sep: char): string {
    if |parts| == 0 then []
    else if |parts| == 1 then parts[0]
    else parts[0] + [sep] + JoinWith(parts[1..], sep)
  }

  /** Splitting and joining on the same separator gives the string back. */
  lemma {:induction false} SplitJoin(s: string, sep: char)
    ensures JoinWith(SplitOn(s, sep), sep) == s
  {
    if s != [] {
      var rest := SplitOn(s[1..], sep);
      SplitJoin(s[1..], sep);
      if s[0] == sep {
        assert SplitOn(s, sep)[1..] == rest;
      } else {
        var parts := SplitOn(s, sep);
        assert parts[1..] == rest[1..];
        if |rest| > 1 {
          assert JoinWith(rest, sep) == rest[0] + [sep] + JoinWith(rest[1..], sep);
        }
      }
    }
  }

  /** A string without the separator splits into itself alone. */
  lemma {:induction false} SplitNone(s: string, sep: char)
    requires sep !in s
    ensures SplitOn(s, sep) == [s]
  {
    if s != [] {
      SplitNone(s[1..], sep);
      assert [s[0]] + s[1..] == s;
    }
  }

  /** `a + sep + b` with the separator in neither part splits into exactly `[a, b]`. */
  lemma {:induction false} SplitTwo(a: string, b: string, sep: char)
    requires sep !in a && sep !in b
    ensures SplitOn(a + [sep] + b, sep) == [a, b]
  {
    if a == [] {
      assert a + [sep] + b == [sep] + b;
      SplitNone(b, sep);
    } else {
      assert (a + [sep] + b)[1..] == a[1..] + [sep] + b;
      SplitTwo(a[1..], b, sep);
      assert [a[0]] + a[1..] == a;
    }
  }

  /** The first part of `a + sep + b` is `a` when `a` has no separator. */
  lemma {:induction false} SplitFirst(a: string, b: string, sep: char)
    requires sep !in a
    ensures SplitOn(a + [sep] + b, sep)[0] == a
  {
    if a == [] {
      assert a + [sep] + b == [sep] + b;
    } else {
      assert (a + [sep] + b)[1..] == a[1..] + [sep] + b;
      SplitFirst(a[1..], b, sep);
      assert [a[0]] + a[1..] == a;
    }
  }

  function LowerChar(c: char): char {
    if 'A' <= c <= 'Z' then (c as int + 32) as char else c
  }

  function UpperChar(c: char): char {
    if 'a' <= c <= 'z' then (c as int - 32) as char else c
  }

  /** Python's `s.lower()` on ASCII letters. */
  function Lower(s: string): (r: string)
    ensures |r| == |s|
  {
    seq(|s|, i requires 0 <= i < |s| => LowerChar(s[i]))
  }

  /** Python's `s.upper()` on ASCII letters. */
  function Upper(s: string): (r: string)
    ensures |r| == |s|
  {
    seq(|s|, i requires 0 <= i < |s| => UpperChar(s[i]))
  }

  /** Case conversion leaves characters other than letters alone, so `/` stays out of it. */
  lemma UpperKeepsSlashOut(s: string)
    requires '/' !in s
    ensures '/' !in Upper(s)
  {
    forall i | 0 <= i < |s| ensures Upper(s)[i] != '/' {
      assert s[i] != '/';
    }
  }

  lemma UpperAppend(a: string, b: string)
    ensures Upper(a + b) == Upper(a) + Upper(b)
  {
    assert forall i :: 0 <= i < |a| ==> (a + b)[i] == a[i];
    assert forall i :: |a| <= i < |a| + |b| ==> (a + b)[i] == b[i - |a|];
  }

  /** pandas `drop_duplicates`: the first occurrence of every value, in order. */
  function Distinct<T(==,!new)>(s: seq<T>): (r: seq<T>)
    ensures forall x :: x in r <==> x in s
    ensures forall i, j :: 0 <= i < j < |r| ==> r[i] != r[j]
  {
    if s == [] then []
    else
      var d := Distinct(s[..|s| - 1]);
      assert forall x :: x in s <==> x in s[..|s| - 1] || x == s[|s| - 1];
      if s[|s| - 1] in d then d else d + [s[|s| - 1]]
  }

  /** `s.split(sep)[0]`: the part of `s` before its first `sep`, all of `s` when there is none. */
  function FirstPart(s: string, sep: char): string {
    SplitOn(s, sep)[0]
  }

  /** `list(set(s.split(sep)[0] for s in symbols))`: every part before the first `sep`, each once. */
  function FirstParts(symbols: seq<string>, sep: char): (parts: seq<string>)
    ensures forall a :: a in parts <==> exists s :: s in symbols && FirstPart(s, sep) == a
    ensures forall i, j :: 0 <= i < j < |parts| ==> parts[i] != parts[j]
  {
    var heads := seq(|symbols|, i requires 0 <= i < |symbols| => FirstPart(symbols[i], sep));
    assert forall s :: s in symbols ==> FirstPart(s, sep) in heads by {
      forall s | s in symbols ensures FirstPart(s, sep) in heads {
        var i :| 0 <= i < |symbols| && symbols[i] == s;
        assert heads[i] == FirstPart(s, sep);
      }
    }
    Distinct(heads)
  }

  lemma DistinctSnoc<T(!new)>(s: seq<T>, x: T)
    ensures Distinct(s + [x]) == if x in Distinct(s) then Distinct(s) else Distinct(s) + [x]
  {
    assert (s + [x])[..|s|] == s;
  }

  /** How many times `x` occurs in `s` (Python's `s.count(x)`). */
  function Count<T(==)>(s: seq<T>, x: T): nat {
    if s == [] then 0 else Count(s[..|s| - 1], x) + (if s[|s| - 1] == x then 1 else 0)
  }

  lemma {:induction false} CountAbsent<T>(s: seq<T>, x: T)
    requires x !in s
    ensures Count(s, x) == 0
  {
    if s != [] {
      assert forall y :: y in s[..|s| - 1] ==> y in s;
      CountAbsent(s[..|s| - 1], x);
    }
  }

  /** In a list without duplicates every member occurs once. */
  lemma {:induction false} CountDistinct<T>(s: seq<T>, x: T)
    requires forall i, j :: 0 <= i < j < |s| ==> s[i] != s[j]
    requires x in s
    ensures Count(s, x) == 1
  {
    var n := |s| - 1;
    if s[n] == x {
      CountAbsent(s[..n], x);
    } else {
      assert x in s[..n] by {
        var i :| 0 <= i < |s| && s[i] == x;
        assert i < n && s[..n][i] == x;
      }
      CountDistinct(s[..n], x);
    }
  }
}

=== FILE: wrappers.dfy ===
/** Failure-carrying results shared by every module of the model. */
module Wrappers {

  /** A Python value that may be None. */
  datatype Option<+T> = None | Some(value: T)

  /** The outcome of a Python call: a value, or the exception it raises (named by `reason`). */
  datatype Result<+T> = Ok(value: T) | Fail(reason: string)
}
